=== FILE: README.md ===
# RWIS motion scoring, modelled in Dafny

RWIS scores how closely a performer's motion matches a reference motion. This
project models the deterministic core of that pipeline and proves properties of
the model:

- **Wire decoding** (`Boxes`, `Receiver`). The motion-capture UDP format is a
  sequence of boxes: a little-endian u32 payload length, a 4-byte tag, then the
  payload. On top of the framing sit the parsers for transforms (`tran`),
  skeleton definitions (`skdf`/`bons`/`bndt`), frames (`fram`/`btrs`/`btdt`)
  and the three-box packet, plus the 27-entry bone-name table. Each parser is
  paired with an encoder, and round trips are proved.
- **Sliding banded DTW** (`SlidingDtw`). There are two equal-length buffers of
  at most W feature vectors, with oldest-first eviction and non-finite frames
  dropped. The Sakoe-Chiba banded recurrence is defined as a full matrix
  (`Dp`) over the distances of the buffered pairs (`PairDist`), and the
  two-row rolling computation (`ComputeRolling`) is proved to produce the same
  cost.
- **Mocopi adapter** (`MocopiAdapter`). Two streams ("player" and "ref"), each
  with a bounded position history per joint. Only `l_hand` and `r_hand` are
  recognised.
- **Scoring** (`Utils`, `PoseScore`, `RhythmScore`, `Scoring`). This covers:
  - letter grading and the quaternion distance;
  - JSON-to-motion-data defaulting;
  - the weighted pose average over the joint table;
  - the velocity-based rhythm score;
  - the orchestration in `src/main.py`: the reset short-circuit, DTW feature
    extraction, the neutral 0.5 trajectory, weighted fusion and the catch-all
    error reply.

Modelling conventions:

- Python values are the algebraic `PyValues.Value`: None, bool, number, str,
  list, dict as an ordered list of entries, and numpy array as shape plus flat
  data.
- A raised exception is an `Err` carrying the exception class.
- The module-level globals (`dtw_trajectory` and the adapter's `_histories`)
  are one explicit `Scoring.Session` value. Every entry point takes it and
  returns it. Mutations made before an exception are kept, as in the source.
- Floats are exact reals or `NonFinite`.
- `exp`, `arccos` and `sqrt` are the fields of a `MathLib` parameter. The
  lemmas assume only the laws they need (`ExpLaws`, `SqrtLaws`,
  `ArccosLaws`).
- The seven floats of a `tran` payload are opaque 32-bit words.

`SlidingDTW.compute` with a band below -1 and at least two frames stores to
`curr[j_start - 1]` past the end of the row and raises `IndexError`.
`SlidingDtw.Cost` returns that error (`SlidingDtw.CostNegativeBand`). The band
used by the pipeline is 8, so this never happens there
(`Scoring.SessionCostDefined`).

## Model

| member | source | states |
|---|---|---|
| `Config.WeightsWellFormed` | src/config.py:3-20 | the fusion weights sum to 1, every joint weight is at least 0.5, and joint names are distinct |
| `Boxes.LeU16` | src/receiver.py:129 | a `<H` field is below 2^16 |
| `Boxes.LeU32` | src/receiver.py:68 | a `<I` field is below 2^32 |
| `Boxes.U16RoundTrip` | src/receiver.py:129 | decoding the two little-endian bytes of n gives back n |
| `Boxes.U32RoundTrip` | src/receiver.py:68 | decoding the four little-endian bytes of n gives back n |
| `Boxes.Hex` | src/receiver.py:73 | the hex spelling has two characters per byte |
| `Boxes.DecodeTag` | src/receiver.py:69-73 | a tag decodes to 4 characters when all its bytes are ASCII, and to its 8-character hex spelling otherwise |
| `Boxes.TagRoundTrip` | src/receiver.py:69-73 | an ASCII tag written as bytes decodes back to itself |
| `Boxes.ReadBox` | src/receiver.py:60-80 | fails with a truncated header exactly when fewer than 8 bytes remain; otherwise fails exactly when the declared length runs past the buffer; on success the payload is exactly the declared bytes after the header and the next offset is offset + 8 + length |
| `Boxes.Scan` | src/receiver.py:83-87 | the loop of iter_boxes over the unread bytes: the boxes read in order, then the error that stops it, if any; characterised by `Boxes.ReadBoxSuffix`, `Boxes.ScanEncodedThenTail` and `Boxes.ScanRoundTrip` |
| `Boxes.IterBoxes` | src/receiver.py:83-87 | iter_boxes over a whole payload, i.e. `Boxes.Scan` from offset 0; its round trip is `Boxes.ScanRoundTrip` |
| `Boxes.ReadBoxShift` | src/receiver.py:60-80 | reading a box does not depend on the bytes before the offset |
| `Boxes.ReadBoxSuffix` | src/receiver.py:60-87 | reading a box at an offset reads what reading at 0 of the suffix from that offset reads, with the next offset moved by the same amount, so the loop of iter_boxes can be stated on the unread suffix |
| `Boxes.ReadBoxEncoded` | src/receiver.py:60-80 | an encoded box is read back with its tag and payload, whatever follows it |
| `Boxes.ScanEncodedThenTail` | src/receiver.py:83-87 | iterating encoded boxes followed by any tail yields those boxes in order, then what the tail yields |
| `Boxes.ScanRoundTrip` | src/receiver.py:60-87 | iter_boxes over an encoded box sequence yields that sequence, in order, with no error |
| `Boxes.ReadBoxAt` | src/receiver.py:60-80 | a box encoded at some offset is read back from that offset |
| `Boxes.ReadBoxExtend` | src/receiver.py:75-80 | a box that fits in a buffer reads the same after bytes are appended |
| `Receiver.NatToString` | src/receiver.py:57 | str(n) is a non-empty string of decimal digits |
| `Receiver.NatToStringValue` | src/receiver.py:57 | the digits of str(n) denote n |
| `Receiver.IntToStringRoundTrip` | src/receiver.py:57 | str(i) parses back to i, negative ids included |
| `Receiver.TableNamesDistinct` | src/receiver.py:20-27 | the 27 table names are pairwise distinct |
| `Receiver.TableNamesNotSynthesized` | src/receiver.py:20-27 | no table name has the `bone_` form used for other ids |
| `Receiver.BoneNameRoundTrip` | src/receiver.py:56-57 | every id, in the table or not, is recovered from its bone name |
| `Receiver.BoneName` | src/receiver.py:56-57 | the table name of an id inside the table, `bone_<id>` otherwise; characterised by `Receiver.BoneNameRoundTrip`, `Receiver.BoneNameInjective` and `Receiver.TableNamesNotSynthesized` |
| `Receiver.BoneNameInjective` | src/receiver.py:56-57 | two ids have the same bone name exactly when they are equal |
| `Receiver.ParseTran` | src/receiver.py:90-95 | fails exactly when the payload has fewer than 28 bytes; otherwise the rotation is the first four little-endian words and the position the next three, and extra bytes are ignored |
| `Receiver.TranRoundTrip` | src/receiver.py:90-95 | a transform written as 28 bytes, followed by any extra bytes, parses back to itself |
| `Receiver.LastField` | src/receiver.py:127-131 | a field found is the payload of some box with that tag and at least the minimum length |
| `Receiver.BndtFoldLastWins` | src/receiver.py:127-133 | the bndt loop fails exactly when some tran is too short; otherwise bone id, parent id and rest pose come from the last qualifying box of each tag |
| `Receiver.ParseBndtSpec` | src/receiver.py:122-137 | parse_bndt succeeds exactly when the framing is sound, every tran is long enough, and a bnid and a pbid of at least 2 bytes are both present; the last occurrence wins and the rest pose is optional |
| `Receiver.ParseBndt` | src/receiver.py:122-137 | parse_bndt; characterised by `Receiver.ParseBndtSpec` (when it succeeds, and with which fields) and `Receiver.BndtRoundTrip` |
| `Receiver.Tagged` | src/receiver.py:144-145 | the boxes kept all carry the requested tag |
| `Receiver.CollectIgnoresOtherTags` | src/receiver.py:142-147 | children with other tags play no part in what is collected |
| `Receiver.CollectAllParsed` | src/receiver.py:142-147 | children that all parse are collected as their parsed values, in order |
| `Receiver.NestedSnoc` | src/receiver.py:142-146 | the nested reference read one top-level box at a time: a parent box appends its children or fails with their error, and any other box changes nothing |
| `Receiver.SkdfFoldNested` | src/receiver.py:142-146 | the skdf loop equals the reference: the bndt children of every bons box concatenated in order, failing with the first child error, other top-level boxes playing no part |
| `Receiver.ParseSkdfSpec` | src/receiver.py:140-147 | parse_skdf succeeds exactly when the framing is sound and every bndt child of every bons box parses; the bones are those children in order, and a child's error is raised before the framing error |
| `Receiver.ParseSkdf` | src/receiver.py:140-147 | parse_skdf; characterised by `Receiver.ParseSkdfSpec` and `Receiver.SkdfRoundTrip` |
| `Receiver.BtdtFoldLastWins` | src/receiver.py:154-158 | the btdt loop fails exactly when some tran is too short; otherwise bone id and transform come from the last qualifying box |
| `Receiver.ParseBtdtSpec` | src/receiver.py:150-162 | parse_btdt succeeds exactly when the framing is sound, every tran is long enough, and both a bnid and a tran are present |
| `Receiver.ParseBtdt` | src/receiver.py:150-162 | parse_btdt; characterised by `Receiver.ParseBtdtSpec` and `Receiver.BtdtRoundTrip` |
| `Receiver.FramFoldLastWins` | src/receiver.py:170-178 | the fram loop fails exactly when the btdt children of its btrs boxes fail, with the first such error; otherwise the frame number and time come from the last fnum and time boxes of at least 4 bytes and the bones are the btdt children of every btrs box, in order (`Receiver.Nested`) |
| `Receiver.ParseFramFields` | src/receiver.py:165-182 | parse_fram succeeds exactly when the framing is sound, every btdt child of every btrs box parses, and fnum and time are both present; the last of each wins, the bones are those btdt children in order, and a child's error is raised before the framing error |
| `Receiver.ParseFram` | src/receiver.py:165-182 | parse_fram; characterised by `Receiver.ParseFramFields` and `Receiver.FramRoundTrip` |
| `Receiver.ParseFramed` | src/receiver.py:98-119 | parse_head and parse_info fail exactly when their framing fails, and otherwise see the child boxes in order |
| `Receiver.BndtRoundTrip` | src/receiver.py:122-137 | an encoded skeleton bone parses back to itself, with or without a rest pose |
| `Receiver.BonsRoundTrip` | src/receiver.py:144-146 | the bndt children written for a list of bones parse back to that list |
| `Receiver.SkdfRoundTrip` | src/receiver.py:140-147 | parse_skdf recovers every bone of an encoded skeleton, in order |
| `Receiver.BtdtRoundTrip` | src/receiver.py:150-162 | an encoded frame bone parses back to itself |
| `Receiver.BtrsRoundTrip` | src/receiver.py:175-178 | the btdt children written for a list of frame bones parse back to that list |
| `Receiver.FramRoundTrip` | src/receiver.py:165-182 | parse_fram recovers the frame number, the time and every bone, in order |
| `Receiver.FramFoldOfBoxes` | src/receiver.py:170-178 | the fram loop over an encoded frame's boxes sets the frame number, then the time, then collects exactly the encoded bones |
| `Receiver.ReadThree` | src/receiver.py:189-192 | the three top-level boxes are read back at consecutive offsets |
| `Receiver.ParsePacketThree` | src/receiver.py:185-204 | parsing three written boxes reads exactly those three boxes back and decides on them alone, whatever their sizes |
| `Receiver.ParseBoxesSelect` | src/receiver.py:197-204 | once head and info are framed: a third tag `skdf` gives a skeleton exactly when parse_skdf succeeds on its payload and otherwise parse_skdf's error; `fram` likewise with parse_fram; any other tag gives an unknown packet carrying the payload length; the first two tags are not checked |
| `Receiver.ParseBoxesFails` | src/receiver.py:194-195 | a head payload that fails its framing makes the packet fail with that error, and otherwise a failing info payload does |
| `Receiver.ParsePacketFails` | src/receiver.py:189-204 | a datagram without three readable boxes fails; with three, a failing head, info, skdf body or fram body makes parse_packet fail with exactly that error |
| `Receiver.ParsePacket` | src/receiver.py:185-204 | parse_packet; characterised by `Receiver.ParsePacketThree`, `Receiver.ParseBoxesSelect`, `Receiver.ParsePacketIgnoresTrailing`, `Receiver.ParsePacketTruncatedHeader`, `Receiver.ParsePacketUnknown` and the two packet round trips |
| `Receiver.ParseBoxes` | src/receiver.py:194-204 | the part of parse_packet after its three boxes are read; characterised by `Receiver.ParseBoxesSelect` |
| `Receiver.ParsePacketIgnoresTrailing` | src/receiver.py:189-192 | bytes after the third box change nothing |
| `Receiver.ParsePacketTruncatedHeader` | src/receiver.py:65-66 | a datagram shorter than one box header is a truncated-header error |
| `Receiver.ParsePacketUnknown` | src/receiver.py:204 | any third tag other than skdf and fram gives an unknown packet with that tag and its payload length |
| `Receiver.SkeletonPacketRoundTrip` | src/receiver.py:185-199 | a packet carrying an encoded skeleton parses back to that skeleton, whatever the first two tags |
| `Receiver.FramePacketRoundTrip` | src/receiver.py:185-202 | a packet carrying an encoded frame parses back to that frame, whatever the first two tags |
| `Seqs.LastN` | src/dtw_online.py:45-47 | keeps the last n elements, in order |
| `Seqs.SliceFrom` | src/mocopi_adapter.py:61 | Python slicing `xs[start:]`: a negative start keeps the last -start elements |
| `Seqs.LastNAppend` | src/mocopi_adapter.py:59-61 | appending and then keeping n is keeping n - 1 and then appending |
| `Seqs.LastNOfLastN` | src/mocopi_adapter.py:59-61 | keeping the last k of the last n (k <= n) is keeping the last k |
| `Seqs.LastNTrimThenAppend` | src/mocopi_adapter.py:59-61 | trimming to n, appending and trimming to n again is appending and trimming once |
| `Floats.Clip` | src/pose_score.py:39 | np.clip stays in [lo, hi] and is the identity inside it |
| `Floats.Sub` | src/rhythm_score.py:28 | a difference is finite exactly when both operands are |
| `Floats.Norm` | src/rhythm_score.py:48-49 | a norm is finite exactly when every component is |
| `Floats.DistSelf` | src/dtw_online.py:72 | the distance of a vector to itself is 0 |
| `Floats.DistNonNegative` | src/dtw_online.py:72 | a distance is never negative |
| `PyValues.Get` | src/main.py:37-38 | a dict lookup finds a value exactly when some entry has that key |
| `PyValues.Put` | src/mocopi_adapter.py:55 | after an assignment the key maps to the new value and every other key is unchanged |
| `PyValues.Truthy` | src/main.py:33 | the truth value of an array raises exactly when it does not hold exactly one element |
| `PyValues.OrElse` | src/utils.py:107 | `x or default` yields one of the two |
| `PyValues.PyFloat` | src/mocopi_adapter.py:52-53 | float() keeps a number, and refuses None, lists, dicts and strings |
| `PyValues.PyFloats` | src/mocopi_adapter.py:52-53 | converting a list succeeds element by element, and fails only if some element fails |
| `PyValues.FloatList` | src/mocopi_adapter.py:52-55 | a list of floats as a Python list of numbers |
| `PyValues.Stack` | src/utils.py:96-97 | stacking n arrays gives an array with n rows |
| `PyValues.AsArray` | src/utils.py:96-97 | np.asarray keeps an array, makes a number a scalar, and refuses strings and dicts |
| `PyValues.Reshape` | src/utils.py:112 | a reshape succeeds exactly when the element counts agree, and keeps the elements |
| `PyValues.AsVector` | src/main.py:46-47 | a successful reshape to n gives n floats |
| `PyValues.AsVectorOfFloatList` | src/utils.py:112 | a list of floats converts back to the same floats |
| `PyValues.Iterate` | src/utils.py:124 | iterating a list yields its items, and iterating None, a bool or a number raises |
| `PyValues.MotionDict` | src/utils.py:134-139 | the four scoring fields are present with the given values |
| `PyValues.GetSnoc` | src/mocopi_adapter.py:55 | appending an entry for a new key leaves earlier lookups unchanged |
| `SlidingDtw.ExtMin` | src/dtw_online.py:73-77 | the minimum is one of its arguments, infinite only when both are, and below both |
| `SlidingDtw.Init` | src/dtw_online.py:17-21 | a new DTW has empty buffers and the given window and band |
| `SlidingDtw.Reset` | src/dtw_online.py:23-25 | reset empties both buffers and keeps window and band |
| `SlidingDtw.PlayerFeature` | src/dtw_online.py:35 | the stored player feature is the player vector truncated to the common dimension |
| `SlidingDtw.RefFeature` | src/dtw_online.py:36 | the stored reference feature is the reference vector truncated to the common dimension |
| `SlidingDtw.AddFrame` | src/dtw_online.py:27-47 | a frame with dimension 0 or a non-finite component changes nothing; otherwise both truncated features are appended and, past W, the oldest pair is dropped; the buffers stay the same length and never exceed W |
| `SlidingDtw.AddFrameKeepsDim` | src/dtw_online.py:42-47 | adding a frame of dimension d keeps every buffered vector d-dimensional |
| `SlidingDtw.HasDimUniform` | src/dtw_online.py:72 | buffers of d-dimensional vectors allow a distance between every player and reference vector |
| `SlidingDtw.AddFrameWindow` | src/dtw_online.py:42-47 | if the buffers are the last W features seen, they still are after one more accepted frame |
| `SlidingDtw.WindowIsLastAccepted` | src/dtw_online.py:27-47 | after any sequence of frames, the buffers hold exactly the last W accepted features |
| `SlidingDtw.AddAllKeepsParams` | src/dtw_online.py:17-19 | adding frames never changes window or band |
| `SlidingDtw.FirstRow` | src/dtw_online.py:58-59 | the initial row is 0 followed by infinities |
| `SlidingDtw.NextRow` | src/dtw_online.py:61-79 | one pass of the outer loop computes row i of the banded recurrence, or reports the row overrun |
| `SlidingDtw.ComputeRolling` | src/dtw_online.py:49-85 | the two-row computation equals the cost defined by the full recurrence: 0 for no frames, the pair's distance for one, an IndexError exactly on a row overrun |
| `SlidingDtw.Dp` | src/dtw_online.py:61-77 | the banded recurrence dp[i][j] that the two rows hold, over an abstract pair distance; characterised by `SlidingDtw.DpNonNegative`, `SlidingDtw.DpDiagonalZero` and `SlidingDtw.DpDiagonalFinite` |
| `SlidingDtw.Cost` | src/dtw_online.py:49-85 | compute() as dp[n][n]/n, 0 for no frames, the pair distance for one frame, IndexError on a row overrun; `SlidingDtw.ComputeRolling` proves the two-row loop computes it, and `SlidingDtw.CostNonNegative`, `SlidingDtw.CostIdentical`, `SlidingDtw.CostNegativeBand` and `SlidingDtw.CostIsNormalisedDiagonal` characterise it |
| `SlidingDtw.DpNonNegative` | src/dtw_online.py:71-77 | when every pair distance is non-negative, every finite cell of the recurrence is non-negative |
| `SlidingDtw.CostNonNegative` | src/dtw_online.py:49-85 | compute() never returns a negative cost |
| `SlidingDtw.DpDiagonalZero` | src/dtw_online.py:71-77 | when each frame is at distance 0 from its counterpart, distances are non-negative and the band is at least 0, the diagonal of the recurrence is 0 |
| `SlidingDtw.CostIdentical` | src/dtw_online.py:49-85 | identical buffers cost 0 |
| `SlidingDtw.CostNegativeBand` | src/dtw_online.py:64-69 | with a negative band and at least two frames, band -1 yields 0 and any lower band raises IndexError |
| `SlidingDtw.DpDiagonalFinite` | src/dtw_online.py:64-77 | with a band of at least 0, every diagonal cell is reachable, so finite |
| `SlidingDtw.CostIsNormalisedDiagonal` | src/dtw_online.py:81-85 | for two or more frames and a band of at least 0, the cost is dp[n][n] / n and never the non-finite fallback |
| `SlidingDtw.ResetCost` | src/dtw_online.py:23-25 | compute() after reset is 0 |
| `MocopiAdapter.NameMap` | src/mocopi_adapter.py:11-17 | exactly `l_hand` and `r_hand` are recognised |
| `MocopiAdapter.ResetAdapter` | src/mocopi_adapter.py:19-21 | both streams forget every joint |
| `MocopiAdapter.Keep` | src/mocopi_adapter.py:60-61 | a history keeps its last max_len entries when max_len is at least 1, and everything when it is 0 |
| `MocopiAdapter.HistoryValue` | src/mocopi_adapter.py:63 | the output trajectory lists every recorded position, in order |
| `MocopiAdapter.Step` | src/mocopi_adapter.py:41-63 | unrecognised and badly shaped bones change nothing; a recognised non-dict bone raises AttributeError; a recognised well-shaped bone goes through exactly when float() accepts all seven values, and then its joint's history becomes the old history plus the new position, trimmed, and its rotation is the incoming one; an exception leaves the histories as they were; no other joint changes |
| `MocopiAdapter.Converted` | src/mocopi_adapter.py:42-53 | a bone yields a rotation of four and a position of three floats only when it is recognised, well shaped and convertible |
| `MocopiAdapter.StepRecords` | src/mocopi_adapter.py:41-63 | one iteration, against the reference: it raises exactly when the bone does not pass; when it takes the bone for a joint, that joint's history, rotation and trajectory are the trimmed append, the converted rotation and the new history; otherwise that joint is unchanged |
| `MocopiAdapter.AllPassSnoc` | src/mocopi_adapter.py:41-53 | all bones pass exactly when all but the last do and the last does |
| `MocopiAdapter.BonesPasses` | src/mocopi_adapter.py:41-53 | the loop finishes without an exception exactly when every bone is ignored, skipped for its shape, or converts |
| `MocopiAdapter.TracksTaken` | src/mocopi_adapter.py:55-63 | taking one more pair for a joint extends the tracked history, rotation and trajectory by that pair |
| `MocopiAdapter.StepTracks` | src/mocopi_adapter.py:41-63 | one iteration keeps every joint's history, rotation and trajectory equal to the reference built from the pairs accepted so far |
| `MocopiAdapter.BonesRecords` | src/mocopi_adapter.py:41-63 | when the loop finishes, each joint's history is the old one with every accepted position appended in order and trimmed to max_len (unchanged if none was accepted), its rotation is the last accepted one, and its trajectory is its new history |
| `MocopiAdapter.KeepTrimThenAppend` | src/mocopi_adapter.py:59-61 | trimming on every append gives the same window as trimming once at the end |
| `MocopiAdapter.Recognised` | src/mocopi_adapter.py:42-43 | the bones kept are all recognised ones |
| `MocopiAdapter.Bones` | src/mocopi_adapter.py:41-63 | the loop over the bones; characterised by `MocopiAdapter.BonesPasses` (when it raises), `MocopiAdapter.BonesRecords` (what it records), `MocopiAdapter.BonesIgnoreUnrecognised`, `MocopiAdapter.BonesFrame` and `MocopiAdapter.BonesBounded` |
| `MocopiAdapter.BonesIgnoreUnrecognised` | src/mocopi_adapter.py:41-44 | the loop over all bones equals the loop over the recognised ones |
| `MocopiAdapter.BonesFrame` | src/mocopi_adapter.py:41-63 | joints other than the two hands are never touched, and each output trajectory is that joint's whole history |
| `MocopiAdapter.ParseStream` | src/mocopi_adapter.py:29-30 | only "player" and "ref" are accepted stream names |
| `MocopiAdapter.WithHistory` | src/mocopi_adapter.py:32 | updating one stream leaves the other stream's histories unchanged |
| `MocopiAdapter.AdaptFrame` | src/mocopi_adapter.py:23-70 | any other stream name raises ValueError and changes nothing; adapting one stream leaves the other alone; a non-dict frame changes nothing; the output has a timestamp of time / 1e9, rotations, trajectories and an empty rhythm signal |
| `MocopiAdapter.AdaptOnlyHands` | src/mocopi_adapter.py:41-44 | no joint other than LeftHand and RightHand is ever recorded, on either stream |
| `MocopiAdapter.AdaptFrameRecords` | src/mocopi_adapter.py:23-70 | with a valid stream, a dict frame, a convertible time and bones that are a dict or falsy: the call succeeds exactly when every bone passes, the stream's history is always the loop's, and on success every joint's rotations and trajectories entries are the reference's |
| `MocopiAdapter.AdaptFrameRejects` | src/mocopi_adapter.py:34-41 | a non-dict frame, a time float() refuses, an ambiguous bones value or a non-dict bones value each raise before the loop and leave the state unchanged |
| `MocopiAdapter.AdaptTrajectoriesAreHistory` | src/mocopi_adapter.py:57-63 | every trajectory in the output is the joint's whole recorded history |
| `MocopiAdapter.KeepBounded` | src/mocopi_adapter.py:57-61 | after an append the history holds at most max_len entries and ends with the new position; with max_len 0 nothing is dropped |
| `MocopiAdapter.StepBounded` | src/mocopi_adapter.py:57-61 | one bone keeps every history within max_len |
| `MocopiAdapter.BonesBounded` | src/mocopi_adapter.py:41-63 | the whole loop keeps every history within max_len |
| `MocopiAdapter.AdaptKeepsBounded` | src/mocopi_adapter.py:57-61 | with max_len at least 1, adapting a frame keeps both streams' histories within max_len |
| `Utils.ComputeGrade` | src/utils.py:85-93 | Perfect from 0.85, Good from 0.70, OK from 0.50, Miss below, each band with its lower bound included |
| `Utils.GradeMonotone` | src/utils.py:85-93 | a higher score never gets a worse grade |
| `Utils.SafeUnitQuat` | src/utils.py:10-16 | the identity when the norm is non-finite or below 1e-8; otherwise each component times the norm is the input component |
| `Utils.SafeUnitQuatIsUnit` | src/utils.py:10-16 | the result always has unit length |
| `Utils.Shift` | src/utils.py:32-33 | the second ordering puts w (the last component) first and keeps x, y, z in order after it |
| `Utils.ShiftFourTimes` | src/utils.py:32-33 | the reordering is a rotation of the four components: four of them give back the quaternion |
| `Utils.QuatDistance` | src/utils.py:28-47 | the distance lies in [0, 1] and is the smaller of the clipped direct and shifted readings |
| `Utils.QuaternionDistance` | src/utils.py:19-47 | raises exactly when an input does not reshape to 4; otherwise the distance is finite and in [0, 1] |
| `Utils.QuatDistanceSymmetric` | src/utils.py:35-47 | the distance is symmetric in its arguments |
| `Utils.QuatDistanceSelf` | src/utils.py:19-47 | a quaternion is at distance 0 from itself |
| `Utils.NormNeg` | src/utils.py:13 | negating a quaternion keeps its norm |
| `Utils.SafeUnitQuatNeg` | src/utils.py:10-16 | normalising a negated quaternion negates the result, unless it falls back to the identity |
| `Utils.AntipodalDot` | src/utils.py:36 | a quaternion and its negation have a normalised dot product of absolute value 1 |
| `Utils.AntipodalAngle` | src/utils.py:35-39 | the angle between a quaternion and its negation is 0 |
| `Utils.QuatDistanceAntipodal` | src/utils.py:28-47 | q and -q, the same rotation, are at distance 0 |
| `Utils.Vector` | src/utils.py:112 | a converted point or rotation is an array of exactly n floats |
| `Utils.Points` | src/utils.py:124 | a trajectory converts exactly when every point reshapes to 3, point by point |
| `Utils.KeepConvertedKeyed` | src/utils.py:109-126 | a joint survives conversion exactly when its entry converts, and carries the converted value; other joints do not interfere |
| `Utils.JsonToMotionData` | src/utils.py:100-139 | a non-dict raises; otherwise all four fields are present, rotations and trajectories as dicts and the rhythm signal as an array, with the timestamp copied |
| `Utils.MotionDataDefaults` | src/utils.py:105-139 | an empty message gives timestamp 0.0, empty rotations, empty trajectories and an empty rhythm signal |
| `Utils.MotionDataParts` | src/utils.py:107-126 | rotations and trajectories are the converted entries of the message's dicts, or empty |
| `Utils.MotionDataRotations` | src/utils.py:107-115 | a rotation that does not reshape to 4 is dropped and every other one is kept |
| `Utils.MotionDataTrajectories` | src/utils.py:117-126 | a trajectory that is None or has a point that does not reshape to 3 is dropped as a whole; the others are kept |
| `Utils.MotionDataRhythm` | src/utils.py:128-132 | an unconvertible rhythm signal becomes the empty array |
| `PoseScore.PoseWith` | src/pose_score.py:10-39 | non-dict inputs give 0.0; with dicts an error arises only from a table joint's distance; the score lies in [0, 1] |
| `PoseScore.ComputePoseScore` | src/pose_score.py:10-39 | non-dict inputs give 0.0, and the score always lies in [0, 1] |
| `PoseScore.WeightSumContributors` | src/pose_score.py:23-32 | the weight sum is 0 exactly when no joint contributes, and at least the smallest table weight otherwise |
| `PoseScore.StepBounded` | src/pose_score.py:27-32 | one joint with distance in [0, 1] keeps the total between 0 and the weight sum |
| `PoseScore.TotalBounded` | src/pose_score.py:27-32 | for distances in [0, 1], the weighted total lies between 0 and the weight sum |
| `PoseScore.TotalZero` | src/pose_score.py:27-32 | if every contributing distance is 0, the total is 0 |
| `PoseScore.AccumulateOnlyTable` | src/pose_score.py:23-25 | joints outside the table, or absent from either side, have no influence |
| `PoseScore.AccumulateTotal` | src/pose_score.py:26 | when every present table joint's distance is defined, the loop does not raise |
| `PoseScore.PoseNoContributors` | src/pose_score.py:34-35 | with no contributing joint the score is exactly 0.0 |
| `PoseScore.PoseWeightedMean` | src/pose_score.py:31-39 | with a contributor, the weight sum exceeds 1e-8 and the score is 1 minus the weighted mean distance, with the clip inert |
| `PoseScore.PosePerfect` | src/pose_score.py:31-39 | if every contributing distance is 0, the score is 1.0 |
| `PoseScore.PoseOnlyTableJoints` | src/pose_score.py:23-25 | two pairs of maps that agree on the table joints get the same score |
| `PoseScore.TableWeights` | src/config.py:9-20 | every joint weight is at least 0.5 |
| `PoseScore.QuatDistUnit` | src/pose_score.py:27 | the quaternion distance is finite and in [0, 1] whenever it is defined |
| `PoseScore.PoseSelf` | src/pose_score.py:10-39 | a pose compared with itself scores 1.0 if some table joint is present, and 0.0 otherwise |
| `PoseScore.PoseIdentical` | src/pose_score.py:10-39 | identical rotation maps of quaternions score 1.0 if some table joint is present, and 0.0 otherwise |
| `RhythmScore.AsTwoD` | src/rhythm_score.py:7-21 | a scalar becomes 1x1, a vector Tx1, a matrix is unchanged, and higher ranks become T x rest; only a higher rank with T = 0 raises |
| `RhythmScore.ToMatrix` | src/rhythm_score.py:28 | a 2-D array as rows of its width |
| `RhythmScore.RowDiff` | src/rhythm_score.py:28 | the difference of two rows has their width |
| `RhythmScore.Velocity` | src/rhythm_score.py:24-28 | T rows give T - 1 differences, or none when T < 2, with the width kept |
| `RhythmScore.ComputeVelocity` | src/rhythm_score.py:24-28 | raises exactly when the signal does not convert or cannot be made 2-D |
| `RhythmScore.Magnitudes` | src/rhythm_score.py:48-49 | one magnitude per row, finite exactly when the row is |
| `RhythmScore.AbsDiff` | src/rhythm_score.py:58 | the absolute differences are finite exactly when both inputs are |
| `RhythmScore.AbsAll` | src/rhythm_score.py:63 | absolute values are non-negative and finite exactly when the input is |
| `RhythmScore.SumNonNegative` | src/rhythm_score.py:63 | a sum of non-negative values is non-negative |
| `RhythmScore.Mean` | src/rhythm_score.py:58-63 | a mean is finite exactly when every value is, and non-negative for non-negative values |
| `Seqs.CommonLength` | src/rhythm_score.py:51 | the compared length is the shorter of the two series' lengths, and equals one of them; `add_frame` (src/dtw_online.py:32) truncates both features to the same common dimension |
| `RhythmScore.ScoreMagnitudes` | src/rhythm_score.py:43-67 | the score lies in [0, 1]; it is 0.5 with no magnitudes and 0.0 when the mean error is not finite |
| `RhythmScore.ComputeRhythmScore` | src/rhythm_score.py:31-67 | raises exactly when a velocity raises; the score lies in [0, 1] and is exactly 0.5 when either velocity is empty |
| `RhythmScore.VelocityTelescopes` | src/rhythm_score.py:28 | the velocities of a column add up to its last value minus its first |
| `RhythmScore.TelescopePrefix` | src/rhythm_score.py:28 | the first k velocities of a column add up to row k minus row 0 |
| `RhythmScore.VelocityOfConstant` | src/rhythm_score.py:28 | a constant signal has zero velocity |
| `RhythmScore.ScoreIgnoresExcess` | src/rhythm_score.py:51-56 | magnitudes beyond the shorter length play no part |
| `RhythmScore.ScoreFinite` | src/rhythm_score.py:58-67 | with finite magnitudes, the score is exp(-err / denom) and strictly positive |
| `RhythmScore.ScoreSelf` | src/rhythm_score.py:58-67 | finite magnitudes compared with themselves score 1.0 |
| `RhythmScore.SumZero` | src/rhythm_score.py:58 | a sum of zeros is 0 |
| `RhythmScore.RhythmSelf` | src/rhythm_score.py:31-67 | a moving finite signal compared with itself scores 1.0 |
| `RhythmScore.EmptySignalNeutral` | src/rhythm_score.py:40-45 | an empty list signal has no velocity, so against it the score is 0.5 unless the other side raises |
| `Scoring.InitSession` | src/main.py:21 | the import-time state satisfies the session invariant, with empty buffers and histories |
| `Scoring.ResetState` | src/main.py:24-26 | reset empties the DTW buffers and both adapter streams, keeps window and band, and keeps the invariant |
| `Scoring.LastPoint` | src/main.py:46-47 | the last sample as 3 floats, present exactly when it reshapes to 3 |
| `Scoring.ExtractDtwFeature` | src/main.py:32-54 | raises only for an array-valued trajectories field whose truth value is ambiguous; otherwise gives a feature exactly when both hand lists are non-empty and their last samples reshape to 3 finite floats, and the feature is the last left-hand sample followed by the last right-hand sample |
| `Scoring.FeatureAccepted` | src/main.py:54 | a 6-vector feature is always accepted by add_frame, with dimension 6 |
| `Scoring.ReferenceData` | src/main.py:71-72 | a reference dict that already has rotations and trajectories is used as is; any other reference is exactly json_to_motion_data of it, so a non-dict raises |
| `Scoring.Fuse` | src/main.py:95-100 | the fused score lies in [0, 1] |
| `Scoring.TrajectoryScore` | src/main.py:86-87 | the trajectory score lies in [0, 1] |
| `Scoring.Finish` | src/main.py:95-112 | the reply carries the three sub-scores, the fused score and its grade |
| `Scoring.Score` | src/main.py:60-123 | a scoring call keeps the session invariant, never touches the adapter, and ends with scores or the error reply; a scored reply's final score is the weighted fusion of its parts and its grade is that score's grade |
| `Scoring.ScoreData` | src/main.py:74-93 | the same, once both messages are converted |
| `Scoring.Combine` | src/main.py:79-93 | the same, once pose, features and rhythm are known; without both features the session is unchanged, and with both the pair has gone into the DTW window whether or not the reply then fails |
| `Scoring.Advance` | src/main.py:84 | add_frame with two features keeps the buffers valid and 6-dimensional |
| `Scoring.ProcessUnity` | src/main.py:60-123 | a malformed message gives the error reply with the state unchanged; a reset request resets and acknowledges; only a reset request is acknowledged; any other message is scored against the reference (`Scoring.Score`); the adapter is untouched otherwise |
| `Scoring.ProcessMocopi` | src/main.py:129-164 | either message malformed gives the error reply with the state unchanged; a reset command on either side resets everything and acknowledges; the invariant is kept |
| `Scoring.ProcessMocopiAdapts` | src/main.py:148-164 | without a reset command: a player frame the adapter rejects gives the error reply keeping the player history it recorded; a rejected reference frame likewise keeps both; otherwise the reply is exactly process_unity_message's on the two adapted dicts, in the state holding both new histories |
| `Scoring.IsResetRequest` | src/main.py:65 | a dict whose `reset` is `True` or whose `command` is `"reset"`; `Scoring.ProcessUnity` states what it leads to |
| `Scoring.IsResetCommand` | src/main.py:143-144 | a dict whose `command` is `"reset"`; `Scoring.ProcessMocopi` states what it leads to |
| `Scoring.AdaptKeepsInv` | src/main.py:149-150 | adapting a frame with WINDOW_SIZE keeps the session invariant |
| `Scoring.SessionCostDefined` | src/main.py:21 | compute() on the session's DTW never raises and is never negative |
| `Scoring.ScoreFailsExactly` | src/main.py:60-123 | a scoring call gives the error reply exactly when converting either side, the pose score, either feature or the rhythm score raises; an error before the features leaves the session unchanged; once both features are extracted the session holds the added pair (if both exist) even when compute or the rhythm score then raises |
| `Scoring.CombineFailsExactly` | src/main.py:79-93 | once both features are known, only the rhythm score can make the reply fail |
| `Scoring.ScoredReply` | src/main.py:74-112 | a scored reply carries the pose and rhythm of the converted messages; without both features the trajectory is 0.5, there is no cost and the session is unchanged; with them exactly one add_frame is performed, and the trajectory is clip(exp(-cost)) of the resulting window |
| `Scoring.CombineScored` | src/main.py:79-88 | the trajectory part of a scored reply, given pose, features and rhythm |
| `Scoring.MirroredTrajectory` | src/main.py:84-88 | with identical windows and identical features, the cost is 0, the trajectory score is 1, and the windows stay identical |
| `Scoring.ScoredInRange` | src/main.py:95-112 | every number in a scored reply lies in [0, 1], final is the weighted fusion, and the grade is that of final |
| `Scoring.EmptyReferenceRhythm` | src/main.py:71-72 | a reference already in scoring format with an empty rhythm signal gives rhythm 0.5 |
| `Scoring.MocopiRhythmNeutral` | src/main.py:149-153 | on the mocopi path the rhythm of a scored reply is always 0.5, because the adapter emits an empty signal |

## Left out

- The UDP receive loop, argument parsing, printing and skeleton cache of `src/receiver.py` (lines 207-266) are I/O and are not modelled.
- `src/mocopi_live.py`, `src/mock_mocopi.py` and `src/test.py` are not part of this model. They are OSC/UDP servers and a random packet sender: I/O and threads.
- `src/Documentation/Archives/trajectory_score.py` is not part of this model. It is an archived scorer that nothing calls.
- `low_pass_filter` and `normalize_positions` in `src/utils.py` are not part of this model. The pipeline does not use them.
- The test scripts are not part of this model.
- `parse_head` and `parse_info` are modelled for framing only. The interpretation of their `ftyp`, `vrsn`, `ipad` and `rcvp` fields is left out.
- IEEE-754 decoding of the `tran` floats is left out. The seven values are opaque 32-bit words.
- float32 rounding and overflow are left out. Arithmetic is exact.
- The values of `exp`, `arccos` and `sqrt` are left out. They are parameters, and lemmas assume only the laws they state.
- `json.loads` and `json.dumps` are left out. A message is either its decoded value or `Malformed`. The reply records which of the three shapes it has, but not the error text or the exception class.
- On the mocopi path, the player's adapted dict goes through `json.dumps` and `json.loads`. That round trip is taken as the identity on the values the adapter builds.
- The conversion of numeric strings by `float()` and numpy is not modelled. A string is never convertible to a float.
- Dicts are lists of entries. Distinct keys are assumed where a lemma needs them (`DistinctKeys`).
- A non-dict reference that reaches `json_to_motion_data` raises there, so the model treats it as an exception.
- MocopiAdapter.BonesRecords: stated for max_len >= 0. With a negative max_len the source trims from the front on every append; `MocopiAdapter.Keep` models that, but no lemma characterises it.
- SlidingDtw.Cost: requires every buffered vector to have one common dimension; numpy's broadcasting or raising on vectors of different lengths is not modelled. The session invariant proves the pipeline's vectors always have dimension 6.
- PoseScore.ComputePoseScore: its own contract states only the range and the non-dict case; the weighted-mean characterisation is in `PoseScore.PoseWeightedMean` and `PoseScore.PoseNoContributors`, proved for any distance with values in [0, 1].
- Scoring.Score: its own contract states only the invariant and the outcome kind; what a scored or failed reply contains is in `Scoring.ScoredReply`, `Scoring.ScoredInRange` and `Scoring.ScoreFailsExactly`.
- PyValues.Truthy: follows NumPy 2.2 and later, where the truth value of an empty array raises `ValueError`. Earlier NumPy versions return `False` for it, with a `DeprecationWarning`; that behaviour is not modelled.

=== FILE: adapter.dfy ===
/**
 * src/mocopi_adapter.py: turns one raw mocopi frame into the scoring format,
 * keeping a bounded position history per joint for each of two streams.
 * The module-level history table becomes an explicit AdapterState.
 */
module MocopiAdapter {
  import opened Wrappers
  import opened Floats
  import opened Seqs
  import opened PyValues

  /** The positions recorded for one joint, oldest first. */
  type History = seq<seq<Float>>

  datatype AdapterState = AdapterState(player: map<string, History>, ref: map<string, History>)

  /** The bones the adapter recognises and the joints they feed. */
  function NameMap(bone: string): (r: Option<string>)
    ensures r.Some? <==> bone == "l_hand" || bone == "r_hand"
  {
    if bone == "l_hand" then Some("LeftHand")
    else if bone == "r_hand" then Some("RightHand")
    else None
  }

  function EmptyState(): AdapterState {
    AdapterState(map[], map[])
  }

  /** reset_adapter_state(): both streams forget every joint. */
  function ResetAdapter(s: AdapterState): (r: AdapterState)
    ensures r.player == map[] && r.ref == map[]
  {
    EmptyState()
  }

  /** `history[joint][-max_len:]` applied only when the history is longer than max_len. */
  function Keep(h: History, maxLen: int): (r: History)
    ensures maxLen >= 1 ==> r == LastN(h, maxLen)
    ensures maxLen == 0 ==> r == h
    ensures |r| <= |h|
  {
    if |h| > maxLen then SliceFrom(h, -maxLen) else h
  }

  /** A history in the output: a list of [x, y, z] lists. */
  function HistoryValue(h: History): (r: Value)
    ensures r.List? && |r.items| == |h|
    ensures forall i :: 0 <= i < |h| ==> r.items[i] == FloatList(h[i])
  {
    List(seq(|h|, i requires 0 <= i < |h| => FloatList(h[i])))
  }

  function Recorded(hist: map<string, History>, joint: string): History {
    if joint in hist then hist[joint] else []
  }

  /** The locals of adapt_mocopi_frame's loop, plus the exception that ended it, if any. */
  datatype Loop = Loop(hist: map<string, History>, rotations: Entries, trajectories: Entries, err: Option<PyError>)

  /** The bone data carries a 4-element rot_xyzw list and a 3-element pos_xyz list. */
  predicate WellShaped(data: Value)
    requires data.Dict?
  {
    var rot := GetOr(data.entries, "rot_xyzw", Null);
    var pos := GetOr(data.entries, "pos_xyz", Null);
    rot.List? && |rot.items| == 4 && pos.List? && |pos.items| == 3
  }

  /** Every joint listed in the output trajectories maps to the whole recorded history. */
  ghost predicate TrajectoriesMirror(l: Loop) {
    forall k :: Get(l.trajectories, k).Some? ==> k in l.hist && Get(l.trajectories, k) == Some(HistoryValue(l.hist[k]))
  }

  /** One iteration of the loop over bones. */
  function Step(acc: Loop, bone: (string, Value), maxLen: int): (r: Loop)
    ensures acc.err.Some? || NameMap(bone.0).None? ==> r == acc
    ensures acc.err.None? && NameMap(bone.0).Some? && !bone.1.Dict? ==> r == acc.(err := Some(AttributeError))
    ensures acc.err.None? && bone.1.Dict? && !WellShaped(bone.1) ==> r == acc
    ensures r.err.None? ==> forall k :: k != NameMap(bone.0).GetOr("") ==> Recorded(r.hist, k) == Recorded(acc.hist, k)
    ensures r.err.Some? && acc.err.None? ==> r.hist == acc.hist
    ensures
      && acc.err.None? && NameMap(bone.0).Some? && bone.1.Dict? && WellShaped(bone.1) && r.err.None?
      ==>
      var pos := GetOr(bone.1.entries, "pos_xyz", Null).items;
      var rot := GetOr(bone.1.entries, "rot_xyzw", Null).items;
      var joint := NameMap(bone.0).value;
      && PyFloats(rot).Ok? && PyFloats(pos).Ok?
      && Recorded(r.hist, joint) == Keep(Recorded(acc.hist, joint) + [PyFloats(pos).value], maxLen)
      && Get(r.rotations, joint) == Some(FloatList(PyFloats(rot).value))
    ensures acc.err.None? && NameMap(bone.0).Some? && bone.1.Dict? && WellShaped(bone.1) ==>
      (r.err.None? <==>
         PyFloats(GetOr(bone.1.entries, "rot_xyzw", Null).items).Ok? &&
         PyFloats(GetOr(bone.1.entries, "pos_xyz", Null).items).Ok?)
    ensures TrajectoriesMirror(acc) ==> TrajectoriesMirror(r)
  {
    if acc.err.Some? then acc
    else
      match NameMap(bone.0)
      case None => acc
      case Some(joint) =>
        if !bone.1.Dict? then acc.(err := Some(AttributeError))
        else
          var rot := GetOr(bone.1.entries, "rot_xyzw", Null);
          var pos := GetOr(bone.1.entries, "pos_xyz", Null);
          if !(rot.List? && |rot.items| == 4 && pos.List? && |pos.items| == 3) then acc
          else
            match PyFloats(rot.items)
            case Err(e) => acc.(err := Some(e))
            case Ok(rl) =>
              match PyFloats(pos.items)
              case Err(e) => acc.(err := Some(e))
              case Ok(pl) =>
                var h := Keep(Recorded(acc.hist, joint) + [pl], maxLen);
                Loop(acc.hist[joint := h], Put(acc.rotations, joint, FloatList(rl)),
                     Put(acc.trajectories, joint, HistoryValue(h)), None)
  }

  /** The loop over bones.items(), in order. */
  function Bones(hist: map<string, History>, bones: Entries, maxLen: int): Loop
  {
    if |bones| == 0 then Loop(hist, [], [], None)
    else Step(Bones(hist, bones[..|bones| - 1], maxLen), bones[|bones| - 1], maxLen)
  }

  /** The bones the adapter recognises, in order. */
  function Recognised(bones: Entries): (r: Entries)
    ensures forall i :: 0 <= i < |r| ==> NameMap(r[i].0).Some?
  {
    if |bones| == 0 then []
    else if NameMap(bones[|bones| - 1].0).Some? then Recognised(bones[..|bones| - 1]) + [bones[|bones| - 1]]
    else Recognised(bones[..|bones| - 1])
  }

  /** Unrecognised bones play no part: the loop over all bones equals the loop over the recognised ones. */
  lemma {:induction false} BonesIgnoreUnrecognised(hist: map<string, History>, bones: Entries, maxLen: int)
    ensures Bones(hist, bones, maxLen) == Bones(hist, Recognised(bones), maxLen)
  {
    if |bones| > 0 {
      var pre := bones[..|bones| - 1];
      BonesIgnoreUnrecognised(hist, pre, maxLen);
      if NameMap(bones[|bones| - 1].0).Some? {
        var rs := Recognised(pre) + [bones[|bones| - 1]];
        assert rs[..|rs| - 1] == Recognised(pre);
      }
    }
  }

  /** The loop never touches a joint no bone maps to, and its trajectories mirror the history. */
  lemma {:induction false} BonesFrame(hist: map<string, History>, bones: Entries, maxLen: int)
    ensures var l := Bones(hist, bones, maxLen);
      forall k :: k != "LeftHand" && k != "RightHand" ==> Recorded(l.hist, k) == Recorded(hist, k)
    ensures TrajectoriesMirror(Bones(hist, bones, maxLen))
  {
    if |bones| > 0 {
      BonesFrame(hist, bones[..|bones| - 1], maxLen);
    }
  }

  /**
   * The rotation and position a bone contributes: it names a tracked joint, its
   * data is a dict of the expected shape, and `float()` accepts every value.
   */
  function Converted(bone: (string, Value)): (r: Option<(seq<Float>, seq<Float>)>)
    ensures r.Some? ==> |r.value.0| == 4 && |r.value.1| == 3
  {
    if NameMap(bone.0).Some? && bone.1.Dict? && WellShaped(bone.1) then
      var rot := PyFloats(GetOr(bone.1.entries, "rot_xyzw", Null).items);
      var pos := PyFloats(GetOr(bone.1.entries, "pos_xyz", Null).items);
      if rot.Ok? && pos.Ok? then Some((rot.value, pos.value)) else None
    else None
  }

  /** The loop gets past a bone without raising: it is ignored, skipped for its shape, or converts. */
  predicate Passes(bone: (string, Value)) {
    NameMap(bone.0).None? || (bone.1.Dict? && (WellShaped(bone.1) ==> Converted(bone).Some?))
  }

  /** The rotations and positions the loop takes for `joint`, in the order of `bones`. */
  function Accepted(bones: Entries, joint: string): seq<(seq<Float>, seq<Float>)>
  {
    if |bones| == 0 then []
    else
      var last := bones[|bones| - 1];
      var pre := Accepted(bones[..|bones| - 1], joint);
      if NameMap(last.0) == Some(joint) && Converted(last).Some? then pre + [Converted(last).value] else pre
  }

  /** The positions of the accepted pairs. */
  function Positions(acc: seq<(seq<Float>, seq<Float>)>): History
  {
    seq(|acc|, i requires 0 <= i < |acc| => acc[i].1)
  }

  /** Trimming before an append is undone by the trim after it (a non-negative window). */
  lemma KeepTrimThenAppend(h: History, p: seq<Float>, maxLen: int)
    requires maxLen >= 0
    ensures Keep(Keep(h, maxLen) + [p], maxLen) == Keep(h + [p], maxLen)
  {
    if maxLen >= 1 {
      LastNTrimThenAppend(h, p, maxLen);
    }
  }

  /** One step of the loop against the reference: whether it raises, and what it does to `joint`. */
  lemma StepRecords(acc: Loop, bone: (string, Value), maxLen: int, joint: string)
    requires acc.err.None?
    ensures Step(acc, bone, maxLen).err.None? <==> Passes(bone)
    ensures
      var r := Step(acc, bone, maxLen);
      r.err.None? && NameMap(bone.0) == Some(joint) && Converted(bone).Some? ==>
        && Recorded(r.hist, joint) == Keep(Recorded(acc.hist, joint) + [Converted(bone).value.1], maxLen)
        && Get(r.rotations, joint) == Some(FloatList(Converted(bone).value.0))
        && Get(r.trajectories, joint) == Some(HistoryValue(Recorded(r.hist, joint)))
    ensures
      var r := Step(acc, bone, maxLen);
      r.err.None? && !(NameMap(bone.0) == Some(joint) && Converted(bone).Some?) ==>
        && Recorded(r.hist, joint) == Recorded(acc.hist, joint)
        && Get(r.rotations, joint) == Get(acc.rotations, joint)
        && Get(r.trajectories, joint) == Get(acc.trajectories, joint)
  {
  }

  /** Appending one more accepted pair appends its position. */
  lemma PositionsSnoc(acc: seq<(seq<Float>, seq<Float>)>, c: (seq<Float>, seq<Float>))
    ensures Positions(acc + [c]) == Positions(acc) + [c.1]
  {
  }

  /** Appending to a trimmed window and trimming again is one trim of the whole. */
  lemma KeepAppendAll(h: History, ps: History, p: seq<Float>, maxLen: int)
    requires maxLen >= 0
    ensures Keep(Keep(h + ps, maxLen) + [p], maxLen) == Keep(h + (ps + [p]), maxLen)
  {
    KeepTrimThenAppend(h + ps, p, maxLen);
    assert h + ps + [p] == h + (ps + [p]);
  }

  /** Every bone passes. */
  predicate AllPass(bones: Entries) {
    forall i :: 0 <= i < |bones| ==> Passes(bones[i])
  }

  /** Every bone passes exactly when all but the last do and the last does. */
  lemma AllPassSnoc(bones: Entries)
    requires |bones| > 0
    ensures AllPass(bones) <==> AllPass(bones[..|bones| - 1]) && Passes(bones[|bones| - 1])
  {
    var pre := bones[..|bones| - 1];
    assert forall i :: 0 <= i < |pre| ==> pre[i] == bones[i];
  }

  /** The loop finishes without raising exactly when every bone passes. */
  lemma {:induction false} BonesPasses(hist: map<string, History>, bones: Entries, maxLen: int)
    ensures Bones(hist, bones, maxLen).err.None? <==> AllPass(bones)
  {
    if |bones| > 0 {
      var pre, last := bones[..|bones| - 1], bones[|bones| - 1];
      BonesPasses(hist, pre, maxLen);
      AllPassSnoc(bones);
      var lp := Bones(hist, pre, maxLen);
      assert Bones(hist, bones, maxLen) == Step(lp, last, maxLen);
      if lp.err.None? {
        StepRecords(lp, last, maxLen, "");
      }
    }
  }

  /**
   * What the loop has left for `joint` after accepting `acc` for it, starting
   * from history `h`: the history is unchanged if nothing was accepted, and
   * otherwise the accepted positions appended and trimmed to the window; the
   * rotation is the last accepted one; the trajectory is the new history.
   */
  predicate Tracks(l: Loop, h: History, acc: seq<(seq<Float>, seq<Float>)>, maxLen: int, joint: string) {
    && Recorded(l.hist, joint) == (if acc == [] then h else Keep(h + Positions(acc), maxLen))
    && Get(l.rotations, joint) == (if acc == [] then None else Some(FloatList(acc[|acc| - 1].0)))
    && Get(l.trajectories, joint) == (if acc == [] then None else Some(HistoryValue(Recorded(l.hist, joint))))
  }

  /** A step that takes pair `c` for `joint` extends what the loop tracks by `c`. */
  lemma TracksTaken(lp: Loop, l: Loop, h: History, acc: seq<(seq<Float>, seq<Float>)>, c: (seq<Float>, seq<Float>), maxLen: int, joint: string)
    requires maxLen >= 0 && Tracks(lp, h, acc, maxLen, joint)
    requires Recorded(l.hist, joint) == Keep(Recorded(lp.hist, joint) + [c.1], maxLen)
    requires Get(l.rotations, joint) == Some(FloatList(c.0))
    requires Get(l.trajectories, joint) == Some(HistoryValue(Recorded(l.hist, joint)))
    ensures Tracks(l, h, acc + [c], maxLen, joint)
  {
    var acc' := acc + [c];
    assert acc'[|acc'| - 1] == c;
    PositionsSnoc(acc, c);
    if acc == [] {
      assert acc' == [c];
      assert Recorded(lp.hist, joint) == h;
      assert Positions(acc') == [c.1];
    } else {
      var ps := Positions(acc);
      assert Recorded(lp.hist, joint) == Keep(h + ps, maxLen);
      KeepAppendAll(h, ps, c.1, maxLen);
      assert Recorded(l.hist, joint) == Keep(h + Positions(acc'), maxLen);
    }
  }

  /** One step keeps `Tracks`, with the bone's pair added when the step takes it for `joint`. */
  lemma StepTracks(lp: Loop, bone: (string, Value), maxLen: int, joint: string, h: History, acc: seq<(seq<Float>, seq<Float>)>)
    requires maxLen >= 0 && lp.err.None? && Tracks(lp, h, acc, maxLen, joint)
    ensures
      var l := Step(lp, bone, maxLen);
      var taken := NameMap(bone.0) == Some(joint) && Converted(bone).Some?;
      l.err.None? ==> Tracks(l, h, if taken then acc + [Converted(bone).value] else acc, maxLen, joint)
  {
    var l := Step(lp, bone, maxLen);
    StepRecords(lp, bone, maxLen, joint);
    if l.err.None? && NameMap(bone.0) == Some(joint) && Converted(bone).Some? {
      TracksTaken(lp, l, h, acc, Converted(bone).value, maxLen, joint);
    }
  }

  /** What the loop leaves for one joint once it finishes without raising. */
  lemma {:induction false} BonesRecords(hist: map<string, History>, bones: Entries, maxLen: int, joint: string)
    requires maxLen >= 0
    ensures
      var l := Bones(hist, bones, maxLen);
      l.err.None? ==> Tracks(l, Recorded(hist, joint), Accepted(bones, joint), maxLen, joint)
  {
    if |bones| > 0 {
      var pre, last := bones[..|bones| - 1], bones[|bones| - 1];
      BonesRecords(hist, pre, maxLen, joint);
      var lp := Bones(hist, pre, maxLen);
      if lp.err.None? {
        StepTracks(lp, last, maxLen, joint, Recorded(hist, joint), Accepted(pre, joint));
      }
    }
  }

  datatype Stream = PlayerStream | RefStream

  /** The stream argument: "player" or "ref", anything else refused. */
  function ParseStream(name: string): (r: Option<Stream>)
    ensures r.Some? <==> name == "player" || name == "ref"
  {
    if name == "player" then Some(PlayerStream)
    else if name == "ref" then Some(RefStream)
    else None
  }

  function HistoryOf(s: AdapterState, st: Stream): map<string, History> {
    match st
    case PlayerStream => s.player
    case RefStream => s.ref
  }

  function WithHistory(s: AdapterState, st: Stream, h: map<string, History>): (r: AdapterState)
    ensures HistoryOf(r, st) == h
    ensures st.PlayerStream? ==> r.ref == s.ref
    ensures st.RefStream? ==> r.player == s.player
  {
    match st
    case PlayerStream => s.(player := h)
    case RefStream => s.(ref := h)
  }

  /** The new state and either the scoring-format dict or the exception raised. */
  datatype Adapted = Adapted(state: AdapterState, out: Result<Value, PyError>)

  /** time / 1e9 */
  function Seconds(t: Float): Float {
    match t
    case NonFinite => NonFinite
    case Finite(x) => Finite(x / 1000000000.0)
  }

  /**
   * adapt_mocopi_frame(frame, stream, max_len). Exceptions raised inside the
   * loop keep the history updates of the bones before them.
   */
  function AdaptFrame(s: AdapterState, frame: Value, stream: string, maxLen: int): (r: Adapted)
    ensures ParseStream(stream).None? ==> r == Adapted(s, Err(ValueError))
    ensures stream != "player" ==> r.state.player == s.player
    ensures stream != "ref" ==> r.state.ref == s.ref
    ensures !frame.Dict? ==> r.state == s && r.out.Err?
    ensures r.out.Ok? ==>
      && frame.Dict? && r.out.value.Dict?
      && var t := PyFloat(GetOr(frame.entries, "time", Num(Finite(0.0))));
      && t.Ok?
      && Get(r.out.value.entries, "timestamp") == Some(Num(Seconds(t.value)))
      && Get(r.out.value.entries, "rotations").Some? && Get(r.out.value.entries, "trajectories").Some?
      && Get(r.out.value.entries, "rhythm_signal") == Some(List([]))
  {
    match ParseStream(stream)
    case None => Adapted(s, Err(ValueError))
    case Some(st) =>
      if !frame.Dict? then Adapted(s, Err(AttributeError))
      else
        match PyFloat(GetOr(frame.entries, "time", Num(Finite(0.0))))
        case Err(e) => Adapted(s, Err(e))
        case Ok(t) =>
          match OrElse(GetOr(frame.entries, "bones", Dict([])), Dict([]))
          case Err(e) => Adapted(s, Err(e))
          case Ok(bones) =>
            if !bones.Dict? then Adapted(s, Err(AttributeError))
            else
              var l := Bones(HistoryOf(s, st), bones.entries, maxLen);
              var s' := WithHistory(s, st, l.hist);
              if l.err.Some? then Adapted(s', Err(l.err.value))
              else
                Adapted(s', Ok(MotionDict(Num(Seconds(t)), Dict(l.rotations), Dict(l.trajectories), List([]))))
  }

  /** Joints other than the two hands are never recorded, whatever the frame holds. */
  lemma AdaptOnlyHands(s: AdapterState, frame: Value, stream: string, maxLen: int, k: string)
    requires k != "LeftHand" && k != "RightHand"
    ensures Recorded(AdaptFrame(s, frame, stream, maxLen).state.player, k) == Recorded(s.player, k)
    ensures Recorded(AdaptFrame(s, frame, stream, maxLen).state.ref, k) == Recorded(s.ref, k)
  {
    if ParseStream(stream).Some? && frame.Dict? {
      var bones := GetOr(frame.entries, "bones", Dict([]));
      if bones.Dict? {
        BonesFrame(HistoryOf(s, ParseStream(stream).value), bones.entries, maxLen);
      }
      BonesFrame(HistoryOf(s, ParseStream(stream).value), [], maxLen);
    }
  }

  /** On success, every trajectory the adapter reports is the joint's whole recorded history. */
  lemma AdaptTrajectoriesAreHistory(s: AdapterState, frame: Value, stream: string, maxLen: int, joint: string)
    requires AdaptFrame(s, frame, stream, maxLen).out.Ok?
    requires ParseStream(stream).Some?
    ensures var r := AdaptFrame(s, frame, stream, maxLen);
      var traj := Get(r.out.value.entries, "trajectories");
      && traj.Some? && traj.value.Dict?
      && (Get(traj.value.entries, joint).Some? ==>
            var h := HistoryOf(r.state, ParseStream(stream).value);
            joint in h && Get(traj.value.entries, joint) == Some(HistoryValue(h[joint])))
  {
    var st := ParseStream(stream).value;
    var bones := OrElse(GetOr(frame.entries, "bones", Dict([])), Dict([])).value;
    BonesFrame(HistoryOf(s, st), bones.entries, maxLen);
  }

  /**
   * adapt_mocopi_frame against the reference, once the stream, the frame, its
   * time and its bones value (a dict, or falsy and replaced by `{}`) are
   * accepted: the call succeeds exactly when every bone passes, the stream's
   * history is always the loop's, and on success every joint's entries in
   * "rotations" and "trajectories" are the ones `Tracks` describes.
   */
  lemma AdaptFrameRecords(s: AdapterState, frame: Value, stream: string, maxLen: int, joint: string)
    requires maxLen >= 0
    requires ParseStream(stream).Some? && frame.Dict?
    requires PyFloat(GetOr(frame.entries, "time", Num(Finite(0.0)))).Ok?
    requires var b := OrElse(GetOr(frame.entries, "bones", Dict([])), Dict([])); b.Ok? && b.value.Dict?
    ensures
      var st := ParseStream(stream).value;
      var bones := OrElse(GetOr(frame.entries, "bones", Dict([])), Dict([])).value.entries;
      var r := AdaptFrame(s, frame, stream, maxLen);
      && (r.out.Ok? <==> AllPass(bones))
      && r.state == WithHistory(s, st, Bones(HistoryOf(s, st), bones, maxLen).hist)
      && (r.out.Ok? ==>
            var rotations := Get(r.out.value.entries, "rotations");
            var trajectories := Get(r.out.value.entries, "trajectories");
            && rotations.Some? && rotations.value.Dict?
            && trajectories.Some? && trajectories.value.Dict?
            && Tracks(Loop(HistoryOf(r.state, st), rotations.value.entries, trajectories.value.entries, None),
                      Recorded(HistoryOf(s, st), joint), Accepted(bones, joint), maxLen, joint))
  {
    var st := ParseStream(stream).value;
    var bones := OrElse(GetOr(frame.entries, "bones", Dict([])), Dict([])).value.entries;
    BonesPasses(HistoryOf(s, st), bones, maxLen);
    BonesRecords(HistoryOf(s, st), bones, maxLen, joint);
  }

  /** The exceptions adapt_mocopi_frame raises before its loop, each leaving the state as it was. */
  lemma AdaptFrameRejects(s: AdapterState, frame: Value, stream: string, maxLen: int)
    requires ParseStream(stream).Some?
    ensures !frame.Dict? ==> AdaptFrame(s, frame, stream, maxLen) == Adapted(s, Err(AttributeError))
    ensures frame.Dict? ==>
      var t := PyFloat(GetOr(frame.entries, "time", Num(Finite(0.0))));
      var b := OrElse(GetOr(frame.entries, "bones", Dict([])), Dict([]));
      && (t.Err? ==> AdaptFrame(s, frame, stream, maxLen) == Adapted(s, Err(t.error)))
      && (t.Ok? && b.Err? ==> AdaptFrame(s, frame, stream, maxLen) == Adapted(s, Err(b.error)))
      && (t.Ok? && b.Ok? && !b.value.Dict? ==> AdaptFrame(s, frame, stream, maxLen) == Adapted(s, Err(AttributeError)))
  {
  }

  /** With max_len >= 1 every history stays within max_len entries; max_len = 0 never evicts. */
  lemma KeepBounded(h: History, pos: seq<Float>, maxLen: int)
    ensures maxLen >= 1 ==> |Keep(h + [pos], maxLen)| <= maxLen
    ensures maxLen >= 1 && |h| < maxLen ==> Keep(h + [pos], maxLen) == h + [pos]
    ensures maxLen == 0 ==> Keep(h + [pos], maxLen) == h + [pos]
    ensures |Keep(h + [pos], maxLen)| >= 1 ==> Keep(h + [pos], maxLen)[|Keep(h + [pos], maxLen)| - 1] == pos
  {
  }

  /** No recorded history is longer than maxLen. */
  predicate HistoriesBounded(hist: map<string, History>, maxLen: int) {
    forall k :: k in hist ==> |hist[k]| <= maxLen
  }

  lemma StepBounded(acc: Loop, bone: (string, Value), maxLen: int)
    requires maxLen >= 1 && HistoriesBounded(acc.hist, maxLen)
    ensures HistoriesBounded(Step(acc, bone, maxLen).hist, maxLen)
  {
    var r := Step(acc, bone, maxLen);
    if r.hist != acc.hist {
      var joint := NameMap(bone.0).value;
      var pos := PyFloats(GetOr(bone.1.entries, "pos_xyz", Null).items).value;
      KeepBounded(Recorded(acc.hist, joint), pos, maxLen);
      forall k | k in r.hist ensures |r.hist[k]| <= maxLen {
        if k != joint {
          assert Recorded(r.hist, k) == Recorded(acc.hist, k);
        }
      }
    }
  }

  lemma {:induction false} BonesBounded(hist: map<string, History>, bones: Entries, maxLen: int)
    requires maxLen >= 1 && HistoriesBounded(hist, maxLen)
    ensures HistoriesBounded(Bones(hist, bones, maxLen).hist, maxLen)
  {
    if |bones| > 0 {
      BonesBounded(hist, bones[..|bones| - 1], maxLen);
      StepBounded(Bones(hist, bones[..|bones| - 1], maxLen), bones[|bones| - 1], maxLen);
    }
  }

  /** With max_len >= 1, adapting a frame never lets a history grow past max_len, on either stream. */
  lemma AdaptKeepsBounded(s: AdapterState, frame: Value, stream: string, maxLen: int)
    requires maxLen >= 1
    requires HistoriesBounded(s.player, maxLen) && HistoriesBounded(s.ref, maxLen)
    ensures var r := AdaptFrame(s, frame, stream, maxLen).state;
      HistoriesBounded(r.player, maxLen) && HistoriesBounded(r.ref, maxLen)
  {
    if ParseStream(stream).Some? && frame.Dict? {
      var st := ParseStream(stream).value;
      var bones := OrElse(GetOr(frame.entries, "bones", Dict([])), Dict([]));
      if bones.Ok? && bones.value.Dict? {
        BonesBounded(HistoryOf(s, st), bones.value.entries, maxLen);
      }
    }
  }
}

=== FILE: boxes.dfy ===
/**
 * Box framing of the motion-capture wire format (src/receiver.py): a box is a
 * little-endian u32 payload length, a 4-byte tag, then that many payload bytes.
 * The length does not count the 8 header bytes.
 */
module Boxes {
  import opened Wrappers

  type Byte = b: int | 0 <= b < 256

  const U16Limit: nat := 0x1_0000
  const U32Limit: nat := 0x1_0000_0000

  /** struct "<H": a little-endian unsigned 16-bit integer. */
  function LeU16(s: seq<Byte>): (r: nat)
    requires |s| >= 2
    ensures r < U16Limit
  {
    s[0] as int + 256 * (s[1] as int)
  }

  /** struct "<I": a little-endian unsigned 32-bit integer. */
  function LeU32(s: seq<Byte>): (r: nat)
    requires |s| >= 4
    ensures r < U32Limit
  {
    s[0] as int + 256 * (s[1] as int + 256 * (s[2] as int + 256 * (s[3] as int)))
  }

  function U16Le(n: nat): (r: seq<Byte>)
    requires n < U16Limit
    ensures |r| == 2
  {
    [n % 256, n / 256]
  }

  function U32Le(n: nat): (r: seq<Byte>)
    requires n < U32Limit
    ensures |r| == 4
  {
    assert n / 256 / 256 / 256 < 256;
    [n % 256, n / 256 % 256, n / 256 / 256 % 256, n / 256 / 256 / 256]
  }

  lemma U16RoundTrip(n: nat)
    requires n < U16Limit
    ensures LeU16(U16Le(n)) == n
  {
  }

  lemma U32RoundTrip(n: nat)
    requires n < U32Limit
    ensures LeU32(U32Le(n)) == n
  {
    var q1 := n / 256;
    var q2 := q1 / 256;
    assert n == n % 256 + 256 * q1;
    assert q1 == q1 % 256 + 256 * q2;
    assert q2 == q2 % 256 + 256 * (q2 / 256);
  }

  function HexDigit(d: nat): char
    requires d < 16
  {
    "0123456789abcdef"[d]
  }

  /** bytes.hex(): two lower-case hex digits per byte. */
  function Hex(bs: seq<Byte>): (r: string)
    ensures |r| == 2 * |bs|
  {
    if |bs| == 0 then "" else [HexDigit(bs[0] / 16), HexDigit(bs[0] % 16)] + Hex(bs[1..])
  }

  predicate IsAscii(bs: seq<Byte>) {
    forall i :: 0 <= i < |bs| ==> bs[i] < 128
  }

  /** A tag is decoded as ASCII text, or as its hex spelling when a byte is not ASCII. */
  function DecodeTag(bs: seq<Byte>): (r: string)
    ensures |r| == if IsAscii(bs) then |bs| else 2 * |bs|
  {
    if IsAscii(bs) then seq(|bs|, i requires 0 <= i < |bs| => bs[i] as char) else Hex(bs)
  }

  /** A tag a box can be written with: four ASCII characters. */
  predicate ValidTag(tag: string) {
    |tag| == 4 && forall i :: 0 <= i < 4 ==> tag[i] as int < 128
  }

  function EncodeTag(tag: string): (r: seq<Byte>)
    requires ValidTag(tag)
    ensures |r| == 4 && IsAscii(r)
  {
    seq(4, i requires 0 <= i < 4 => tag[i] as int)
  }

  lemma TagRoundTrip(tag: string)
    requires ValidTag(tag)
    ensures DecodeTag(EncodeTag(tag)) == tag
  {
  }

  datatype DecodeError =
    | TruncatedHeader
    | TruncatedPayload(tag: string)
    | TranTooShort(length: nat)
    | BndtMissingIds
    | BtdtMissingFields
    | FramMissingFields

  datatype Box = Box(tag: string, payload: seq<Byte>)

  /** The result of reading one box: its tag, its payload and the offset just past it. */
  datatype Read = Read(tag: string, payload: seq<Byte>, next: nat)

  /** read_box: reads the box that starts at offset. */
  function ReadBox(buf: seq<Byte>, offset: nat): (r: Result<Read, DecodeError>)
    ensures offset + 8 > |buf| ==> r == Err(TruncatedHeader)
    ensures offset + 8 <= |buf| ==>
      (r.Err? <==> offset + 8 + LeU32(buf[offset..offset + 4]) > |buf|)
    ensures r.Ok? ==>
      && offset + 8 <= r.value.next <= |buf|
      && r.value.next == offset + 8 + LeU32(buf[offset..offset + 4])
      && r.value.payload == buf[offset + 8..r.value.next]
      && r.value.tag == DecodeTag(buf[offset + 4..offset + 8])
  {
    if offset + 8 > |buf| then Err(TruncatedHeader)
    else
      var length := LeU32(buf[offset..offset + 4]);
      var tag := DecodeTag(buf[offset + 4..offset + 8]);
      var start := offset + 8;
      var end := start + length;
      if end > |buf| then Err(TruncatedPayload(tag)) else Ok(Read(tag, buf[start..end], end))
  }

  /**
   * What iter_boxes yields before it stops: the boxes read in order and, when the
   * buffer does not end exactly at a box boundary, the error raised after them.
   */
  datatype Boxes = Boxes(boxes: seq<Box>, fault: Option<DecodeError>)

  /**
   * The loop of iter_boxes over the bytes not read yet. Reading at offset `off`
   * of a buffer reads what reading at 0 of its suffix from `off` reads
   * (ReadBoxSuffix), so the loop is stated on that suffix.
   */
  function Scan(rest: seq<Byte>): Boxes
    decreases |rest|
  {
    if |rest| == 0 then Boxes([], None)
    else match ReadBox(rest, 0)
      case Err(e) => Boxes([], Some(e))
      case Ok(rd) => Prepend(Box(rd.tag, rd.payload), Scan(rest[rd.next..]))
  }

  /** The boxes of `rest` with `b` read before them. */
  function Prepend(b: Box, rest: Boxes): Boxes {
    Boxes([b] + rest.boxes, rest.fault)
  }

  /** iter_boxes over a whole payload. */
  function IterBoxes(payload: seq<Byte>): Boxes
  {
    Scan(payload)
  }

  predicate ValidBox(b: Box) {
    ValidTag(b.tag) && |b.payload| < U32Limit
  }

  function EncodeBox(b: Box): (r: seq<Byte>)
    requires ValidBox(b)
    ensures |r| == 8 + |b.payload|
  {
    U32Le(|b.payload|) + EncodeTag(b.tag) + b.payload
  }

  function EncodeBoxes(bs: seq<Box>): seq<Byte>
    requires forall i :: 0 <= i < |bs| ==> ValidBox(bs[i])
  {
    if |bs| == 0 then [] else EncodeBox(bs[0]) + EncodeBoxes(bs[1..])
  }

  /** Reading a box does not depend on bytes before the offset, and shifts with them. */
  lemma ReadBoxShift(pre: seq<Byte>, buf: seq<Byte>, offset: nat)
    ensures ReadBox(buf, offset).Err? ==> ReadBox(pre + buf, |pre| + offset) == ReadBox(buf, offset)
    ensures ReadBox(buf, offset).Ok? ==>
      var rd := ReadBox(buf, offset).value;
      ReadBox(pre + buf, |pre| + offset) == Ok(Read(rd.tag, rd.payload, |pre| + rd.next))
  {
    var whole := pre + buf;
    var o := |pre| + offset;
    if offset + 8 <= |buf| {
      assert whole[o..o + 4] == buf[offset..offset + 4];
      assert whole[o + 4..o + 8] == buf[offset + 4..offset + 8];
      var end := offset + 8 + LeU32(buf[offset..offset + 4]);
      if end <= |buf| {
        assert whole[o + 8..|pre| + end] == buf[offset + 8..end];
      }
    }
  }

  /** Reading at an offset is reading at 0 of the suffix from that offset, shifted by the offset. */
  lemma ReadBoxSuffix(buf: seq<Byte>, offset: nat)
    requires offset <= |buf|
    ensures ReadBox(buf[offset..], 0).Err? ==> ReadBox(buf, offset) == ReadBox(buf[offset..], 0)
    ensures ReadBox(buf[offset..], 0).Ok? ==>
      var rd := ReadBox(buf[offset..], 0).value;
      ReadBox(buf, offset) == Ok(Read(rd.tag, rd.payload, offset + rd.next))
  {
    var pre, suffix := buf[..offset], buf[offset..];
    assert pre + suffix == buf;
    ReadBoxShift(pre, suffix, 0);
  }

  /** A box read from the front of a buffer does not depend on what follows it. */
  lemma {:induction false} ReadBoxEncoded(b: Box, tail: seq<Byte>)
    requires ValidBox(b)
    ensures ReadBox(EncodeBox(b) + tail, 0) == Ok(Read(b.tag, b.payload, 8 + |b.payload|))
  {
    var buf := EncodeBox(b) + tail;
    assert buf[0..4] == U32Le(|b.payload|);
    U32RoundTrip(|b.payload|);
    assert buf[4..8] == EncodeTag(b.tag);
    TagRoundTrip(b.tag);
    assert buf[8..8 + |b.payload|] == b.payload;
  }

  /**
   * Framing round trip: iterating over encoded boxes followed by any tail yields
   * exactly those boxes, in order, and then whatever the tail yields.
   */
  lemma {:induction false} ScanEncodedThenTail(bs: seq<Box>, tail: seq<Byte>)
    requires forall i :: 0 <= i < |bs| ==> ValidBox(bs[i])
    ensures IterBoxes(EncodeBoxes(bs) + tail) ==
      Boxes(bs + IterBoxes(tail).boxes, IterBoxes(tail).fault)
  {
    if |bs| > 0 {
      var head := EncodeBox(bs[0]);
      var rest := EncodeBoxes(bs[1..]) + tail;
      var whole := EncodeBoxes(bs) + tail;
      assert whole == head + rest;
      ReadBoxEncoded(bs[0], rest);
      assert whole[|head|..] == rest;
      ScanEncodedThenTail(bs[1..], tail);
      var t := IterBoxes(tail);
      assert Scan(whole) == Prepend(bs[0], Scan(rest));
      ConsAppend(bs, t.boxes);
    } else {
      assert EncodeBoxes(bs) + tail == tail;
    }
  }

  lemma ConsAppend<T>(xs: seq<T>, ys: seq<T>)
    requires |xs| > 0
    ensures [xs[0]] + (xs[1..] + ys) == xs + ys
  {
    assert xs == [xs[0]] + xs[1..];
  }

  lemma ScanRoundTrip(bs: seq<Box>)
    requires forall i :: 0 <= i < |bs| ==> ValidBox(bs[i])
    ensures IterBoxes(EncodeBoxes(bs)) == Boxes(bs, None)
  {
    ScanEncodedThenTail(bs, []);
    assert EncodeBoxes(bs) + [] == EncodeBoxes(bs);
  }

  /** A box written at some offset is read back from that offset. */
  lemma ReadBoxAt(pre: seq<Byte>, b: Box, tail: seq<Byte>)
    requires ValidBox(b)
    ensures ReadBox(pre + EncodeBox(b) + tail, |pre|) == Ok(Read(b.tag, b.payload, |pre| + 8 + |b.payload|))
  {
    ReadBoxEncoded(b, tail);
    ReadBoxShift(pre, EncodeBox(b) + tail, 0);
    assert pre + EncodeBox(b) + tail == pre + (EncodeBox(b) + tail);
  }

  lemma {:induction false} EncodeBoxesLength(bs: seq<Box>, k: nat)
    requires forall i :: 0 <= i < |bs| ==> ValidBox(bs[i]) && |bs[i].payload| <= k
    ensures |EncodeBoxes(bs)| <= |bs| * (8 + k)
  {
    if |bs| > 0 {
      EncodeBoxesLength(bs[1..], k);
      assert |EncodeBoxes(bs)| == 8 + |bs[0].payload| + |EncodeBoxes(bs[1..])|;
      MulSucc(|bs| - 1, 8 + k);
    }
  }

  lemma MulSucc(n: nat, c: nat)
    ensures (n + 1) * c == n * c + c
  {
  }

  /** Reading a box that fits inside a buffer is unaffected by bytes appended after the buffer. */
  lemma ReadBoxExtend(buf: seq<Byte>, tail: seq<Byte>, offset: nat)
    requires ReadBox(buf, offset).Ok?
    ensures ReadBox(buf + tail, offset) == ReadBox(buf, offset)
  {
    var whole := buf + tail;
    assert whole[offset..offset + 4] == buf[offset..offset + 4];
    assert whole[offset + 4..offset + 8] == buf[offset + 4..offset + 8];
    var end := ReadBox(buf, offset).value.next;
    assert whole[offset + 8..end] == buf[offset + 8..end];
  }
}

=== FILE: config.dfy ===
/** src/config.py: the fusion weights, the DTW window and the per-joint pose weights. */
module Config {

  const PoseWeight: real := 0.5
  const TrajectoryWeight: real := 0.3
  const RhythmWeight: real := 0.2

  /** Frames kept by the DTW window and by each adapter history. */
  const WindowSize: int := 60

  /** The Sakoe-Chiba band main.py gives its SlidingDTW. */
  const DtwBand: int := 8

  /** JOINT_WEIGHTS, in the order the pose loop visits them. */
  const JointWeights: seq<(string, real)> := [
    ("Hips", 0.5), ("Spine", 0.5),
    ("LeftArm", 1.0), ("RightArm", 1.0),
    ("LeftLeg", 1.0), ("RightLeg", 1.0),
    ("LeftHand", 2.0), ("RightHand", 2.0),
    ("LeftFoot", 2.0), ("RightFoot", 2.0)
  ]

  /** Every configured weight is positive and the fusion weights sum to one. */
  lemma WeightsWellFormed()
    ensures forall i :: 0 <= i < |JointWeights| ==> JointWeights[i].1 >= 0.5
    ensures PoseWeight + TrajectoryWeight + RhythmWeight == 1.0
    ensures forall i, j :: 0 <= i < j < |JointWeights| ==> JointWeights[i].0 != JointWeights[j].0
  {
  }
}

=== FILE: dtw.dfy ===
/**
 * The sliding-window, Sakoe-Chiba-banded dynamic time warping of
 * src/dtw_online.py: two equally long buffers of feature vectors, at most W
 * entries each, oldest evicted first, and a cost recomputed over the whole
 * window on demand.
 */
module SlidingDtw {
  import opened Wrappers
  import opened Floats
  import opened Seqs
  import opened PyValues

  /** A cell of the DP matrix: a finite cost or numpy's inf. */
  datatype Ext = Fin(v: real) | Inf

  function ExtAdd(c: real, e: Ext): Ext {
    match e
    case Inf => Inf
    case Fin(v) => Fin(c + v)
  }

  function ExtMin(a: Ext, b: Ext): (r: Ext)
    ensures r == a || r == b
    ensures r.Inf? <==> a.Inf? && b.Inf?
    ensures r.Fin? && a.Fin? ==> r.v <= a.v
    ensures r.Fin? && b.Fin? ==> r.v <= b.v
  {
    if a.Inf? then b
    else if b.Inf? then a
    else if a.v <= b.v then a else b
  }

  /** min(insertion, deletion, match). */
  function Min3(a: Ext, b: Ext, c: Ext): Ext {
    ExtMin(ExtMin(a, b), c)
  }

  /** SlidingDTW: window size W, band and the two buffers. */
  datatype Dtw = Dtw(w: int, band: int, player: seq<seq<real>>, ref: seq<seq<real>>)

  /** How many entries the buffers can hold: W, or none when W is not positive. */
  function Capacity(s: Dtw): nat {
    if s.w < 0 then 0 else s.w
  }

  predicate Valid(s: Dtw) {
    |s.player| == |s.ref| && |s.player| <= Capacity(s)
  }

  /** Every buffered player vector can be subtracted from every buffered reference vector. */
  predicate Uniform(s: Dtw) {
    forall i, j :: 0 <= i < |s.player| && 0 <= j < |s.ref| ==> |s.player[i]| == |s.ref[j]|
  }

  /** Every buffered vector has dimension d. */
  predicate HasDim(s: Dtw, d: nat) {
    && (forall i :: 0 <= i < |s.player| ==> |s.player[i]| == d)
    && (forall i :: 0 <= i < |s.ref| ==> |s.ref[i]| == d)
  }

  lemma HasDimUniform(s: Dtw, d: nat)
    requires HasDim(s, d)
    ensures Uniform(s)
  {
  }

  /** SlidingDTW(window_size, band). */
  function Init(windowSize: int, band: int): (r: Dtw)
    ensures Valid(r) && r.player == [] && r.ref == []
    ensures r.w == windowSize && r.band == band
  {
    Dtw(windowSize, band, [], [])
  }

  /** reset(): both buffers emptied, window and band kept. */
  function Reset(s: Dtw): (r: Dtw)
    ensures Valid(r) && r.player == [] && r.ref == []
    ensures r.w == s.w && r.band == s.band
  {
    s.(player := [], ref := [])
  }

  /** add_frame keeps a frame when the common dimension is positive and both truncated features are finite. */
  predicate Accepts(pf: seq<Float>, rf: seq<Float>) {
    var d := CommonLength(pf, rf);
    d > 0 && AllFinite(pf[..d]) && AllFinite(rf[..d])
  }

  function PlayerFeature(pf: seq<Float>, rf: seq<Float>): (r: seq<real>)
    requires Accepts(pf, rf)
    ensures |r| == CommonLength(pf, rf)
    ensures forall k :: 0 <= k < |r| ==> pf[k] == Finite(r[k])
  {
    Values(pf[..CommonLength(pf, rf)])
  }

  function RefFeature(pf: seq<Float>, rf: seq<Float>): (r: seq<real>)
    requires Accepts(pf, rf)
    ensures |r| == CommonLength(pf, rf)
    ensures forall k :: 0 <= k < |r| ==> rf[k] == Finite(r[k])
  {
    Values(rf[..CommonLength(pf, rf)])
  }

  /**
   * add_frame(player_feat, ref_feat): a rejected frame changes nothing; an
   * accepted one is appended to both buffers, and when that overflows the
   * window the oldest entry of both is dropped.
   */
  function AddFrame(s: Dtw, pf: seq<Float>, rf: seq<Float>): (r: Dtw)
    ensures r.w == s.w && r.band == s.band
    ensures !Accepts(pf, rf) ==> r == s
    ensures Valid(s) ==> Valid(r)
    ensures Accepts(pf, rf) && Valid(s) && s.w >= 1 ==>
      if |s.player| < s.w then
        r.player == s.player + [PlayerFeature(pf, rf)] && r.ref == s.ref + [RefFeature(pf, rf)]
      else
        r.player == s.player[1..] + [PlayerFeature(pf, rf)] && r.ref == s.ref[1..] + [RefFeature(pf, rf)]
    ensures Accepts(pf, rf) && Valid(s) && s.w < 1 ==> r.player == [] && r.ref == []
  {
    if !Accepts(pf, rf) then s
    else
      var p := s.player + [PlayerFeature(pf, rf)];
      var q := s.ref + [RefFeature(pf, rf)];
      if |p| > s.w then s.(player := p[1..], ref := q[1..])
      else s.(player := p, ref := q)
  }

  /** Buffers whose vectors all have the feature's dimension keep that property. */
  lemma AddFrameKeepsDim(s: Dtw, pf: seq<Float>, rf: seq<Float>, d: nat)
    requires HasDim(s, d)
    requires Accepts(pf, rf) ==> CommonLength(pf, rf) == d
    ensures HasDim(AddFrame(s, pf, rf), d)
  {
  }

  // ---------------------------------------------------------------- window

  /** The player features of the frames add_frame keeps, in arrival order. */
  function AcceptedPlayer(frames: seq<(seq<Float>, seq<Float>)>): seq<seq<real>>
  {
    if |frames| == 0 then []
    else
      var (pf, rf) := frames[|frames| - 1];
      var pre := AcceptedPlayer(frames[..|frames| - 1]);
      if Accepts(pf, rf) then pre + [PlayerFeature(pf, rf)] else pre
  }

  function AcceptedRef(frames: seq<(seq<Float>, seq<Float>)>): seq<seq<real>>
  {
    if |frames| == 0 then []
    else
      var (pf, rf) := frames[|frames| - 1];
      var pre := AcceptedRef(frames[..|frames| - 1]);
      if Accepts(pf, rf) then pre + [RefFeature(pf, rf)] else pre
  }

  /** A sequence of add_frame calls. */
  function AddAll(s: Dtw, frames: seq<(seq<Float>, seq<Float>)>): Dtw
  {
    if |frames| == 0 then s
    else
      var (pf, rf) := frames[|frames| - 1];
      AddFrame(AddAll(s, frames[..|frames| - 1]), pf, rf)
  }

  lemma AddFrameWindow(s: Dtw, pf: seq<Float>, rf: seq<Float>, ps: seq<seq<real>>, rs: seq<seq<real>>)
    requires Valid(s)
    requires s.player == LastN(ps, Capacity(s)) && s.ref == LastN(rs, Capacity(s))
    requires Accepts(pf, rf)
    ensures AddFrame(s, pf, rf).player == LastN(ps + [PlayerFeature(pf, rf)], Capacity(s))
    ensures AddFrame(s, pf, rf).ref == LastN(rs + [RefFeature(pf, rf)], Capacity(s))
  {
    var c := Capacity(s);
    if c >= 1 {
      LastNAppend(ps, PlayerFeature(pf, rf), c);
      LastNAppend(rs, RefFeature(pf, rf), c);
      if |ps| >= c {
        assert s.player[1..] == LastN(ps, c - 1);
      }
      if |rs| >= c {
        assert s.ref[1..] == LastN(rs, c - 1);
      }
    }
  }

  /**
   * The window property: after any sequence of add_frame calls from empty
   * buffers, the buffers hold exactly the last W accepted frames.
   */
  lemma {:induction false} WindowIsLastAccepted(w: int, band: int, frames: seq<(seq<Float>, seq<Float>)>)
    ensures AddAll(Init(w, band), frames).player == LastN(AcceptedPlayer(frames), Capacity(Init(w, band)))
    ensures AddAll(Init(w, band), frames).ref == LastN(AcceptedRef(frames), Capacity(Init(w, band)))
    ensures Valid(AddAll(Init(w, band), frames))
  {
    if |frames| > 0 {
      var pre := frames[..|frames| - 1];
      var (pf, rf) := frames[|frames| - 1];
      WindowIsLastAccepted(w, band, pre);
      var s := AddAll(Init(w, band), pre);
      assert s.w == w && s.band == band by {
        AddAllKeepsParams(Init(w, band), pre);
      }
      if Accepts(pf, rf) {
        AddFrameWindow(s, pf, rf, AcceptedPlayer(pre), AcceptedRef(pre));
      }
    }
  }

  lemma {:induction false} AddAllKeepsParams(s: Dtw, frames: seq<(seq<Float>, seq<Float>)>)
    ensures AddAll(s, frames).w == s.w && AddAll(s, frames).band == s.band
  {
    if |frames| > 0 {
      AddAllKeepsParams(s, frames[..|frames| - 1]);
    }
  }

  // ---------------------------------------------------------------- cost

  /**
   * The distance compute() adds at cell (i + 1, j + 1): that of player[i] and
   * ref[j] (0 outside the buffers, where the DP never looks).
   */
  function PairDist(m: MathLib, s: Dtw): (nat, nat) -> real
    requires Uniform(s)
  {
    (i: nat, j: nat) => if i < |s.player| && j < |s.ref| then Dist(m, s.player[i], s.ref[j]) else 0.0
  }

  /**
   * dp[i][j] of compute() over the pair distances d: row 0 is 0 then inf;
   * column 0 is inf below row 0; outside the band |i - j| <= band a cell is
   * inf; inside it is the pair's distance plus the least of its left, upper and
   * upper-left neighbours.
   */
  function Dp(d: (nat, nat) -> real, band: int, i: nat, j: nat): Ext
    decreases i + j
  {
    if i == 0 && j == 0 then Fin(0.0)
    else if i == 0 || j == 0 then Inf
    else if j < i - band || j > i + band then Inf
    else ExtAdd(d(i - 1, j - 1), Min3(Dp(d, band, i, j - 1), Dp(d, band, i - 1, j), Dp(d, band, i - 1, j - 1)))
  }

  /**
   * Whether compute() reaches the curr[j_start - 1] store of some row past the
   * end of the row: j_start - 1 = i - band - 1 exceeds n first at i = n, which
   * happens exactly when band < -1 and there are at least two frames.
   */
  predicate RowOverrun(s: Dtw) {
    |s.player| >= 2 && s.band < -1
  }

  /**
   * compute(): 0 for empty buffers, the single pair's distance, or dp[n][n] / n
   * with a non-finite value reported as 0; an IndexError when a row overruns.
   */
  function Cost(m: MathLib, s: Dtw): Result<real, PyError>
    requires |s.player| == |s.ref| && Uniform(s)
  {
    var n := |s.player|;
    if n == 0 then Ok(0.0)
    else if n == 1 then Ok(Dist(m, s.player[0], s.ref[0]))
    else if RowOverrun(s) then Err(IndexError)
    else
      match Dp(PairDist(m, s), s.band, n, n)
      case Inf => Ok(0.0)
      case Fin(v) => Ok(v / (n as real))
  }

  /** The first row of the DP: 0 then inf. */
  function FirstRow(n: nat): (r: seq<Ext>)
    ensures |r| == n + 1
    ensures forall k :: 0 <= k <= n ==> r[k] == (if k == 0 then Fin(0.0) else Inf)
  {
    seq(n + 1, k => if k == 0 then Fin(0.0) else Inf)
  }

  /**
   * One row of compute()'s loop: curr[j] for j in the band, inf elsewhere, from
   * the previous row; None when the store before the band falls past the row.
   */
  method NextRow(m: MathLib, s: Dtw, prev: seq<Ext>, i: nat) returns (curr: Option<seq<Ext>>)
    requires |s.player| == |s.ref| && Uniform(s)
    requires 1 <= i <= |s.player|
    requires |prev| == |s.player| + 1
    requires forall k :: 0 <= k <= |s.player| ==> prev[k] == Dp(PairDist(m, s), s.band, i - 1, k)
    ensures curr.None? <==> i - s.band - 1 > |s.player|
    ensures curr.Some? ==> |curr.value| == |s.player| + 1
    ensures curr.Some? ==> forall k :: 0 <= k <= |s.player| ==> curr.value[k] == Dp(PairDist(m, s), s.band, i, k)
  {
    var n := |s.player|;
    ghost var d := PairDist(m, s);
    var row := seq(n + 1, k => Inf);
    var jStart := if 1 > i - s.band then 1 else i - s.band;
    var jEnd := if n < i + s.band then n else i + s.band;
    if jStart > 1 {
      if jStart - 1 > n {
        return None;
      }
      row := row[jStart - 1 := Inf];
    }
    var j := jStart;
    while j <= jEnd
      invariant jStart <= j
      invariant |row| == n + 1
      invariant forall k :: 0 <= k < j && k <= n ==> row[k] == Dp(d, s.band, i, k)
      invariant forall k :: j <= k <= n ==> row[k] == Inf
    {
      var cost := Dist(m, s.player[i - 1], s.ref[j - 1]);
      assert d(i - 1, j - 1) == cost;
      assert Dp(d, s.band, i, j) == ExtAdd(cost, Min3(Dp(d, s.band, i, j - 1), Dp(d, s.band, i - 1, j), Dp(d, s.band, i - 1, j - 1)));
      row := row[j := ExtAdd(cost, Min3(row[j - 1], prev[j], prev[j - 1]))];
      j := j + 1;
    }
    return Some(row);
  }

  /**
   * compute() as written: the banded DP kept in two rolling rows. It reads the
   * buffers and does not change them.
   */
  method ComputeRolling(m: MathLib, s: Dtw) returns (r: Result<real, PyError>)
    requires |s.player| == |s.ref| && Uniform(s)
    ensures r == Cost(m, s)
    ensures r.Err? <==> RowOverrun(s)
    ensures |s.player| == 0 ==> r == Ok(0.0)
    ensures |s.player| == 1 ==> r == Ok(Dist(m, s.player[0], s.ref[0]))
  {
    var n := |s.player|;
    if n == 0 {
      return Ok(0.0);
    }
    if n == 1 {
      return Ok(Dist(m, s.player[0], s.ref[0]));
    }
    var prev := FirstRow(n);
    var i := 1;
    while i <= n
      invariant 1 <= i <= n + 1
      invariant |prev| == n + 1
      invariant forall k :: 0 <= k <= n ==> prev[k] == Dp(PairDist(m, s), s.band, i - 1, k)
      invariant i >= 2 ==> i - 1 - s.band - 1 <= n
    {
      var next := NextRow(m, s, prev, i);
      if next.None? {
        return Err(IndexError);
      }
      prev := next.value;
      i := i + 1;
    }
    var out := prev[n];
    r := if out.Inf? then Ok(0.0) else Ok(out.v / (n as real));
  }

  /** Every pair of the n buffered frames is at a non-negative distance. */
  predicate DistsNonNegative(d: (nat, nat) -> real, n: nat) {
    forall i: nat, j: nat :: i < n && j < n ==> d(i, j) >= 0.0
  }

  /** Every frame is at distance 0 from its counterpart. */
  predicate DiagonalZero(d: (nat, nat) -> real, n: nat) {
    forall i: nat :: i < n ==> d(i, i) == 0.0
  }

  /** Infinite, or a finite non-negative cost. */
  predicate NonNegative(e: Ext) {
    e.Fin? ==> e.v >= 0.0
  }

  /** A cell built from a non-negative distance and non-negative neighbours is non-negative. */
  lemma CellNonNegative(c: real, a: Ext, b: Ext, e: Ext)
    requires c >= 0.0 && NonNegative(a) && NonNegative(b) && NonNegative(e)
    ensures NonNegative(ExtAdd(c, Min3(a, b, e)))
  {
  }

  /** With non-negative pair distances every cell is inf or a non-negative cost. */
  lemma {:induction false} DpNonNegative(d: (nat, nat) -> real, band: int, n: nat, i: nat, j: nat)
    requires DistsNonNegative(d, n)
    requires i <= n && j <= n
    ensures NonNegative(Dp(d, band, i, j))
    decreases i + j
  {
    if i > 0 && j > 0 && i - band <= j <= i + band {
      DpNonNegative(d, band, n, i, j - 1);
      DpNonNegative(d, band, n, i - 1, j);
      DpNonNegative(d, band, n, i - 1, j - 1);
      CellNonNegative(d(i - 1, j - 1), Dp(d, band, i, j - 1), Dp(d, band, i - 1, j), Dp(d, band, i - 1, j - 1));
    }
  }

  lemma PairDistsNonNegative(m: MathLib, s: Dtw)
    requires SqrtLaws(m) && |s.player| == |s.ref| && Uniform(s)
    ensures DistsNonNegative(PairDist(m, s), |s.player|)
  {
    forall i: nat, j: nat | i < |s.player| && j < |s.player|
      ensures PairDist(m, s)(i, j) >= 0.0
    {
      DistNonNegative(m, s.player[i], s.ref[j]);
    }
  }

  /** compute() is never negative. */
  lemma CostNonNegative(m: MathLib, s: Dtw)
    requires SqrtLaws(m)
    requires |s.player| == |s.ref| && Uniform(s)
    ensures Cost(m, s).Ok? ==> Cost(m, s).value >= 0.0
  {
    var n := |s.player|;
    if n == 1 {
      DistNonNegative(m, s.player[0], s.ref[0]);
    } else if n >= 2 {
      PairDistsNonNegative(m, s);
      DpNonNegative(PairDist(m, s), s.band, n, n, n);
    }
  }

  /** With self-distances 0 and a non-negative band, the diagonal costs nothing. */
  lemma {:induction false} DpDiagonalZero(d: (nat, nat) -> real, band: int, n: nat, i: nat)
    requires DistsNonNegative(d, n) && DiagonalZero(d, n) && band >= 0
    requires i <= n
    ensures Dp(d, band, i, i) == Fin(0.0)
  {
    if i > 0 {
      DpDiagonalZero(d, band, n, i - 1);
      DpNonNegative(d, band, n, i, i - 1);
      DpNonNegative(d, band, n, i - 1, i);
      assert d(i - 1, i - 1) == 0.0;
    }
  }

  lemma PairDistDiagonalZero(m: MathLib, s: Dtw)
    requires SqrtLaws(m) && s.player == s.ref && Uniform(s)
    ensures DiagonalZero(PairDist(m, s), |s.player|)
  {
    forall i: nat | i < |s.player|
      ensures PairDist(m, s)(i, i) == 0.0
    {
      DistSelf(m, s.player[i]);
    }
  }

  /** compute() of identical buffers is 0 (the band must admit the diagonal). */
  lemma CostIdentical(m: MathLib, s: Dtw)
    requires SqrtLaws(m)
    requires s.player == s.ref && Uniform(s) && s.band >= 0
    ensures Cost(m, s) == Ok(0.0)
  {
    var n := |s.player|;
    if n == 1 {
      DistSelf(m, s.player[0]);
    } else if n >= 2 {
      PairDistsNonNegative(m, s);
      PairDistDiagonalZero(m, s);
      DpDiagonalZero(PairDist(m, s), s.band, n, n);
    }
  }

  /**
   * A band of -1 leaves every cell past row 0 infinite, so compute() reports 0
   * for two or more frames; a smaller band raises.
   */
  lemma CostNegativeBand(m: MathLib, s: Dtw)
    requires |s.player| == |s.ref| && Uniform(s) && s.band < 0
    requires |s.player| >= 2
    ensures Cost(m, s) == if s.band == -1 then Ok(0.0) else Err(IndexError)
  {
  }

  /** A non-negative band always leaves a finite path along the diagonal. */
  lemma {:induction false} DpDiagonalFinite(d: (nat, nat) -> real, band: int, i: nat)
    requires band >= 0
    ensures Dp(d, band, i, i).Fin?
  {
    if i > 0 {
      DpDiagonalFinite(d, band, i - 1);
    }
  }

  /** For two or more frames and a non-negative band, compute() is dp[n][n] / n, never the non-finite fallback. */
  lemma CostIsNormalisedDiagonal(m: MathLib, s: Dtw)
    requires |s.player| == |s.ref| && Uniform(s) && s.band >= 0
    requires |s.player| >= 2
    ensures Dp(PairDist(m, s), s.band, |s.player|, |s.player|).Fin?
    ensures Cost(m, s) == Ok(Dp(PairDist(m, s), s.band, |s.player|, |s.player|).v / (|s.player| as real))
  {
    DpDiagonalFinite(PairDist(m, s), s.band, |s.player|);
  }

  /** After reset() compute() returns 0. */
  lemma ResetCost(m: MathLib, s: Dtw)
    ensures Cost(m, Reset(s)) == Ok(0.0)
  {
  }
}

=== FILE: floats.dfy ===
/**
 * Floating-point values as the scorers see them: a finite real or a non-finite
 * value (NaN or an infinity), plus the transcendental functions the scorers call,
 * which are left uninterpreted apart from the facts the code relies on.
 * Arithmetic is exact; float32 rounding and overflow are not modelled.
 */
module Floats {

  datatype Float = Finite(val: real) | NonFinite

  predicate AllFinite(xs: seq<Float>) {
    forall i :: 0 <= i < |xs| ==> xs[i].Finite?
  }

  /** The real values of an all-finite vector. */
  function Values(xs: seq<Float>): (r: seq<real>)
    requires AllFinite(xs)
    ensures |r| == |xs|
    ensures forall i :: 0 <= i < |xs| ==> xs[i] == Finite(r[i])
  {
    seq(|xs|, i requires 0 <= i < |xs| => xs[i].val)
  }

  function Lift(xs: seq<real>): (r: seq<Float>)
    ensures |r| == |xs| && AllFinite(r) && Values(r) == xs
  {
    seq(|xs|, i requires 0 <= i < |xs| => Finite(xs[i]))
  }

  /** IEEE subtraction on the finite/non-finite split: any non-finite operand gives a non-finite result. */
  function Sub(a: Float, b: Float): (r: Float)
    ensures r.Finite? <==> a.Finite? && b.Finite?
  {
    if a.Finite? && b.Finite? then Finite(a.val - b.val) else NonFinite
  }

  function Abs(x: real): (r: real)
    ensures r >= 0.0 && (r == x || r == -x)
  {
    if x < 0.0 then -x else x
  }

  function Min(a: real, b: real): (r: real)
    ensures r <= a && r <= b && (r == a || r == b)
  {
    if a <= b then a else b
  }

  /** numpy.clip on a finite value. */
  function Clip(x: real, lo: real, hi: real): (r: real)
    requires lo <= hi
    ensures lo <= r <= hi
    ensures lo <= x <= hi ==> r == x
  {
    if x < lo then lo else if x > hi then hi else x
  }

  function Sum(xs: seq<real>): real
  {
    if |xs| == 0 then 0.0 else Sum(xs[..|xs| - 1]) + xs[|xs| - 1]
  }

  function SumSq(xs: seq<real>): (r: real)
    ensures r >= 0.0
  {
    if |xs| == 0 then 0.0 else SumSq(xs[..|xs| - 1]) + xs[|xs| - 1] * xs[|xs| - 1]
  }

  /** Elementwise difference of two equally long real vectors. */
  function Diff(a: seq<real>, b: seq<real>): (r: seq<real>)
    requires |a| == |b|
    ensures |r| == |a|
    ensures forall i :: 0 <= i < |a| ==> r[i] == a[i] - b[i]
  {
    seq(|a|, i requires 0 <= i < |a| => a[i] - b[i])
  }

  /** math.pi */
  const Pi: real := 3.141592653589793

  /** The transcendental functions numpy provides, taken as parameters. */
  datatype MathLib = MathLib(exp: real -> real, arccos: real -> real, sqrt: real -> real)

  ghost predicate ExpLaws(m: MathLib) {
    && m.exp(0.0) == 1.0
    && forall x :: x <= 0.0 ==> 0.0 < m.exp(x) <= 1.0
  }

  ghost predicate SqrtLaws(m: MathLib) {
    && m.sqrt(0.0) == 0.0
    && forall x :: x >= 0.0 ==> m.sqrt(x) >= 0.0 && m.sqrt(x) * m.sqrt(x) == x
  }

  /** What the proofs need of arccos: it is 0 at 1 and never negative on [-1, 1]. */
  ghost predicate ArccosLaws(m: MathLib) {
    && m.arccos(1.0) == 0.0
    && forall x :: -1.0 <= x <= 1.0 ==> 0.0 <= m.arccos(x)
  }

  /** numpy.linalg.norm of a vector: non-finite as soon as one component is. */
  function Norm(m: MathLib, xs: seq<Float>): (r: Float)
    ensures r.Finite? <==> AllFinite(xs)
  {
    if AllFinite(xs) then Finite(m.sqrt(SumSq(Values(xs)))) else NonFinite
  }

  /** Euclidean distance of two equally long finite vectors. */
  function Dist(m: MathLib, a: seq<real>, b: seq<real>): real
    requires |a| == |b|
  {
    m.sqrt(SumSq(Diff(a, b)))
  }

  lemma SumSqZero(xs: seq<real>)
    requires forall i :: 0 <= i < |xs| ==> xs[i] == 0.0
    ensures SumSq(xs) == 0.0
  {
    if |xs| > 0 {
      SumSqZero(xs[..|xs| - 1]);
    }
  }

  lemma DistSelf(m: MathLib, a: seq<real>)
    requires SqrtLaws(m)
    ensures Dist(m, a, a) == 0.0
  {
    SumSqZero(Diff(a, a));
  }

  lemma DistNonNegative(m: MathLib, a: seq<real>, b: seq<real>)
    requires SqrtLaws(m) && |a| == |b|
    ensures Dist(m, a, b) >= 0.0
  {
    var s := SumSq(Diff(a, b));
    assert s >= 0.0;
  }
}

=== FILE: pose.dfy ===
/**
 * src/pose_score.py: the weighted pose score. Every configured joint present
 * in both rotation maps contributes its weight times the quaternion distance;
 * the score is one minus the weighted mean distance, clipped to [0, 1].
 *
 * The distance is a parameter so that the aggregation can be stated on its
 * own; `ComputePoseScore` instantiates it with `Utils.QuaternionDistance`.
 */
module PoseScore {
  import opened Wrappers
  import opened Floats
  import opened PyValues
  import Config
  import Utils

  /** A per-joint distance; an Err is an exception raised for that joint. */
  type Distance = (Value, Value) -> Result<Float, PyError>

  /** The two accumulators of the loop: sum of w * d and sum of w. */
  datatype Acc = Acc(total: real, weightSum: real)

  /** The joint is in both maps and its distance is a finite number. */
  predicate Contributes(dist: Distance, p: Entries, q: Entries, joint: string) {
    && Get(p, joint).Some? && Get(q, joint).Some?
    && dist(Get(p, joint).value, Get(q, joint).value).Ok?
    && dist(Get(p, joint).value, Get(q, joint).value).value.Finite?
  }

  /** Some joint of the table contributes. */
  predicate AnyContributes(dist: Distance, p: Entries, q: Entries, joints: seq<(string, real)>) {
    exists i :: 0 <= i < |joints| && Contributes(dist, p, q, joints[i].0)
  }

  /** Every weight of the table is at least lo. */
  predicate WeightsAtLeast(joints: seq<(string, real)>, lo: real) {
    forall i :: 0 <= i < |joints| ==> joints[i].1 >= lo
  }

  /** Every finite distance the parameter returns lies in [0, 1]. */
  ghost predicate UnitDistance(dist: Distance) {
    forall a, b :: dist(a, b).Ok? && dist(a, b).value.Finite? ==> 0.0 <= dist(a, b).value.val <= 1.0
  }

  /**
   * The loop over JOINT_WEIGHTS, in table order. Joints missing from either
   * map and non-finite distances are skipped; the first joint whose distance
   * raises aborts the loop.
   */
  function Accumulate(dist: Distance, p: Entries, q: Entries, joints: seq<(string, real)>): (r: Result<Acc, PyError>)
    decreases |joints|
  {
    if joints == [] then Ok(Acc(0.0, 0.0))
    else
      var acc :- Accumulate(dist, p, q, joints[..|joints| - 1]);
      Step(acc, joints[|joints| - 1].1, JointDistance(dist, p, q, joints[|joints| - 1].0))
  }

  /** The distance of one joint, None when the joint is missing from either map. */
  function JointDistance(dist: Distance, p: Entries, q: Entries, joint: string): Option<Result<Float, PyError>> {
    if Get(p, joint).None? || Get(q, joint).None? then None
    else Some(dist(Get(p, joint).value, Get(q, joint).value))
  }

  /** One iteration of the loop, for a joint of weight `w` and distance `d`. */
  function Step(acc: Acc, w: real, d: Option<Result<Float, PyError>>): Result<Acc, PyError> {
    match d
    case None => Ok(acc)
    case Some(Err(e)) => Err(e)
    case Some(Ok(NonFinite)) => Ok(acc)
    case Some(Ok(Finite(x))) => Ok(Acc(acc.total + w * x, acc.weightSum + w))
  }

  /** A joint's distance is present, computed and finite. */
  predicate Counted(d: Option<Result<Float, PyError>>) {
    d.Some? && d.value.Ok? && d.value.value.Finite?
  }

  /** compute_pose_score(player_rot, ref_rot) for a given distance and weight table. */
  function PoseWith(dist: Distance, joints: seq<(string, real)>, player: Value, reference: Value): (r: Result<real, PyError>)
    ensures !player.Dict? || !reference.Dict? ==> r == Ok(0.0)
    ensures player.Dict? && reference.Dict? ==>
      (r.Err? <==> Accumulate(dist, player.entries, reference.entries, joints).Err?)
    ensures r.Ok? ==> 0.0 <= r.value <= 1.0
  {
    if !player.Dict? || !reference.Dict? then Ok(0.0)
    else
      var acc :- Accumulate(dist, player.entries, reference.entries, joints);
      if acc.weightSum <= 0.00000001 then Ok(0.0)
      else Ok(Clip(1.0 - acc.total / acc.weightSum, 0.0, 1.0))
  }

  /** The quaternion distance of src/utils.py with a fixed numeric library. */
  function QuatDist(m: MathLib): Distance {
    (a: Value, b: Value) => Utils.QuaternionDistance(m, a, b)
  }

  /** compute_pose_score as main.py calls it. */
  function ComputePoseScore(m: MathLib, player: Value, reference: Value): (r: Result<real, PyError>)
    ensures !player.Dict? || !reference.Dict? ==> r == Ok(0.0)
    ensures r.Ok? ==> 0.0 <= r.value <= 1.0
  {
    PoseWith(QuatDist(m), Config.JointWeights, player, reference)
  }

  // ---------------------------------------------------------------- loop lemmas

  /** The accumulator before the last joint of a non-empty table. */
  lemma {:induction false} AccumulateLast(dist: Distance, p: Entries, q: Entries, joints: seq<(string, real)>)
    requires joints != [] && Accumulate(dist, p, q, joints).Ok?
    ensures Accumulate(dist, p, q, joints[..|joints| - 1]).Ok?
    ensures Accumulate(dist, p, q, joints) ==
      Step(Accumulate(dist, p, q, joints[..|joints| - 1]).value, joints[|joints| - 1].1, JointDistance(dist, p, q, joints[|joints| - 1].0))
  {
  }

  /** A property of every entry of the table holds of every entry of its prefix. */
  lemma WeightsPrefix(joints: seq<(string, real)>, lo: real)
    requires joints != [] && WeightsAtLeast(joints, lo)
    ensures WeightsAtLeast(joints[..|joints| - 1], lo)
  {
    var pre := joints[..|joints| - 1];
    forall i | 0 <= i < |pre| ensures pre[i].1 >= lo {
      assert pre[i] == joints[i];
    }
  }

  /** Some joint of a non-empty table contributes iff one of its prefix does or its last joint does. */
  lemma AnyContributesLast(dist: Distance, p: Entries, q: Entries, joints: seq<(string, real)>)
    requires joints != []
    ensures AnyContributes(dist, p, q, joints) <==>
      AnyContributes(dist, p, q, joints[..|joints| - 1]) || Contributes(dist, p, q, joints[|joints| - 1].0)
  {
    var pre := joints[..|joints| - 1];
    if AnyContributes(dist, p, q, pre) {
      var i :| 0 <= i < |pre| && Contributes(dist, p, q, pre[i].0);
      assert joints[i] == pre[i];
    }
    if AnyContributes(dist, p, q, joints) && !Contributes(dist, p, q, joints[|joints| - 1].0) {
      var i :| 0 <= i < |joints| && Contributes(dist, p, q, joints[i].0);
      assert i < |pre| && pre[i] == joints[i];
    }
  }

  /** One step adds w to the weight sum exactly when the joint's distance counts. */
  lemma StepWeight(acc: Acc, w: real, d: Option<Result<Float, PyError>>)
    requires Step(acc, w, d).Ok?
    ensures Step(acc, w, d).value.weightSum == if Counted(d) then acc.weightSum + w else acc.weightSum
  {
  }

  /** The weight sum is zero exactly when no joint contributes, and at least lo otherwise. */
  lemma {:induction false} WeightSumContributors(dist: Distance, p: Entries, q: Entries, joints: seq<(string, real)>, lo: real)
    requires lo > 0.0 && WeightsAtLeast(joints, lo)
    requires Accumulate(dist, p, q, joints).Ok?
    ensures var acc := Accumulate(dist, p, q, joints).value;
      && acc.weightSum >= 0.0
      && (acc.weightSum == 0.0 <==> !AnyContributes(dist, p, q, joints))
      && (AnyContributes(dist, p, q, joints) ==> acc.weightSum >= lo)
    decreases |joints|
  {
    if joints != [] {
      var pre := joints[..|joints| - 1];
      var last := joints[|joints| - 1];
      WeightsPrefix(joints, lo);
      AccumulateLast(dist, p, q, joints);
      WeightSumContributors(dist, p, q, pre, lo);
      AnyContributesLast(dist, p, q, joints);
      StepWeight(Accumulate(dist, p, q, pre).value, last.1, JointDistance(dist, p, q, last.0));
      assert Contributes(dist, p, q, last.0) <==> Counted(JointDistance(dist, p, q, last.0));
    }
  }

  /** One step keeps 0 <= total <= weightSum when the distance lies in [0, 1]. */
  lemma StepBounded(acc: Acc, w: real, d: Option<Result<Float, PyError>>)
    requires w >= 0.0 && 0.0 <= acc.total <= acc.weightSum
    requires Counted(d) ==> 0.0 <= d.value.value.val <= 1.0
    requires Step(acc, w, d).Ok?
    ensures 0.0 <= Step(acc, w, d).value.total <= Step(acc, w, d).value.weightSum
  {
    if Counted(d) {
      var x := d.value.value.val;
      WeightedStep(w, x);
      AddBounded(acc.total, acc.weightSum, w * x, w);
    }
  }

  /** Adding a bounded pair to a bounded pair keeps the bound. */
  lemma AddBounded(t: real, s: real, a: real, b: real)
    requires 0.0 <= t <= s && 0.0 <= a <= b
    ensures 0.0 <= t + a <= s + b
  {
  }

  /** With distances in [0, 1], the weighted total never exceeds the weight sum. */
  lemma {:induction false} TotalBounded(dist: Distance, p: Entries, q: Entries, joints: seq<(string, real)>)
    requires UnitDistance(dist) && WeightsAtLeast(joints, 0.0)
    requires Accumulate(dist, p, q, joints).Ok?
    ensures var acc := Accumulate(dist, p, q, joints).value;
      0.0 <= acc.total <= acc.weightSum
    decreases |joints|
  {
    if joints != [] {
      var pre := joints[..|joints| - 1];
      var last := joints[|joints| - 1];
      WeightsPrefix(joints, 0.0);
      AccumulateLast(dist, p, q, joints);
      TotalBounded(dist, p, q, pre);
      var d := JointDistance(dist, p, q, last.0);
      if Counted(d) {
        assert d.value == dist(Get(p, last.0).value, Get(q, last.0).value);
      }
      StepBounded(Accumulate(dist, p, q, pre).value, last.1, d);
    }
  }

  lemma WeightedStep(w: real, d: real)
    requires w >= 0.0 && 0.0 <= d <= 1.0
    ensures 0.0 <= w * d <= w
  {
    assert w * d <= w * 1.0;
  }

  /** All contributing distances of the table are 0. */
  predicate ZeroDistances(dist: Distance, p: Entries, q: Entries, joints: seq<(string, real)>) {
    forall i :: 0 <= i < |joints| && Contributes(dist, p, q, joints[i].0) ==>
      dist(Get(p, joints[i].0).value, Get(q, joints[i].0).value).value.val == 0.0
  }

  /** A step with a zero distance leaves the total unchanged. */
  lemma StepZero(acc: Acc, w: real, d: Option<Result<Float, PyError>>)
    requires Counted(d) ==> d.value.value.val == 0.0
    requires Step(acc, w, d).Ok?
    ensures Step(acc, w, d).value.total == acc.total
  {
  }

  /** When every contributing distance is 0, so is the weighted total. */
  lemma {:induction false} TotalZero(dist: Distance, p: Entries, q: Entries, joints: seq<(string, real)>)
    requires Accumulate(dist, p, q, joints).Ok?
    requires ZeroDistances(dist, p, q, joints)
    ensures Accumulate(dist, p, q, joints).value.total == 0.0
    decreases |joints|
  {
    if joints != [] {
      var pre := joints[..|joints| - 1];
      forall i | 0 <= i < |pre| && Contributes(dist, p, q, pre[i].0)
        ensures dist(Get(p, pre[i].0).value, Get(q, pre[i].0).value).value.val == 0.0
      {
        assert pre[i] == joints[i];
      }
      AccumulateLast(dist, p, q, joints);
      TotalZero(dist, p, q, pre);
      var last := joints[|joints| - 1];
      var d := JointDistance(dist, p, q, last.0);
      if Counted(d) {
        assert Contributes(dist, p, q, joints[|joints| - 1].0);
      }
      StepZero(Accumulate(dist, p, q, pre).value, last.1, d);
    }
  }

  /** The loop only looks at joints of the table: maps that agree on them give the same sums. */
  lemma {:induction false} AccumulateOnlyTable(dist: Distance, p: Entries, q: Entries, p2: Entries, q2: Entries, joints: seq<(string, real)>)
    requires forall i :: 0 <= i < |joints| ==> Get(p, joints[i].0) == Get(p2, joints[i].0) && Get(q, joints[i].0) == Get(q2, joints[i].0)
    ensures Accumulate(dist, p, q, joints) == Accumulate(dist, p2, q2, joints)
    decreases |joints|
  {
    if joints != [] {
      var pre := joints[..|joints| - 1];
      forall i | 0 <= i < |pre|
        ensures Get(p, pre[i].0) == Get(p2, pre[i].0) && Get(q, pre[i].0) == Get(q2, pre[i].0)
      {
        assert pre[i] == joints[i];
      }
      AccumulateOnlyTable(dist, p, q, p2, q2, pre);
      var joint := joints[|joints| - 1].0;
      assert JointDistance(dist, p, q, joint) == JointDistance(dist, p2, q2, joint);
    }
  }

  /** A distance that never raises makes the loop succeed. */
  lemma {:induction false} AccumulateTotal(dist: Distance, p: Entries, q: Entries, joints: seq<(string, real)>)
    requires forall i :: 0 <= i < |joints| && Get(p, joints[i].0).Some? && Get(q, joints[i].0).Some? ==>
      dist(Get(p, joints[i].0).value, Get(q, joints[i].0).value).Ok?
    ensures Accumulate(dist, p, q, joints).Ok?
    decreases |joints|
  {
    if joints != [] {
      var pre := joints[..|joints| - 1];
      forall i | 0 <= i < |pre| && Get(p, pre[i].0).Some? && Get(q, pre[i].0).Some?
        ensures dist(Get(p, pre[i].0).value, Get(q, pre[i].0).value).Ok?
      {
        assert pre[i] == joints[i];
      }
      AccumulateTotal(dist, p, q, pre);
      var last := |joints| - 1;
      if Get(p, joints[last].0).Some? && Get(q, joints[last].0).Some? {
        assert dist(Get(p, joints[last].0).value, Get(q, joints[last].0).value).Ok?;
      }
    }
  }

  // ---------------------------------------------------------------- score lemmas

  /** No contributing joint (none shared, or only non-finite distances): the score is exactly 0. */
  lemma PoseNoContributors(dist: Distance, joints: seq<(string, real)>, player: Value, reference: Value)
    requires WeightsAtLeast(joints, 0.5)
    requires player.Dict? && reference.Dict?
    requires Accumulate(dist, player.entries, reference.entries, joints).Ok?
    requires !AnyContributes(dist, player.entries, reference.entries, joints)
    ensures PoseWith(dist, joints, player, reference) == Ok(0.0)
  {
    WeightSumContributors(dist, player.entries, reference.entries, joints, 0.5);
  }

  /**
   * With at least one contributor and distances in [0, 1], the clip is inert:
   * the score is one minus the weighted mean distance.
   */
  lemma PoseWeightedMean(dist: Distance, joints: seq<(string, real)>, player: Value, reference: Value)
    requires UnitDistance(dist) && WeightsAtLeast(joints, 0.5)
    requires player.Dict? && reference.Dict?
    requires Accumulate(dist, player.entries, reference.entries, joints).Ok?
    requires AnyContributes(dist, player.entries, reference.entries, joints)
    ensures var acc := Accumulate(dist, player.entries, reference.entries, joints).value;
      acc.weightSum > 0.00000001 && PoseWith(dist, joints, player, reference) == Ok(1.0 - acc.total / acc.weightSum)
  {
    var acc := Accumulate(dist, player.entries, reference.entries, joints).value;
    WeightSumContributors(dist, player.entries, reference.entries, joints, 0.5);
    assert WeightsAtLeast(joints, 0.0);
    TotalBounded(dist, player.entries, reference.entries, joints);
    MeanInUnit(acc.total, acc.weightSum);
  }

  lemma MeanInUnit(t: real, s: real)
    requires s > 0.0 && 0.0 <= t <= s
    ensures 0.0 <= t / s <= 1.0
  {
    var a := t / s;
    assert a * s == t;
    if a > 1.0 {
      Utils.MulPositive(a - 1.0, s);
    } else if a < 0.0 {
      Utils.MulNegative(a, s);
    }
  }

  lemma ZeroOver(t: real, s: real)
    requires t == 0.0 && s > 0.0
    ensures t / s == 0.0
  {
  }

  /** Every contributing distance 0 and at least one contributor: a perfect score. */
  lemma PosePerfect(dist: Distance, joints: seq<(string, real)>, player: Value, reference: Value)
    requires WeightsAtLeast(joints, 0.5)
    requires player.Dict? && reference.Dict?
    requires Accumulate(dist, player.entries, reference.entries, joints).Ok?
    requires AnyContributes(dist, player.entries, reference.entries, joints)
    requires ZeroDistances(dist, player.entries, reference.entries, joints)
    ensures PoseWith(dist, joints, player, reference) == Ok(1.0)
  {
    var acc := Accumulate(dist, player.entries, reference.entries, joints).value;
    WeightSumContributors(dist, player.entries, reference.entries, joints, 0.5);
    TotalZero(dist, player.entries, reference.entries, joints);
    assert acc.total == 0.0 && acc.weightSum >= 0.5;
    ZeroOver(acc.total, acc.weightSum);
    PoseOfSums(dist, joints, player, reference);
  }

  /** Joints outside the table, or entries for other keys, do not change the score. */
  lemma PoseOnlyTableJoints(dist: Distance, joints: seq<(string, real)>, player: Value, reference: Value, player2: Value, reference2: Value)
    requires player.Dict? && reference.Dict? && player2.Dict? && reference2.Dict?
    requires forall i :: 0 <= i < |joints| ==>
      && Get(player.entries, joints[i].0) == Get(player2.entries, joints[i].0)
      && Get(reference.entries, joints[i].0) == Get(reference2.entries, joints[i].0)
    ensures PoseWith(dist, joints, player, reference) == PoseWith(dist, joints, player2, reference2)
  {
    AccumulateOnlyTable(dist, player.entries, reference.entries, player2.entries, reference2.entries, joints);
  }

  /** PoseWith in terms of the loop's two sums. */
  lemma PoseOfSums(dist: Distance, joints: seq<(string, real)>, player: Value, reference: Value)
    requires player.Dict? && reference.Dict?
    requires Accumulate(dist, player.entries, reference.entries, joints).Ok?
    ensures var acc := Accumulate(dist, player.entries, reference.entries, joints).value;
      PoseWith(dist, joints, player, reference) ==
        if acc.weightSum <= 0.00000001 then Ok(0.0) else Ok(Clip(1.0 - acc.total / acc.weightSum, 0.0, 1.0))
  {
  }

  lemma TableWeights()
    ensures WeightsAtLeast(Config.JointWeights, 0.5)
  {
    Config.WeightsWellFormed();
  }

  /** The quaternion distance takes its finite values in [0, 1]. */
  lemma QuatDistUnit(m: MathLib)
    ensures UnitDistance(QuatDist(m))
  {
  }

  /** Every table joint of the map converts to a 4-vector. */
  predicate AllQuaternions(rot: Entries) {
    forall i :: 0 <= i < |Config.JointWeights| && Get(rot, Config.JointWeights[i].0).Some? ==>
      AsVector(Get(rot, Config.JointWeights[i].0).value, 4).Ok?
  }

  /** A map compared with itself under a distance that is 0 on equal inputs. */
  lemma PoseSelf(dist: Distance, joints: seq<(string, real)>, rot: Value)
    requires WeightsAtLeast(joints, 0.5) && rot.Dict?
    requires forall i :: 0 <= i < |joints| && Get(rot.entries, joints[i].0).Some? ==>
      dist(Get(rot.entries, joints[i].0).value, Get(rot.entries, joints[i].0).value) == Ok(Finite(0.0))
    ensures PoseWith(dist, joints, rot, rot) ==
      if exists i :: 0 <= i < |joints| && Get(rot.entries, joints[i].0).Some? then Ok(1.0) else Ok(0.0)
  {
    var e := rot.entries;
    AccumulateTotal(dist, e, e, joints);
    if exists i :: 0 <= i < |joints| && Get(e, joints[i].0).Some? {
      var i :| 0 <= i < |joints| && Get(e, joints[i].0).Some?;
      assert Contributes(dist, e, e, joints[i].0);
      PosePerfect(dist, joints, rot, rot);
    } else {
      PoseNoContributors(dist, joints, rot, rot);
    }
  }

  /** A pose compared with itself scores 1, unless no table joint is present at all. */
  lemma PoseIdentical(m: MathLib, rot: Value)
    requires SqrtLaws(m) && ArccosLaws(m)
    requires rot.Dict? && AllQuaternions(rot.entries)
    ensures ComputePoseScore(m, rot, rot) ==
      if exists i :: 0 <= i < |Config.JointWeights| && Get(rot.entries, Config.JointWeights[i].0).Some?
      then Ok(1.0) else Ok(0.0)
  {
    TableWeights();
    QuatDistSelfOnTable(m, rot.entries);
    PoseSelf(QuatDist(m), Config.JointWeights, rot);
  }

  /** Every table joint of the map is at distance 0 from itself. */
  lemma QuatDistSelfOnTable(m: MathLib, e: Entries)
    requires SqrtLaws(m) && ArccosLaws(m) && AllQuaternions(e)
    ensures var j := Config.JointWeights;
      forall i :: 0 <= i < |j| && Get(e, j[i].0).Some? ==>
        QuatDist(m)(Get(e, j[i].0).value, Get(e, j[i].0).value) == Ok(Finite(0.0))
  {
    var j := Config.JointWeights;
    forall i | 0 <= i < |j| && Get(e, j[i].0).Some?
      ensures QuatDist(m)(Get(e, j[i].0).value, Get(e, j[i].0).value) == Ok(Finite(0.0))
    {
      Utils.QuatDistanceSelf(m, AsVector(Get(e, j[i].0).value, 4).value);
    }
  }
}

=== FILE: pyvalues.dfy ===
/**
 * The Python values the scoring pipeline receives and builds: decoded JSON
 * (None, booleans, numbers, strings, lists, dicts) and the numpy float32 arrays
 * that the conversion functions put inside dicts. Dicts keep insertion order.
 * The conversions numpy performs on them (asarray, reshape, truthiness,
 * float()) are modelled here with the exception class they raise.
 */
module PyValues {
  import opened Wrappers
  import opened Floats
  import opened Seqs

  /** The Python exception classes the core can raise. */
  datatype PyError = ValueError | TypeError | AttributeError | IndexError | JsonDecodeError

  function Product(shape: seq<nat>): nat
  {
    if |shape| == 0 then 1 else shape[0] * Product(shape[1..])
  }

  datatype RawArray = RawArray(shape: seq<nat>, data: seq<Float>)

  /** A numpy array: a shape and its elements in row-major order. */
  type NdArray = a: RawArray | Product(a.shape) == |a.data| witness RawArray([0], [])

  datatype Value =
    | Null
    | Bool(b: bool)
    | Num(x: Float)
    | Str(s: string)
    | List(items: seq<Value>)
    | Dict(entries: seq<(string, Value)>)
    | NdArr(arr: NdArray)

  type Entries = seq<(string, Value)>

  /** dict.get(key): the value stored under key, if any. */
  function Get(d: Entries, key: string): (r: Option<Value>)
    ensures r.Some? <==> exists i :: 0 <= i < |d| && d[i].0 == key
    ensures r.Some? ==> exists i :: 0 <= i < |d| && d[i] == (key, r.value)
  {
    if |d| == 0 then None
    else if d[0].0 == key then Some(d[0].1)
    else Get(d[1..], key)
  }

  function GetOr(d: Entries, key: string, default: Value): Value
  {
    Get(d, key).GetOr(default)
  }

  /** d[key] = v: replaces the value in place when key is present, appends it otherwise. */
  function Put(d: Entries, key: string, v: Value): (r: Entries)
    ensures Get(r, key) == Some(v)
    ensures forall k :: k != key ==> Get(r, k) == Get(d, k)
  {
    if |d| == 0 then [(key, v)]
    else if d[0].0 == key then [(key, v)] + d[1..]
    else [d[0]] + Put(d[1..], key, v)
  }

  /** bool(v); numpy refuses the truth value of an array that does not hold exactly one element. */
  function Truthy(v: Value): (r: Result<bool, PyError>)
    ensures r.Err? <==> v.NdArr? && |v.arr.data| != 1
  {
    match v
    case Null => Ok(false)
    case Bool(b) => Ok(b)
    case Num(x) => Ok(x.NonFinite? || x.val != 0.0)
    case Str(s) => Ok(s != "")
    case List(items) => Ok(items != [])
    case Dict(entries) => Ok(entries != [])
    case NdArr(a) =>
      if |a.data| == 1 then Ok(a.data[0].NonFinite? || a.data[0].val != 0.0) else Err(ValueError)
  }

  /** `v or default`: v when it is truthy, the default otherwise. */
  function OrElse(v: Value, default: Value): (r: Result<Value, PyError>)
    ensures r.Ok? ==> r.value == v || r.value == default
    ensures v.Dict? && v.entries != [] ==> r == Ok(v)
  {
    var t :- Truthy(v);
    Ok(if t then v else default)
  }

  /** Python float(v). Numeric strings are not modelled: every string is refused. */
  function PyFloat(v: Value): (r: Result<Float, PyError>)
    ensures v.Num? ==> r == Ok(v.x)
    ensures v.Null? || v.List? || v.Dict? || v.Str? ==> r.Err?
  {
    match v
    case Num(x) => Ok(x)
    case Bool(b) => Ok(Finite(if b then 1.0 else 0.0))
    case NdArr(a) => if |a.data| == 1 then Ok(a.data[0]) else Err(TypeError)
    case Str(_) => Err(ValueError)
    case _ => Err(TypeError)
  }

  /** [float(x) for x in items], stopping at the first refusal. */
  function PyFloats(items: seq<Value>): (r: Result<seq<Float>, PyError>)
    ensures r.Ok? ==> |r.value| == |items|
    ensures r.Ok? ==> forall i :: 0 <= i < |items| ==> PyFloat(items[i]) == Ok(r.value[i])
    ensures r.Err? ==> exists i :: 0 <= i < |items| && PyFloat(items[i]).Err?
  {
    if |items| == 0 then Ok([])
    else
      var x :- PyFloat(items[0]);
      var rest :- PyFloats(items[1..]);
      Ok([x] + rest)
  }

  /** The value json.dumps/json.loads round-trips for a list of floats. */
  function FloatList(xs: seq<Float>): (r: Value)
    ensures r.List? && |r.items| == |xs|
    ensures forall i :: 0 <= i < |xs| ==> r.items[i] == Num(xs[i])
  {
    List(seq(|xs|, i requires 0 <= i < |xs| => Num(xs[i])))
  }

  function Scalar(x: Float): NdArray
  {
    RawArray([], [x])
  }

  /** Stacks converted elements the way numpy builds an array from a list: all element shapes must agree. */
  function Stack(parts: seq<Result<NdArray, PyError>>): (r: Result<NdArray, PyError>)
    ensures r.Ok? ==> |r.value.shape| >= 1 && r.value.shape[0] == |parts|
  {
    if |parts| == 0 then Ok(RawArray([0], []))
    else if exists i :: 0 <= i < |parts| && parts[i].Err? then Err(ValueError)
    else if exists i :: 0 <= i < |parts| && parts[i].value.shape != parts[0].value.shape then Err(ValueError)
    else
      var inner := parts[0].value.shape;
      var datas := seq(|parts|, i requires 0 <= i < |parts| => parts[i].value.data);
      FlattenUniform(datas, Product(inner));
      Ok(RawArray([|parts|] + inner, Flatten(datas)))
  }

  /** numpy.asarray(v, dtype=float32). None becomes NaN, booleans 0/1, ragged lists are refused. */
  function AsArray(v: Value): (r: Result<NdArray, PyError>)
    ensures v.Num? ==> r == Ok(Scalar(v.x))
    ensures v.NdArr? ==> r == Ok(v.arr)
    ensures v.Str? || v.Dict? ==> r.Err?
    decreases v, 1
  {
    match v
    case Null => Ok(Scalar(NonFinite))
    case Bool(b) => Ok(Scalar(Finite(if b then 1.0 else 0.0)))
    case Num(x) => Ok(Scalar(x))
    case Str(_) => Err(ValueError)
    case Dict(_) => Err(TypeError)
    case NdArr(a) => Ok(a)
    case List(items) => Stack(AsArrays(items))
  }

  /** The conversions of the elements of a list, one per element. */
  function AsArrays(items: seq<Value>): (r: seq<Result<NdArray, PyError>>)
    ensures |r| == |items|
    decreases items, 0
  {
    if |items| == 0 then [] else [AsArray(items[0])] + AsArrays(items[1..])
  }

  lemma AsArraysElements(items: seq<Value>)
    ensures forall i :: 0 <= i < |items| ==> AsArrays(items)[i] == AsArray(items[i])
  {
    if |items| > 0 {
      AsArraysElements(items[1..]);
    }
  }

  /** a.reshape(shape): same elements, new shape, refused when the sizes differ. */
  function Reshape(a: NdArray, shape: seq<nat>): (r: Result<NdArray, PyError>)
    ensures r.Ok? <==> Product(shape) == |a.data|
    ensures r.Ok? ==> r.value.shape == shape && r.value.data == a.data
  {
    if Product(shape) == |a.data| then Ok(RawArray(shape, a.data)) else Err(ValueError)
  }

  /** np.asarray(v, dtype=float32).reshape(n,): the n elements of v, when v holds exactly n numbers. */
  function AsVector(v: Value, n: nat): (r: Result<seq<Float>, PyError>)
    ensures r.Ok? ==> |r.value| == n
  {
    var a :- AsArray(v);
    assert Product([n]) == n * Product([]);
    var b :- Reshape(a, [n]);
    Ok(b.data)
  }

  lemma AsVectorOfFloatList(xs: seq<Float>)
    ensures AsVector(FloatList(xs), |xs|) == Ok(xs)
  {
    var v := FloatList(xs);
    var parts := AsArrays(v.items);
    AsArraysElements(v.items);
    assert forall i :: 0 <= i < |parts| ==> parts[i] == Ok(Scalar(xs[i]));
    assert Product([|xs|]) == |xs| * Product([]);
    if |xs| > 0 {
      var datas := seq(|parts|, i requires 0 <= i < |parts| => parts[i].value.data);
      FlattenSingletons(datas, xs);
      assert forall i :: 0 <= i < |parts| ==> parts[i].Ok? && parts[i].value.shape == [];
      assert !(exists i :: 0 <= i < |parts| && parts[i].Err?);
      assert [|parts|] + parts[0].value.shape == [|xs|];
      assert Stack(parts) == Ok(RawArray([|xs|], xs));
    } else {
      assert AsArray(v) == Ok(RawArray([0], []));
    }
  }

  lemma FlattenSingletons(datas: seq<seq<Float>>, xs: seq<Float>)
    requires |datas| == |xs|
    requires forall i :: 0 <= i < |xs| ==> datas[i] == [xs[i]]
    ensures Flatten(datas) == xs
  {
    if |xs| > 0 {
      FlattenSingletons(datas[1..], xs[1..]);
    }
  }

  lemma ProductOfRest(shape: seq<nat>)
    requires |shape| >= 1
    ensures Product(shape) == shape[0] * Product(shape[1..])
  {
  }

  lemma MulStep(i: nat, k: nat, p: nat)
    requires i < k
    ensures i * p + p <= k * p
  {
    assert (i + 1) * p <= k * p by {
      assert i + 1 <= k;
    }
  }

  /** The i-th sub-array along the first axis. */
  function Row(a: NdArray, i: nat): NdArray
    requires |a.shape| >= 1 && i < a.shape[0]
  {
    var p := Product(a.shape[1..]);
    MulStep(i, a.shape[0], p);
    RawArray(a.shape[1..], a.data[i * p..i * p + p])
  }

  /** `for x in v`: the elements Python iteration produces, or the TypeError for non-iterables. */
  function Iterate(v: Value): (r: Result<seq<Value>, PyError>)
    ensures v.List? ==> r == Ok(v.items)
    ensures v.Null? || v.Bool? || v.Num? ==> r.Err?
  {
    match v
    case List(items) => Ok(items)
    case Dict(entries) => Ok(seq(|entries|, i requires 0 <= i < |entries| => Str(entries[i].0)))
    case Str(s) => Ok(seq(|s|, i requires 0 <= i < |s| => Str([s[i]])))
    case NdArr(a) =>
      if |a.shape| == 0 then Err(TypeError)
      else Ok(seq(a.shape[0], i requires 0 <= i < a.shape[0] => NdArr(Row(a, i))))
    case _ => Err(TypeError)
  }

  /** The four-key dict both conversion functions return, in the order they build it. */
  function MotionDict(timestamp: Value, rotations: Value, trajectories: Value, rhythm: Value): (r: Value)
    ensures r.Dict?
    ensures Get(r.entries, "timestamp") == Some(timestamp)
    ensures Get(r.entries, "rotations") == Some(rotations)
    ensures Get(r.entries, "trajectories") == Some(trajectories)
    ensures Get(r.entries, "rhythm_signal") == Some(rhythm)
  {
    var e := [("timestamp", timestamp), ("rotations", rotations), ("trajectories", trajectories), ("rhythm_signal", rhythm)];
    assert e[1..] == [("rotations", rotations), ("trajectories", trajectories), ("rhythm_signal", rhythm)];
    assert e[1..][1..] == [("trajectories", trajectories), ("rhythm_signal", rhythm)];
    assert e[1..][1..][1..] == [("rhythm_signal", rhythm)];
    assert Get(e[1..][1..], "trajectories") == Some(trajectories);
    assert Get(e[1..][1..][1..], "rhythm_signal") == Some(rhythm);
    assert Get(e[1..][1..], "rhythm_signal") == Some(rhythm);
    assert Get(e[1..], "rhythm_signal") == Some(rhythm);
    Dict(e)
  }

  /** Python dicts never repeat a key. */
  predicate DistinctKeys(d: Entries) {
    forall i, j :: 0 <= i < j < |d| ==> d[i].0 != d[j].0
  }

  /** Looking up in a dict extended at the end: the earlier entry wins. */
  lemma {:induction false} GetSnoc(d: Entries, kv: (string, Value), key: string)
    ensures Get(d + [kv], key) == if Get(d, key).Some? then Get(d, key) else if kv.0 == key then Some(kv.1) else None
  {
    if |d| > 0 {
      assert (d + [kv])[1..] == d[1..] + [kv];
      GetSnoc(d[1..], kv, key);
    }
  }
}

=== FILE: receiver.dfy ===
/**
 * Decoding of the motion-capture packets (src/receiver.py): transforms, skeleton
 * definitions (skdf), frames (fram) and the three-box top-level packet, plus the
 * bone-name table. Each parser works on the boxes iter_boxes yields, in order,
 * and raises the framing error only after the boxes read before it.
 */
module Receiver {
  import opened Wrappers
  import opened Boxes
  import opened Seqs

  // ---------------------------------------------------------------- bone names

  const BoneNames: seq<string> := [
    "root", "torso_1", "torso_2", "torso_3", "torso_4", "torso_5", "torso_6", "torso_7",
    "neck_1", "neck_2", "head",
    "l_shoulder", "l_up_arm", "l_low_arm", "l_hand",
    "r_shoulder", "r_up_arm", "r_low_arm", "r_hand",
    "l_up_leg", "l_low_leg", "l_foot", "l_toes",
    "r_up_leg", "r_low_leg", "r_foot", "r_toes"
  ]

  function Digit(d: nat): char
    requires d < 10
  {
    "0123456789"[d]
  }

  /** str(n) for a natural number. */
  function NatToString(n: nat): (r: string)
    ensures |r| > 0
    ensures forall i :: 0 <= i < |r| ==> '0' <= r[i] <= '9'
  {
    if n < 10 then [Digit(n)] else NatToString(n / 10) + [Digit(n % 10)]
  }

  /** str(i) for any integer. */
  function IntToString(i: int): string
  {
    if i < 0 then "-" + NatToString(-i) else NatToString(i)
  }

  /** bone_name: the table entry for ids 0..26, "bone_<id>" for any other id. */
  function BoneName(id: int): string
  {
    if 0 <= id < |BoneNames| then BoneNames[id] else "bone_" + IntToString(id)
  }

  predicate AllDigits(s: string) {
    forall i :: 0 <= i < |s| ==> '0' <= s[i] <= '9'
  }

  function DigitsValue(s: string): nat
    requires AllDigits(s)
  {
    if |s| == 0 then 0 else 10 * DigitsValue(s[..|s| - 1]) + (s[|s| - 1] as int - '0' as int)
  }

  /** A decimal integer with an optional leading minus sign. */
  function ParseInt(s: string): Option<int>
    decreases s
  {
    if |s| > 1 && s[0] == '-' && AllDigits(s[1..]) then Some(0 - DigitsValue(s[1..]))
    else if |s| > 0 && AllDigits(s) then Some(DigitsValue(s))
    else None
  }

  function IndexOf(names: seq<string>, name: string): (r: Option<nat>)
    ensures r.Some? ==> r.value < |names| && names[r.value] == name
    ensures r.None? ==> name !in names
  {
    if |names| == 0 then None
    else if names[0] == name then Some(0)
    else match IndexOf(names[1..], name)
      case None => None
      case Some(k) => Some(k + 1)
  }

  /** The bone id a name stands for: the inverse of BoneName. */
  function BoneIdOf(name: string): Option<int>
  {
    match IndexOf(BoneNames, name)
    case Some(k) => Some(k)
    case None => if |name| > 5 && name[..5] == "bone_" then ParseInt(name[5..]) else None
  }

  lemma {:induction false} NatToStringValue(n: nat)
    ensures DigitsValue(NatToString(n)) == n
  {
    if n >= 10 {
      NatToStringValue(n / 10);
      var s := NatToString(n);
      assert s[..|s| - 1] == NatToString(n / 10);
    }
  }

  lemma IntToStringRoundTrip(i: int)
    ensures ParseInt(IntToString(i)) == Some(i)
  {
    var s := IntToString(i);
    if i < 0 {
      assert s == "-" + NatToString(-i);
      NegativeRoundTrip(-i);
    } else {
      assert s == NatToString(i);
      NatRoundTrip(i);
    }
  }

  lemma NatRoundTrip(n: nat)
    ensures ParseInt(NatToString(n)) == Some(n)
  {
    var t := NatToString(n);
    NatToStringValue(n);
    assert AllDigits(t) && |t| > 0 && t[0] != '-';
  }

  lemma NegativeRoundTrip(n: nat)
    requires n > 0
    ensures ParseInt("-" + NatToString(n)) == Some(0 - n)
  {
    var t := NatToString(n);
    NatToStringValue(n);
    var s := "-" + t;
    assert AllDigits(t) && s[1..] == t;
    assert |s| > 1 && s[0] == '-';
  }

  lemma TableNamesDistinct()
    ensures forall i, j :: 0 <= i < j < |BoneNames| ==> BoneNames[i] != BoneNames[j]
  {
  }

  lemma {:induction false} IndexOfDistinct(names: seq<string>, k: nat)
    requires k < |names|
    requires forall i, j :: 0 <= i < j < |names| ==> names[i] != names[j]
    ensures IndexOf(names, names[k]) == Some(k)
  {
    if k > 0 {
      IndexOfDistinct(names[1..], k - 1);
    }
  }

  lemma TableNamesNotSynthesized(s: string)
    ensures "bone_" + s !in BoneNames
  {
    var name := "bone_" + s;
    assert name[0] == 'b';
    assert forall i :: 0 <= i < |BoneNames| ==> |BoneNames[i]| > 0 && BoneNames[i][0] != 'b';
  }

  /** Every bone id is recovered from its name, so no two ids share a name. */
  lemma BoneNameRoundTrip(id: int)
    ensures BoneIdOf(BoneName(id)) == Some(id)
  {
    if 0 <= id < |BoneNames| {
      TableNamesDistinct();
      IndexOfDistinct(BoneNames, id);
    } else {
      var s := IntToString(id);
      TableNamesNotSynthesized(s);
      IntToStringRoundTrip(id);
      assert ("bone_" + s)[5..] == s;
    }
  }

  lemma BoneNameInjective(a: int, b: int)
    ensures BoneName(a) == BoneName(b) <==> a == b
  {
    BoneNameRoundTrip(a);
    BoneNameRoundTrip(b);
  }

  // ---------------------------------------------------------------- tran

  /** A 32-bit word holding the IEEE-754 bits of a float; the floats are not decoded. */
  type Word = w: nat | w < U32Limit

  /** A rotation quaternion (x, y, z, w) and a position (x, y, z), as raw words. */
  datatype Transform = Transform(rot: seq<Word>, pos: seq<Word>)

  predicate ValidTransform(t: Transform) {
    |t.rot| == 4 && |t.pos| == 3
  }

  function WordAt(p: seq<Byte>, k: nat): Word
    requires k + 4 <= |p|
  {
    LeU32(p[k..k + 4])
  }

  /** parse_tran_payload: the first seven little-endian words; extra bytes are ignored. */
  function ParseTran(p: seq<Byte>): (r: Result<Transform, DecodeError>)
    ensures r.Err? <==> |p| < 28
    ensures r.Err? ==> r.error == TranTooShort(|p|)
    ensures r.Ok? ==> ValidTransform(r.value)
    ensures r.Ok? ==> forall k :: 0 <= k < 4 ==> r.value.rot[k] == LeU32(p[4 * k..4 * k + 4])
    ensures r.Ok? ==> forall k :: 0 <= k < 3 ==> r.value.pos[k] == LeU32(p[16 + 4 * k..20 + 4 * k])
  {
    if |p| < 28 then Err(TranTooShort(|p|))
    else Ok(Transform([WordAt(p, 0), WordAt(p, 4), WordAt(p, 8), WordAt(p, 12)],
                      [WordAt(p, 16), WordAt(p, 20), WordAt(p, 24)]))
  }

  function EncodeTran(t: Transform): (r: seq<Byte>)
    requires ValidTransform(t)
    ensures |r| == 28
  {
    U32Le(t.rot[0]) + U32Le(t.rot[1]) + U32Le(t.rot[2]) + U32Le(t.rot[3])
      + U32Le(t.pos[0]) + U32Le(t.pos[1]) + U32Le(t.pos[2])
  }

  lemma TranRoundTrip(t: Transform, extra: seq<Byte>)
    requires ValidTransform(t)
    ensures ParseTran(EncodeTran(t) + extra) == Ok(t)
  {
    var p := EncodeTran(t) + extra;
    forall k | 0 <= k < 7
      ensures p[4 * k..4 * k + 4] == U32Le((t.rot + t.pos)[k])
    {
    }
    forall k | 0 <= k < 7
      ensures LeU32(p[4 * k..4 * k + 4]) == (t.rot + t.pos)[k]
    {
      U32RoundTrip((t.rot + t.pos)[k]);
    }
    var r := ParseTran(p).value;
    assert r.rot == t.rot;
    assert r.pos == t.pos;
  }

  // ---------------------------------------------------------------- fields

  /** The payload of the last box with the given tag and at least minLen bytes. */
  function LastField(bs: seq<Box>, tag: string, minLen: nat): (r: Option<seq<Byte>>)
    ensures r.Some? ==> |r.value| >= minLen
    ensures r.Some? ==> exists i :: 0 <= i < |bs| && bs[i].tag == tag && bs[i].payload == r.value
  {
    if |bs| == 0 then None
    else if bs[|bs| - 1].tag == tag && |bs[|bs| - 1].payload| >= minLen then Some(bs[|bs| - 1].payload)
    else LastField(bs[..|bs| - 1], tag, minLen)
  }

  function U16Field(f: Option<seq<Byte>>): Option<nat>
  {
    match f
    case None => None
    case Some(p) => if |p| >= 2 then Some(LeU16(p)) else None
  }

  function U32Field(f: Option<seq<Byte>>): Option<nat>
  {
    match f
    case None => None
    case Some(p) => if |p| >= 4 then Some(LeU32(p)) else None
  }

  /** Every box with the given tag carries a well-sized transform. */
  predicate TransOk(bs: seq<Box>) {
    forall i :: 0 <= i < |bs| ==> bs[i].tag == "tran" ==> |bs[i].payload| >= 28
  }

  // ---------------------------------------------------------------- bndt / skdf

  datatype SkeletonBone = SkeletonBone(boneId: nat, parentId: nat, rest: Option<Transform>)

  /** The locals of parse_bndt's loop. */
  datatype BndtFields = BndtFields(boneId: Option<nat>, parentId: Option<nat>, rest: Option<Transform>)

  function BndtStep(acc: BndtFields, b: Box): Result<BndtFields, DecodeError>
  {
    if b.tag == "bnid" && |b.payload| >= 2 then Ok(acc.(boneId := Some(LeU16(b.payload))))
    else if b.tag == "pbid" && |b.payload| >= 2 then Ok(acc.(parentId := Some(LeU16(b.payload))))
    else if b.tag == "tran" then
      var t :- ParseTran(b.payload);
      Ok(acc.(rest := Some(t)))
    else Ok(acc)
  }

  function BndtFold(bs: seq<Box>): Result<BndtFields, DecodeError>
  {
    if |bs| == 0 then Ok(BndtFields(None, None, None))
    else
      var acc :- BndtFold(bs[..|bs| - 1]);
      BndtStep(acc, bs[|bs| - 1])
  }

  function ParseBndt(payload: seq<Byte>): Result<SkeletonBone, DecodeError>
  {
    var scan := IterBoxes(payload);
    var acc :- BndtFold(scan.boxes);
    if scan.fault.Some? then Err(scan.fault.value)
    else if acc.boneId.None? || acc.parentId.None? then Err(BndtMissingIds)
    else Ok(SkeletonBone(acc.boneId.value, acc.parentId.value, acc.rest))
  }

  function TranField(f: Option<seq<Byte>>): Option<Transform>
  {
    match f
    case None => None
    case Some(p) => if |p| >= 28 then Some(ParseTran(p).value) else None
  }

  /** The loop of parse_bndt keeps the last bnid, the last pbid and the last tran it meets. */
  lemma {:induction false} BndtFoldLastWins(bs: seq<Box>)
    ensures BndtFold(bs).Ok? <==> TransOk(bs)
    ensures BndtFold(bs).Ok? ==>
      && BndtFold(bs).value.boneId == U16Field(LastField(bs, "bnid", 2))
      && BndtFold(bs).value.parentId == U16Field(LastField(bs, "pbid", 2))
      && BndtFold(bs).value.rest == TranField(LastField(bs, "tran", 0))
  {
    if |bs| > 0 {
      var pre := bs[..|bs| - 1];
      BndtFoldLastWins(pre);
      assert forall i :: 0 <= i < |pre| ==> pre[i] == bs[i];
      if TransOk(bs) {
        assert TransOk(pre);
      }
      if BndtFold(pre).Ok? {
        BndtStepFields(BndtFold(pre).value, bs[|bs| - 1]);
      }
    }
  }

  /** One iteration of parse_bndt's loop: which field the box sets, and when it fails. */
  lemma BndtStepFields(acc: BndtFields, b: Box)
    ensures BndtStep(acc, b).Ok? <==> (b.tag == "tran" ==> |b.payload| >= 28)
    ensures BndtStep(acc, b).Ok? ==>
      && BndtStep(acc, b).value.boneId == (if b.tag == "bnid" && |b.payload| >= 2 then Some(LeU16(b.payload)) else acc.boneId)
      && BndtStep(acc, b).value.parentId == (if b.tag == "pbid" && |b.payload| >= 2 then Some(LeU16(b.payload)) else acc.parentId)
      && BndtStep(acc, b).value.rest == (if b.tag == "tran" then TranField(Some(b.payload)) else acc.rest)
  {
  }

  /**
   * parse_bndt succeeds exactly when the framing is sound, every tran is long
   * enough, and both a bnid and a pbid of at least two bytes are present; the
   * last occurrence of each field wins and the rest pose is optional.
   */
  lemma ParseBndtSpec(payload: seq<Byte>)
    ensures var s := IterBoxes(payload);
      ParseBndt(payload).Ok? <==>
        s.fault.None? && TransOk(s.boxes)
        && LastField(s.boxes, "bnid", 2).Some? && LastField(s.boxes, "pbid", 2).Some?
    ensures var s := IterBoxes(payload);
      ParseBndt(payload).Ok? ==>
        && Some(ParseBndt(payload).value.boneId) == U16Field(LastField(s.boxes, "bnid", 2))
        && Some(ParseBndt(payload).value.parentId) == U16Field(LastField(s.boxes, "pbid", 2))
        && ParseBndt(payload).value.rest == TranField(LastField(s.boxes, "tran", 0))
  {
    BndtFoldLastWins(IterBoxes(payload).boxes);
  }

  /** The payloads of the children with the given tag, parsed in order; other tags are skipped. */
  function Collect<T>(bs: seq<Box>, tag: string, parse: seq<Byte> -> Result<T, DecodeError>): Result<seq<T>, DecodeError>
  {
    if |bs| == 0 then Ok([])
    else
      var acc :- Collect(bs[..|bs| - 1], tag, parse);
      if bs[|bs| - 1].tag == tag then
        var x :- parse(bs[|bs| - 1].payload);
        Ok(acc + [x])
      else Ok(acc)
  }

  /** `for t2, d2 in iter_boxes(data): if t2 == tag: out.append(parse(d2))`. */
  function Children<T>(payload: seq<Byte>, tag: string, parse: seq<Byte> -> Result<T, DecodeError>): Result<seq<T>, DecodeError>
  {
    var s := IterBoxes(payload);
    var xs :- Collect(s.boxes, tag, parse);
    if s.fault.Some? then Err(s.fault.value) else Ok(xs)
  }

  function Tagged(bs: seq<Box>, tag: string): (r: seq<Box>)
    ensures forall i :: 0 <= i < |r| ==> r[i].tag == tag
  {
    if |bs| == 0 then []
    else if bs[|bs| - 1].tag == tag then Tagged(bs[..|bs| - 1], tag) + [bs[|bs| - 1]]
    else Tagged(bs[..|bs| - 1], tag)
  }

  /** Children with other tags play no part: collecting from all boxes equals collecting from the tagged ones. */
  lemma {:induction false} CollectIgnoresOtherTags<T>(bs: seq<Box>, tag: string, parse: seq<Byte> -> Result<T, DecodeError>)
    ensures Collect(bs, tag, parse) == Collect(Tagged(bs, tag), tag, parse)
  {
    if |bs| > 0 {
      var pre := bs[..|bs| - 1];
      var last := bs[|bs| - 1];
      CollectIgnoresOtherTags(pre, tag, parse);
      if last.tag == tag {
        var t := Tagged(pre, tag) + [last];
        assert t[..|t| - 1] == Tagged(pre, tag);
      }
    }
  }

  /** Collecting boxes whose payloads all parse gives the parsed values, in order. */
  lemma {:induction false} CollectAllParsed<T>(bs: seq<Box>, tag: string, parse: seq<Byte> -> Result<T, DecodeError>, xs: seq<T>)
    requires |bs| == |xs|
    requires forall i :: 0 <= i < |bs| ==> bs[i].tag == tag && parse(bs[i].payload) == Ok(xs[i])
    ensures Collect(bs, tag, parse) == Ok(xs)
  {
    if |bs| > 0 {
      CollectAllParsed(bs[..|bs| - 1], tag, parse, xs[..|xs| - 1]);
      assert xs == xs[..|xs| - 1] + [xs[|xs| - 1]];
    }
  }

  /** Writing boxes that all carry the tag and all parse, then reading the children back, gives the parsed values. */
  lemma ChildrenOfEncoded<T>(bs: seq<Box>, tag: string, parse: seq<Byte> -> Result<T, DecodeError>, xs: seq<T>)
    requires forall i :: 0 <= i < |bs| ==> ValidBox(bs[i])
    requires |bs| == |xs|
    requires forall i :: 0 <= i < |bs| ==> bs[i].tag == tag && parse(bs[i].payload) == Ok(xs[i])
    ensures Children(EncodeBoxes(bs), tag, parse) == Ok(xs)
  {
    ScanRoundTrip(bs);
    CollectAllParsed(bs, tag, parse, xs);
  }

  /** Reads one parent payload: its children with the given tag, parsed in order. */
  function ChildrenParser<T>(child: string, parse: seq<Byte> -> Result<T, DecodeError>): seq<Byte> -> Result<seq<T>, DecodeError>
  {
    payload => Children(payload, child, parse)
  }

  /**
   * The reference for the two nested parsers: the `child` children of every
   * `parent` box, concatenated in the order the parents come. Boxes with other
   * tags are filtered out first, and the first parent whose children fail
   * decides the error.
   */
  function Nested<T>(bs: seq<Box>, parent: string, child: string, parse: seq<Byte> -> Result<T, DecodeError>): Result<seq<T>, DecodeError>
  {
    var groups :- Collect(Tagged(bs, parent), parent, ChildrenParser(child, parse));
    Ok(Flatten(groups))
  }

  /** Nested, read one box at a time from the end: a parent box appends its children, any other box changes nothing. */
  lemma NestedSnoc<T>(bs: seq<Box>, parent: string, child: string, parse: seq<Byte> -> Result<T, DecodeError>)
    requires |bs| > 0
    ensures var pre := Nested(bs[..|bs| - 1], parent, child, parse);
      var last := bs[|bs| - 1];
      Nested(bs, parent, child, parse) ==
        if pre.Err? then pre
        else if last.tag != parent then pre
        else match Children(last.payload, child, parse)
          case Err(e) => Err(e)
          case Ok(more) => Ok(pre.value + more)
  {
    var pre := bs[..|bs| - 1];
    var p := ChildrenParser(child, parse);
    CollectIgnoresOtherTags(bs, parent, p);
    CollectIgnoresOtherTags(pre, parent, p);
    var c := Collect(pre, parent, p);
    if c.Ok? && bs[|bs| - 1].tag == parent && p(bs[|bs| - 1].payload).Ok? {
      FlattenSnoc(c.value, p(bs[|bs| - 1].payload).value);
    }
  }

  function SkdfFold(bs: seq<Box>): Result<seq<SkeletonBone>, DecodeError>
  {
    if |bs| == 0 then Ok([])
    else
      var acc :- SkdfFold(bs[..|bs| - 1]);
      if bs[|bs| - 1].tag == "bons" then
        var more :- Children(bs[|bs| - 1].payload, "bndt", ParseBndt);
        Ok(acc + more)
      else Ok(acc)
  }

  /** parse_skdf: the bndt children of every bons box, in order. */
  function ParseSkdf(payload: seq<Byte>): Result<seq<SkeletonBone>, DecodeError>
  {
    var s := IterBoxes(payload);
    var bones :- SkdfFold(s.boxes);
    if s.fault.Some? then Err(s.fault.value) else Ok(bones)
  }

  /** parse_skdf's loop collects the bndt children of the bons boxes and nothing else, failing where they first fail. */
  lemma {:induction false} SkdfFoldNested(bs: seq<Box>)
    ensures SkdfFold(bs) == Nested(bs, "bons", "bndt", ParseBndt)
  {
    if |bs| > 0 {
      SkdfFoldNested(bs[..|bs| - 1]);
      NestedSnoc(bs, "bons", "bndt", ParseBndt);
    }
  }

  /**
   * parse_skdf succeeds exactly when the framing is sound and every bndt child
   * of every bons box parses; the bones are those children in order. A child's
   * error is raised before the framing error of the boxes after it.
   */
  lemma ParseSkdfSpec(payload: seq<Byte>)
    ensures var s := IterBoxes(payload);
      var bones := Nested(s.boxes, "bons", "bndt", ParseBndt);
      && (ParseSkdf(payload).Ok? <==> s.fault.None? && bones.Ok?)
      && (ParseSkdf(payload).Ok? ==> ParseSkdf(payload).value == bones.value)
      && (bones.Err? ==> ParseSkdf(payload) == Err(bones.error))
      && (bones.Ok? && s.fault.Some? ==> ParseSkdf(payload) == Err(s.fault.value))
  {
    SkdfFoldNested(IterBoxes(payload).boxes);
  }

  // ---------------------------------------------------------------- btdt / fram

  datatype FrameBone = FrameBone(boneId: nat, trans: Transform)

  datatype Frame = Frame(fnum: nat, time: nat, bones: seq<FrameBone>)

  datatype BtdtFields = BtdtFields(boneId: Option<nat>, trans: Option<Transform>)

  function BtdtStep(acc: BtdtFields, b: Box): Result<BtdtFields, DecodeError>
  {
    if b.tag == "bnid" && |b.payload| >= 2 then Ok(acc.(boneId := Some(LeU16(b.payload))))
    else if b.tag == "tran" then
      var t :- ParseTran(b.payload);
      Ok(acc.(trans := Some(t)))
    else Ok(acc)
  }

  function BtdtFold(bs: seq<Box>): Result<BtdtFields, DecodeError>
  {
    if |bs| == 0 then Ok(BtdtFields(None, None))
    else
      var acc :- BtdtFold(bs[..|bs| - 1]);
      BtdtStep(acc, bs[|bs| - 1])
  }

  /** parse_btdt: a bone id and a transform, both mandatory. */
  function ParseBtdt(payload: seq<Byte>): Result<FrameBone, DecodeError>
  {
    var s := IterBoxes(payload);
    var acc :- BtdtFold(s.boxes);
    if s.fault.Some? then Err(s.fault.value)
    else if acc.boneId.None? || acc.trans.None? then Err(BtdtMissingFields)
    else Ok(FrameBone(acc.boneId.value, acc.trans.value))
  }

  lemma {:induction false} BtdtFoldLastWins(bs: seq<Box>)
    ensures BtdtFold(bs).Ok? <==> TransOk(bs)
    ensures BtdtFold(bs).Ok? ==>
      && BtdtFold(bs).value.boneId == U16Field(LastField(bs, "bnid", 2))
      && BtdtFold(bs).value.trans == TranField(LastField(bs, "tran", 0))
  {
    if |bs| > 0 {
      var pre := bs[..|bs| - 1];
      BtdtFoldLastWins(pre);
      assert forall i :: 0 <= i < |pre| ==> pre[i] == bs[i];
      if TransOk(bs) {
        assert TransOk(pre);
      }
      if BtdtFold(pre).Ok? {
        BtdtStepFields(BtdtFold(pre).value, bs[|bs| - 1]);
      }
    }
  }

  /** One iteration of parse_btdt's loop: which field the box sets, and when it fails. */
  lemma BtdtStepFields(acc: BtdtFields, b: Box)
    ensures BtdtStep(acc, b).Ok? <==> (b.tag == "tran" ==> |b.payload| >= 28)
    ensures BtdtStep(acc, b).Ok? ==>
      && BtdtStep(acc, b).value.boneId == (if b.tag == "bnid" && |b.payload| >= 2 then Some(LeU16(b.payload)) else acc.boneId)
      && BtdtStep(acc, b).value.trans == (if b.tag == "tran" then TranField(Some(b.payload)) else acc.trans)
  {
  }

  /** parse_btdt succeeds exactly when the framing is sound, every tran is long enough and both fields are present. */
  lemma ParseBtdtSpec(payload: seq<Byte>)
    ensures var s := IterBoxes(payload);
      ParseBtdt(payload).Ok? <==>
        s.fault.None? && TransOk(s.boxes)
        && LastField(s.boxes, "bnid", 2).Some? && LastField(s.boxes, "tran", 0).Some?
    ensures var s := IterBoxes(payload);
      ParseBtdt(payload).Ok? ==>
        && Some(ParseBtdt(payload).value.boneId) == U16Field(LastField(s.boxes, "bnid", 2))
        && Some(ParseBtdt(payload).value.trans) == TranField(LastField(s.boxes, "tran", 0))
  {
    BtdtFoldLastWins(IterBoxes(payload).boxes);
  }

  /** The locals of parse_fram's loop. */
  datatype FramFields = FramFields(fnum: Option<nat>, time: Option<nat>, bones: seq<FrameBone>)

  function FramFold(bs: seq<Box>): Result<FramFields, DecodeError>
  {
    if |bs| == 0 then Ok(FramFields(None, None, []))
    else
      var acc :- FramFold(bs[..|bs| - 1]);
      FramStep(acc, bs[|bs| - 1])
  }

  function FramStep(acc: FramFields, b: Box): Result<FramFields, DecodeError>
  {
    if b.tag == "fnum" && |b.payload| >= 4 then Ok(acc.(fnum := Some(LeU32(b.payload))))
    else if b.tag == "time" && |b.payload| >= 4 then Ok(acc.(time := Some(LeU32(b.payload))))
    else if b.tag == "btrs" then
      var more :- Children(b.payload, "btdt", ParseBtdt);
      Ok(acc.(bones := acc.bones + more))
    else Ok(acc)
  }

  /** One iteration of parse_fram's loop: which field the box sets, and that only a btrs box can fail or add bones. */
  lemma FramStepFields(acc: FramFields, b: Box)
    ensures FramStep(acc, b).Ok? ==>
      && FramStep(acc, b).value.fnum == (if b.tag == "fnum" && |b.payload| >= 4 then Some(LeU32(b.payload)) else acc.fnum)
      && FramStep(acc, b).value.time == (if b.tag == "time" && |b.payload| >= 4 then Some(LeU32(b.payload)) else acc.time)
    ensures b.tag != "btrs" ==> FramStep(acc, b).Ok? && FramStep(acc, b).value.bones == acc.bones
    ensures b.tag == "btrs" ==> match Children(b.payload, "btdt", ParseBtdt)
      case Err(e) => FramStep(acc, b) == Err(e)
      case Ok(more) => FramStep(acc, b).Ok? && FramStep(acc, b).value.bones == acc.bones + more
  {
  }

  /** parse_fram: frame number and time are mandatory; bones come from the btdt children of btrs boxes. */
  function ParseFram(payload: seq<Byte>): Result<Frame, DecodeError>
  {
    var s := IterBoxes(payload);
    var acc :- FramFold(s.boxes);
    if s.fault.Some? then Err(s.fault.value)
    else if acc.fnum.None? || acc.time.None? then Err(FramMissingFields)
    else Ok(Frame(acc.fnum.value, acc.time.value, acc.bones))
  }

  /**
   * parse_fram's loop fails exactly where the btdt children of its btrs boxes
   * first fail; otherwise the last fnum and time of at least four bytes win and
   * the bones are those children in order.
   */
  lemma {:induction false} FramFoldLastWins(bs: seq<Box>)
    ensures var bones := Nested(bs, "btrs", "btdt", ParseBtdt);
      && (FramFold(bs).Ok? <==> bones.Ok?)
      && (bones.Err? ==> FramFold(bs) == Err(bones.error))
    ensures FramFold(bs).Ok? ==>
      && FramFold(bs).value.fnum == U32Field(LastField(bs, "fnum", 4))
      && FramFold(bs).value.time == U32Field(LastField(bs, "time", 4))
      && FramFold(bs).value.bones == Nested(bs, "btrs", "btdt", ParseBtdt).value
  {
    if |bs| > 0 {
      FramFoldLastWins(bs[..|bs| - 1]);
      NestedSnoc(bs, "btrs", "btdt", ParseBtdt);
      if FramFold(bs[..|bs| - 1]).Ok? {
        FramStepFields(FramFold(bs[..|bs| - 1]).value, bs[|bs| - 1]);
      }
    }
  }

  /**
   * parse_fram succeeds exactly when the framing is sound, every btdt child of
   * every btrs box parses and a fnum and a time of at least four bytes are
   * present. The last fnum and time win and the bones are the btdt children in
   * order. A child's error comes before the framing error of the boxes after it.
   */
  lemma ParseFramFields(payload: seq<Byte>)
    ensures var s := IterBoxes(payload);
      var bones := Nested(s.boxes, "btrs", "btdt", ParseBtdt);
      ParseFram(payload).Ok? <==>
        s.fault.None? && bones.Ok? && LastField(s.boxes, "fnum", 4).Some? && LastField(s.boxes, "time", 4).Some?
    ensures var s := IterBoxes(payload);
      ParseFram(payload).Ok? ==>
        && Some(ParseFram(payload).value.fnum) == U32Field(LastField(s.boxes, "fnum", 4))
        && Some(ParseFram(payload).value.time) == U32Field(LastField(s.boxes, "time", 4))
        && ParseFram(payload).value.bones == Nested(s.boxes, "btrs", "btdt", ParseBtdt).value
    ensures var s := IterBoxes(payload);
      var bones := Nested(s.boxes, "btrs", "btdt", ParseBtdt);
      && (bones.Err? ==> ParseFram(payload) == Err(bones.error))
      && (bones.Ok? && s.fault.Some? ==> ParseFram(payload) == Err(s.fault.value))
  {
    FramFoldLastWins(IterBoxes(payload).boxes);
  }

  // ---------------------------------------------------------------- packet

  /** parse_head / parse_info, framing only: the child boxes, or the framing error. */
  function ParseFramed(payload: seq<Byte>): (r: Result<seq<Box>, DecodeError>)
    ensures r.Ok? <==> IterBoxes(payload).fault.None?
    ensures r.Ok? ==> r.value == IterBoxes(payload).boxes
  {
    var s := IterBoxes(payload);
    if s.fault.Some? then Err(s.fault.value) else Ok(s.boxes)
  }

  datatype Packet =
    | Skeleton(headTag: string, infoTag: string, head: seq<Box>, info: seq<Box>, bones: seq<SkeletonBone>)
    | FramePacket(headTag: string, infoTag: string, head: seq<Box>, info: seq<Box>, frame: Frame)
    | Unknown(tag: string, head: seq<Box>, info: seq<Box>, payloadLen: nat)

  /**
   * parse_packet: three consecutive boxes; the third tag selects a skeleton, a
   * frame or an "unknown" packet. The first two tags are not checked and bytes
   * after the third box are ignored.
   */
  function ParsePacket(dg: seq<Byte>): Result<Packet, DecodeError>
  {
    var b1 :- ReadBox(dg, 0);
    var b2 :- ReadBox(dg, b1.next);
    var b3 :- ReadBox(dg, b2.next);
    ParseBoxes(Box(b1.tag, b1.payload), Box(b2.tag, b2.payload), Box(b3.tag, b3.payload))
  }

  /** The body of parse_packet once its three boxes are read. */
  function ParseBoxes(hb: Box, ib: Box, body: Box): Result<Packet, DecodeError>
  {
    var head :- ParseFramed(hb.payload);
    var info :- ParseFramed(ib.payload);
    if body.tag == "skdf" then
      var bones :- ParseSkdf(body.payload);
      Ok(Skeleton(hb.tag, ib.tag, head, info, bones))
    else if body.tag == "fram" then
      var frame :- ParseFram(body.payload);
      Ok(FramePacket(hb.tag, ib.tag, head, info, frame))
    else Ok(Unknown(body.tag, head, info, |body.payload|))
  }

  /** Whether the three top-level boxes can be read. */
  predicate ThreeBoxes(dg: seq<Byte>) {
    && ReadBox(dg, 0).Ok?
    && ReadBox(dg, ReadBox(dg, 0).value.next).Ok?
    && ReadBox(dg, ReadBox(dg, ReadBox(dg, 0).value.next).value.next).Ok?
  }

  /** Trailing bytes after the third box change nothing. */
  lemma ParsePacketIgnoresTrailing(dg: seq<Byte>, junk: seq<Byte>)
    requires ThreeBoxes(dg)
    ensures ParsePacket(dg + junk) == ParsePacket(dg)
  {
    var o1 := ReadBox(dg, 0).value.next;
    var o2 := ReadBox(dg, o1).value.next;
    ReadBoxExtend(dg, junk, 0);
    ReadBoxExtend(dg, junk, o1);
    ReadBoxExtend(dg, junk, o2);
  }

  /** A packet shorter than one box header is a decode error. */
  lemma ParsePacketTruncatedHeader(dg: seq<Byte>)
    requires |dg| < 8
    ensures ParsePacket(dg) == Err(TruncatedHeader)
  {
  }

  /** Any third tag other than skdf and fram yields an unknown packet carrying its payload length. */
  lemma ParsePacketUnknown(dg: seq<Byte>)
    requires ThreeBoxes(dg)
    requires var o1 := ReadBox(dg, 0).value.next;
      var o2 := ReadBox(dg, o1).value.next;
      ReadBox(dg, o2).value.tag != "skdf" && ReadBox(dg, o2).value.tag != "fram"
    requires ParseFramed(ReadBox(dg, 0).value.payload).Ok?
    requires ParseFramed(ReadBox(dg, ReadBox(dg, 0).value.next).value.payload).Ok?
    ensures ParsePacket(dg).Ok? && ParsePacket(dg).value.Unknown?
    ensures var o2 := ReadBox(dg, ReadBox(dg, 0).value.next).value.next;
      ParsePacket(dg).value.payloadLen == LeU32(dg[o2..o2 + 4])
  {
  }

  // ---------------------------------------------------------------- encoders

  predicate ValidBone(b: SkeletonBone) {
    && b.boneId < U16Limit && b.parentId < U16Limit
    && (b.rest.Some? ==> ValidTransform(b.rest.value))
  }

  function BndtBoxes(b: SkeletonBone): (r: seq<Box>)
    requires ValidBone(b)
    ensures forall i :: 0 <= i < |r| ==> ValidBox(r[i]) && |r[i].payload| <= 28
  {
    [Box("bnid", U16Le(b.boneId)), Box("pbid", U16Le(b.parentId))]
      + (if b.rest.Some? then [Box("tran", EncodeTran(b.rest.value))] else [])
  }

  function EncodeBndt(b: SkeletonBone): (r: seq<Byte>)
    requires ValidBone(b)
    ensures |r| <= 108
  {
    EncodeBoxesLength(BndtBoxes(b), 28);
    EncodeBoxes(BndtBoxes(b))
  }

  lemma BndtRoundTrip(b: SkeletonBone)
    requires ValidBone(b)
    ensures ParseBndt(EncodeBndt(b)) == Ok(b)
  {
    var bs := BndtBoxes(b);
    ScanRoundTrip(bs);
    U16RoundTrip(b.boneId);
    U16RoundTrip(b.parentId);
    var b1, b2 := bs[0], bs[1];
    assert BndtFold([b1]) == Ok(BndtFields(Some(b.boneId), None, None)) by {
      assert [b1][..0] == [];
    }
    assert BndtFold([b1, b2]) == Ok(BndtFields(Some(b.boneId), Some(b.parentId), None)) by {
      assert [b1, b2][..1] == [b1];
    }
    if b.rest.Some? {
      var b3 := bs[2];
      TranRoundTrip(b.rest.value, []);
      assert EncodeTran(b.rest.value) + [] == EncodeTran(b.rest.value);
      assert bs == [b1, b2, b3];
      assert [b1, b2, b3][..2] == [b1, b2];
    } else {
      assert bs == [b1, b2];
    }
  }

  const MaxBones: nat := 0x10_0000

  function BndtBoxList(bones: seq<SkeletonBone>): (r: seq<Box>)
    requires forall i :: 0 <= i < |bones| ==> ValidBone(bones[i])
    ensures |r| == |bones|
    ensures forall i :: 0 <= i < |r| ==> r[i] == Box("bndt", EncodeBndt(bones[i]))
    ensures forall i :: 0 <= i < |r| ==> ValidBox(r[i]) && |r[i].payload| <= 108
  {
    seq(|bones|, i requires 0 <= i < |bones| => Box("bndt", EncodeBndt(bones[i])))
  }

  /** A skeleton definition payload: one bons box holding one bndt box per bone. */
  function EncodeSkdf(bones: seq<SkeletonBone>): seq<Byte>
    requires |bones| < MaxBones
    requires forall i :: 0 <= i < |bones| ==> ValidBone(bones[i])
  {
    var inner := BndtBoxList(bones);
    EncodeBoxesLength(inner, 108);
    EncodeBoxes([Box("bons", EncodeBoxes(inner))])
  }

  /** The bndt children written for a list of bones parse back to that list. */
  lemma BonsRoundTrip(bones: seq<SkeletonBone>)
    requires forall i :: 0 <= i < |bones| ==> ValidBone(bones[i])
    ensures Children(EncodeBoxes(BndtBoxList(bones)), "bndt", ParseBndt) == Ok(bones)
  {
    var inner := BndtBoxList(bones);
    forall i | 0 <= i < |inner|
      ensures inner[i].tag == "bndt" && ParseBndt(inner[i].payload) == Ok(bones[i])
    {
      BndtRoundTrip(bones[i]);
    }
    ChildrenOfEncoded(inner, "bndt", ParseBndt, bones);
  }

  /** Skeleton round trip: parse_skdf recovers every bone, in order. */
  lemma SkdfRoundTrip(bones: seq<SkeletonBone>)
    requires |bones| < MaxBones
    requires forall i :: 0 <= i < |bones| ==> ValidBone(bones[i])
    ensures ParseSkdf(EncodeSkdf(bones)) == Ok(bones)
  {
    var inner := BndtBoxList(bones);
    EncodeBoxesLength(inner, 108);
    var bons := Box("bons", EncodeBoxes(inner));
    ScanRoundTrip([bons]);
    BonsRoundTrip(bones);
    assert [bons][..0] == [];
    assert SkdfFold([bons]) == Ok([] + bones);
    assert [] + bones == bones;
  }

  predicate ValidFrameBone(b: FrameBone) {
    b.boneId < U16Limit && ValidTransform(b.trans)
  }

  function BtdtBoxes(b: FrameBone): (r: seq<Box>)
    requires ValidFrameBone(b)
    ensures forall i :: 0 <= i < |r| ==> ValidBox(r[i]) && |r[i].payload| <= 28
  {
    [Box("bnid", U16Le(b.boneId)), Box("tran", EncodeTran(b.trans))]
  }

  function EncodeBtdt(b: FrameBone): (r: seq<Byte>)
    requires ValidFrameBone(b)
    ensures |r| <= 72
  {
    EncodeBoxesLength(BtdtBoxes(b), 28);
    EncodeBoxes(BtdtBoxes(b))
  }

  lemma BtdtRoundTrip(b: FrameBone)
    requires ValidFrameBone(b)
    ensures ParseBtdt(EncodeBtdt(b)) == Ok(b)
  {
    var bs := BtdtBoxes(b);
    ScanRoundTrip(bs);
    U16RoundTrip(b.boneId);
    TranRoundTrip(b.trans, []);
    assert EncodeTran(b.trans) + [] == EncodeTran(b.trans);
    var b1, b2 := bs[0], bs[1];
    assert BtdtFold([b1]) == Ok(BtdtFields(Some(b.boneId), None)) by {
      assert [b1][..0] == [];
    }
    assert bs == [b1, b2];
    assert [b1, b2][..1] == [b1];
  }

  predicate ValidFrame(f: Frame) {
    && f.fnum < U32Limit && f.time < U32Limit && |f.bones| < MaxBones
    && forall i :: 0 <= i < |f.bones| ==> ValidFrameBone(f.bones[i])
  }

  function BtdtBoxList(bones: seq<FrameBone>): (r: seq<Box>)
    requires forall i :: 0 <= i < |bones| ==> ValidFrameBone(bones[i])
    ensures |r| == |bones|
    ensures forall i :: 0 <= i < |r| ==> r[i] == Box("btdt", EncodeBtdt(bones[i]))
    ensures forall i :: 0 <= i < |r| ==> ValidBox(r[i]) && |r[i].payload| <= 72
  {
    seq(|bones|, i requires 0 <= i < |bones| => Box("btdt", EncodeBtdt(bones[i])))
  }

  function FramBoxes(f: Frame): (r: seq<Box>)
    requires ValidFrame(f)
    ensures forall i :: 0 <= i < |r| ==> ValidBox(r[i])
  {
    var inner := BtdtBoxList(f.bones);
    EncodeBoxesLength(inner, 72);
    [Box("fnum", U32Le(f.fnum)), Box("time", U32Le(f.time)), Box("btrs", EncodeBoxes(inner))]
  }

  /** A frame payload: fnum, time, then one btrs box holding one btdt box per bone. */
  function EncodeFram(f: Frame): seq<Byte>
    requires ValidFrame(f)
  {
    EncodeBoxes(FramBoxes(f))
  }

  lemma BtrsRoundTrip(bones: seq<FrameBone>)
    requires forall i :: 0 <= i < |bones| ==> ValidFrameBone(bones[i])
    ensures Children(EncodeBoxes(BtdtBoxList(bones)), "btdt", ParseBtdt) == Ok(bones)
  {
    var inner := BtdtBoxList(bones);
    forall i | 0 <= i < |inner|
      ensures inner[i].tag == "btdt" && ParseBtdt(inner[i].payload) == Ok(bones[i])
    {
      BtdtRoundTrip(bones[i]);
    }
    ChildrenOfEncoded(inner, "btdt", ParseBtdt, bones);
  }

  /** Frame round trip: parse_fram recovers the frame number, the time and every bone, in order. */
  lemma FramRoundTrip(f: Frame)
    requires ValidFrame(f)
    ensures ParseFram(EncodeFram(f)) == Ok(f)
  {
    ScanRoundTrip(FramBoxes(f));
    FramFoldOfBoxes(f);
  }

  /** The fram loop over the boxes of an encoded frame sets fnum, then time, then appends the bones. */
  lemma FramFoldOfBoxes(f: Frame)
    requires ValidFrame(f)
    ensures FramFold(FramBoxes(f)) == Ok(FramFields(Some(f.fnum), Some(f.time), f.bones))
  {
    var bs := FramBoxes(f);
    BtrsRoundTrip(f.bones);
    U32RoundTrip(f.fnum);
    U32RoundTrip(f.time);
    var b1, b2, b3 := bs[0], bs[1], bs[2];
    assert FramFold([b1]) == Ok(FramFields(Some(f.fnum), None, [])) by {
      assert [b1][..0] == [];
    }
    assert FramFold([b1, b2]) == Ok(FramFields(Some(f.fnum), Some(f.time), [])) by {
      assert [b1, b2][..1] == [b1];
    }
    assert bs == [b1, b2, b3];
    assert [b1, b2, b3][..2] == [b1, b2];
    assert FramFold(bs) == Ok(FramFields(Some(f.fnum), Some(f.time), [] + f.bones));
    assert [] + f.bones == f.bones;
  }

  /** The two body tags are four ASCII characters. */
  lemma BodyTagsValid()
    ensures ValidTag("skdf") && ValidTag("fram")
  {
    assert "skdf" == ['s', 'k', 'd', 'f'];
    assert "fram" == ['f', 'r', 'a', 'm'];
  }

  /** Three boxes: head, info and the body box. */
  function EncodePacket(headTag: string, head: seq<Byte>, infoTag: string, info: seq<Byte>, body: Box): seq<Byte>
    requires ValidBox(Box(headTag, head)) && ValidBox(Box(infoTag, info)) && ValidBox(body)
  {
    EncodeBoxes([Box(headTag, head), Box(infoTag, info), body])
  }

  lemma EncodeThree(b1: Box, b2: Box, b3: Box)
    requires ValidBox(b1) && ValidBox(b2) && ValidBox(b3)
    ensures EncodeBoxes([b1, b2, b3]) == EncodeBox(b1) + EncodeBox(b2) + EncodeBox(b3)
  {
    assert [b1, b2, b3][1..] == [b2, b3];
    assert [b2, b3][1..] == [b3];
    assert [b3][1..] == [];
    assert EncodeBoxes([b3]) == EncodeBox(b3) + [];
  }

  lemma ReadThree(b1: Box, b2: Box, b3: Box)
    requires ValidBox(b1) && ValidBox(b2) && ValidBox(b3)
    ensures var dg := EncodeBoxes([b1, b2, b3]);
      var o1 := 8 + |b1.payload|;
      var o2 := o1 + 8 + |b2.payload|;
      && ReadBox(dg, 0) == Ok(Read(b1.tag, b1.payload, o1))
      && ReadBox(dg, o1) == Ok(Read(b2.tag, b2.payload, o2))
      && ReadBox(dg, o2) == Ok(Read(b3.tag, b3.payload, o2 + 8 + |b3.payload|))
  {
    var e1, e2, e3 := EncodeBox(b1), EncodeBox(b2), EncodeBox(b3);
    EncodeThree(b1, b2, b3);
    ReadFirstOfThree(b1, e2, e3);
    ReadBoxAt(e1, b2, e3);
    ReadLastOfThree(e1, e2, b3);
  }

  lemma ReadFirstOfThree(b1: Box, e2: seq<Byte>, e3: seq<Byte>)
    requires ValidBox(b1)
    ensures ReadBox(EncodeBox(b1) + e2 + e3, 0) == Ok(Read(b1.tag, b1.payload, 8 + |b1.payload|))
  {
    ReadBoxEncoded(b1, e2 + e3);
    assert EncodeBox(b1) + e2 + e3 == EncodeBox(b1) + (e2 + e3);
  }

  lemma ReadLastOfThree(e1: seq<Byte>, e2: seq<Byte>, b3: Box)
    requires ValidBox(b3)
    ensures ReadBox(e1 + e2 + EncodeBox(b3), |e1| + |e2|) ==
      Ok(Read(b3.tag, b3.payload, |e1| + |e2| + 8 + |b3.payload|))
  {
    ReadBoxAt(e1 + e2, b3, []);
    assert e1 + e2 + EncodeBox(b3) + [] == e1 + e2 + EncodeBox(b3);
  }

  /** A packet of three well-formed boxes is parsed from the three boxes themselves. */
  lemma ParsePacketThree(hb: Box, ib: Box, body: Box)
    requires ValidBox(hb) && ValidBox(ib) && ValidBox(body)
    ensures ParsePacket(EncodeBoxes([hb, ib, body])) == ParseBoxes(hb, ib, body)
  {
    var dg := EncodeBoxes([hb, ib, body]);
    ReadThree(hb, ib, body);
    var o1 := 8 + |hb.payload|;
    var o2 := o1 + 8 + |ib.payload|;
    ParsePacketOfReads(dg, hb, ib, body, o1, o2, o2 + 8 + |body.payload|);
  }

  /** parse_packet of any buffer whose three boxes read as hb, ib and body. */
  lemma ParsePacketOfReads(dg: seq<Byte>, hb: Box, ib: Box, body: Box, o1: nat, o2: nat, o3: nat)
    requires ReadBox(dg, 0) == Ok(Read(hb.tag, hb.payload, o1))
    requires ReadBox(dg, o1) == Ok(Read(ib.tag, ib.payload, o2))
    requires ReadBox(dg, o2) == Ok(Read(body.tag, body.payload, o3))
    ensures ParsePacket(dg) == ParseBoxes(hb, ib, body)
  {
    assert Box(hb.tag, hb.payload) == hb && Box(ib.tag, ib.payload) == ib && Box(body.tag, body.payload) == body;
  }

  /**
   * The third tag selects a skeleton, a frame or an unknown packet carrying the
   * payload length; the first two tags are not checked.
   */
  lemma ParseBoxesSelect(hb: Box, ib: Box, body: Box, head: seq<Box>, info: seq<Box>)
    requires IterBoxes(hb.payload) == Boxes(head, None) && IterBoxes(ib.payload) == Boxes(info, None)
    ensures var p := ParseBoxes(hb, ib, body);
      if body.tag == "skdf" then
        p == (match ParseSkdf(body.payload)
              case Ok(bones) => Ok(Skeleton(hb.tag, ib.tag, head, info, bones))
              case Err(e) => Err(e))
      else if body.tag == "fram" then
        p == (match ParseFram(body.payload)
              case Ok(frame) => Ok(FramePacket(hb.tag, ib.tag, head, info, frame))
              case Err(e) => Err(e))
      else p == Ok(Unknown(body.tag, head, info, |body.payload|))
  {
    assert ParseFramed(hb.payload) == Ok(head);
    assert ParseFramed(ib.payload) == Ok(info);
  }

  /**
   * A broken head framing raises before anything else, then a broken info
   * framing; the body is parsed only when both framings are sound.
   */
  lemma ParseBoxesFails(hb: Box, ib: Box, body: Box)
    ensures ParseFramed(hb.payload).Err? ==> ParseBoxes(hb, ib, body) == Err(ParseFramed(hb.payload).error)
    ensures ParseFramed(hb.payload).Ok? && ParseFramed(ib.payload).Err? ==>
      ParseBoxes(hb, ib, body) == Err(ParseFramed(ib.payload).error)
  {
  }

  /**
   * parse_packet raises when fewer than three boxes can be read, when the head
   * or info framing is broken, and when a skdf or fram body fails to parse.
   */
  lemma ParsePacketFails(dg: seq<Byte>)
    ensures !ThreeBoxes(dg) ==> ParsePacket(dg).Err?
    ensures ThreeBoxes(dg) ==>
      var r1 := ReadBox(dg, 0).value;
      var r2 := ReadBox(dg, r1.next).value;
      var r3 := ReadBox(dg, r2.next).value;
      && (ParseFramed(r1.payload).Err? ==> ParsePacket(dg) == Err(ParseFramed(r1.payload).error))
      && (ParseFramed(r1.payload).Ok? && ParseFramed(r2.payload).Err? ==> ParsePacket(dg) == Err(ParseFramed(r2.payload).error))
      && (ParseFramed(r1.payload).Ok? && ParseFramed(r2.payload).Ok? && r3.tag == "skdf" && ParseSkdf(r3.payload).Err? ==>
            ParsePacket(dg) == Err(ParseSkdf(r3.payload).error))
      && (ParseFramed(r1.payload).Ok? && ParseFramed(r2.payload).Ok? && r3.tag == "fram" && ParseFram(r3.payload).Err? ==>
            ParsePacket(dg) == Err(ParseFram(r3.payload).error))
  {
    if ThreeBoxes(dg) {
      var r1 := ReadBox(dg, 0).value;
      var r2 := ReadBox(dg, r1.next).value;
      var r3 := ReadBox(dg, r2.next).value;
      var hb, ib, body := Box(r1.tag, r1.payload), Box(r2.tag, r2.payload), Box(r3.tag, r3.payload);
      ParsePacketOfReads(dg, hb, ib, body, r1.next, r2.next, r3.next);
      ParseBoxesFails(hb, ib, body);
      var head, info := ParseFramed(hb.payload), ParseFramed(ib.payload);
      if head.Ok? && info.Ok? {
        ParseBoxesSelect(hb, ib, body, head.value, info.value);
      }
    }
  }

  /** Packet round trip for a skeleton definition, whatever the first two tags are. */
  lemma SkeletonPacketRoundTrip(headTag: string, head: seq<Box>, infoTag: string, info: seq<Box>, bones: seq<SkeletonBone>)
    requires forall i :: 0 <= i < |head| ==> ValidBox(head[i])
    requires forall i :: 0 <= i < |info| ==> ValidBox(info[i])
    requires ValidBox(Box(headTag, EncodeBoxes(head))) && ValidBox(Box(infoTag, EncodeBoxes(info)))
    requires |bones| < MaxBones && forall i :: 0 <= i < |bones| ==> ValidBone(bones[i])
    requires |EncodeSkdf(bones)| < U32Limit
    ensures ParsePacket(EncodePacket(headTag, EncodeBoxes(head), infoTag, EncodeBoxes(info), Box("skdf", EncodeSkdf(bones))))
      == Ok(Skeleton(headTag, infoTag, head, info, bones))
  {
    ScanRoundTrip(head);
    ScanRoundTrip(info);
    SkdfRoundTrip(bones);
    BodyTagsValid();
    SkeletonPacketOfBoxes(Box(headTag, EncodeBoxes(head)), Box(infoTag, EncodeBoxes(info)), Box("skdf", EncodeSkdf(bones)), head, info, bones);
  }

  /** A packet whose third box is a skdf box that parses is a skeleton packet. */
  lemma SkeletonPacketOfBoxes(hb: Box, ib: Box, body: Box, head: seq<Box>, info: seq<Box>, bones: seq<SkeletonBone>)
    requires ValidBox(hb) && ValidBox(ib) && ValidBox(body)
    requires IterBoxes(hb.payload) == Boxes(head, None) && IterBoxes(ib.payload) == Boxes(info, None)
    requires body.tag == "skdf" && ParseSkdf(body.payload) == Ok(bones)
    ensures ParsePacket(EncodePacket(hb.tag, hb.payload, ib.tag, ib.payload, body)) == Ok(Skeleton(hb.tag, ib.tag, head, info, bones))
  {
    assert EncodePacket(hb.tag, hb.payload, ib.tag, ib.payload, body) == EncodeBoxes([hb, ib, body]);
    ParsePacketThree(hb, ib, body);
    ParseBoxesSelect(hb, ib, body, head, info);
  }

  /** Packet round trip for a frame, whatever the first two tags are. */
  lemma FramePacketRoundTrip(headTag: string, head: seq<Box>, infoTag: string, info: seq<Box>, f: Frame)
    requires forall i :: 0 <= i < |head| ==> ValidBox(head[i])
    requires forall i :: 0 <= i < |info| ==> ValidBox(info[i])
    requires ValidBox(Box(headTag, EncodeBoxes(head))) && ValidBox(Box(infoTag, EncodeBoxes(info)))
    requires ValidFrame(f) && |EncodeFram(f)| < U32Limit
    ensures ParsePacket(EncodePacket(headTag, EncodeBoxes(head), infoTag, EncodeBoxes(info), Box("fram", EncodeFram(f))))
      == Ok(FramePacket(headTag, infoTag, head, info, f))
  {
    ScanRoundTrip(head);
    ScanRoundTrip(info);
    FramRoundTrip(f);
    BodyTagsValid();
    FramePacketOfBoxes(Box(headTag, EncodeBoxes(head)), Box(infoTag, EncodeBoxes(info)), Box("fram", EncodeFram(f)), head, info, f);
  }

  /** A packet whose third box is a fram box that parses is a frame packet. */
  lemma FramePacketOfBoxes(hb: Box, ib: Box, body: Box, head: seq<Box>, info: seq<Box>, f: Frame)
    requires ValidBox(hb) && ValidBox(ib) && ValidBox(body)
    requires IterBoxes(hb.payload) == Boxes(head, None) && IterBoxes(ib.payload) == Boxes(info, None)
    requires body.tag == "fram" && ParseFram(body.payload) == Ok(f)
    ensures ParsePacket(EncodePacket(hb.tag, hb.payload, ib.tag, ib.payload, body)) == Ok(FramePacket(hb.tag, ib.tag, head, info, f))
  {
    assert EncodePacket(hb.tag, hb.payload, ib.tag, ib.payload, body) == EncodeBoxes([hb, ib, body]);
    ParsePacketThree(hb, ib, body);
    ParseBoxesSelect(hb, ib, body, head, info);
  }
}

=== FILE: rhythm.dfy ===
/**
 * src/rhythm_score.py: the rhythm score compares the per-frame speed of the
 * player's signal with the reference's. Signals are brought to a (T, D)
 * matrix, differenced along time, reduced to one magnitude per frame, and
 * compared on their common length through exp(-relative mean error).
 */
module RhythmScore {
  import opened Wrappers
  import opened Floats
  import opened PyValues
  import opened Seqs

  /** A (T, D) float32 matrix, row by row. */
  datatype Matrix = Matrix(width: nat, rows: seq<seq<Float>>)

  predicate WellFormed(x: Matrix) {
    forall i :: 0 <= i < |x.rows| ==> |x.rows[i]| == x.width
  }

  /**
   * _as_2d: a scalar becomes 1x1, a vector a column, a matrix is kept and a
   * higher-rank array keeps its first axis and flattens the rest. numpy
   * refuses reshape(0, -1), so a higher-rank array with no rows raises.
   */
  function AsTwoD(a: NdArray): (r: Result<NdArray, PyError>)
    ensures r.Err? <==> |a.shape| >= 3 && a.shape[0] == 0
    ensures r.Ok? ==> |r.value.shape| == 2 && r.value.data == a.data
    ensures r.Ok? ==> r.value.shape[0] == (if |a.shape| == 0 then 1 else a.shape[0])
    ensures r.Ok? && |a.shape| <= 1 ==> r.value.shape[1] == 1
    ensures r.Ok? && |a.shape| == 2 ==> r.value == a
    ensures r.Ok? && |a.shape| >= 3 ==> r.value.shape[1] == Product(a.shape[1..])
  {
    if |a.shape| == 0 then
      Ok(RawArray([1, 1], a.data))
    else if |a.shape| == 1 then
      assert Product([a.shape[0], 1]) == a.shape[0] * Product([1]);
      Ok(RawArray([a.shape[0], 1], a.data))
    else if |a.shape| == 2 then Ok(a)
    else if a.shape[0] == 0 then Err(ValueError)
    else
      var shape := [a.shape[0], Product(a.shape[1..])];
      assert Product(shape) == a.shape[0] * Product([Product(a.shape[1..])]);
      Ok(RawArray(shape, a.data))
  }

  /** The rows of a 2-dimensional array. */
  function ToMatrix(a: NdArray): (r: Matrix)
    requires |a.shape| == 2
    ensures WellFormed(r) && r.width == a.shape[1] && |r.rows| == a.shape[0]
  {
    assert Product(a.shape[1..]) == a.shape[1] * Product([]);
    Matrix(a.shape[1], seq(a.shape[0], i requires 0 <= i < a.shape[0] => Row(a, i).data))
  }

  /** Elementwise IEEE difference of two rows. */
  function RowDiff(a: seq<Float>, b: seq<Float>): (r: seq<Float>)
    requires |a| == |b|
    ensures |r| == |a|
  {
    seq(|a|, j requires 0 <= j < |a| => Sub(a[j], b[j]))
  }

  /** np.diff(s, axis=0), or a 0-row matrix of the same width when there are fewer than two rows. */
  function Velocity(x: Matrix): (r: Matrix)
    requires WellFormed(x)
    ensures WellFormed(r) && r.width == x.width
    ensures |r.rows| == if |x.rows| < 2 then 0 else |x.rows| - 1
  {
    if |x.rows| < 2 then Matrix(x.width, [])
    else Matrix(x.width, seq(|x.rows| - 1, i requires 0 <= i < |x.rows| - 1 => RowDiff(x.rows[i + 1], x.rows[i])))
  }

  /** compute_velocity(signal), including the float32 conversion of the signal. */
  function ComputeVelocity(signal: Value): (r: Result<Matrix, PyError>)
    ensures r.Ok? ==> WellFormed(r.value)
    ensures r.Err? <==> AsArray(signal).Err? || AsTwoD(AsArray(signal).value).Err?
  {
    var a :- AsArray(signal);
    var s :- AsTwoD(a);
    Ok(Velocity(ToMatrix(s)))
  }

  /** np.linalg.norm(v, axis=1): one magnitude per row. */
  function Magnitudes(m: MathLib, x: Matrix): (r: seq<Float>)
    ensures |r| == |x.rows|
    ensures forall i :: 0 <= i < |x.rows| ==> (r[i].Finite? <==> AllFinite(x.rows[i]))
  {
    seq(|x.rows|, i requires 0 <= i < |x.rows| => Norm(m, x.rows[i]))
  }

  function AbsF(x: Float): Float {
    if x.Finite? then Finite(Abs(x.val)) else NonFinite
  }

  /** np.abs(p - q) on two equally long vectors. */
  function AbsDiff(p: seq<Float>, q: seq<Float>): (r: seq<Float>)
    requires |p| == |q|
    ensures |r| == |p|
    ensures AllFinite(r) <==> AllFinite(p) && AllFinite(q)
  {
    var r := seq(|p|, i requires 0 <= i < |p| => AbsF(Sub(p[i], q[i])));
    assert AllFinite(r) ==> AllFinite(p) && AllFinite(q) by {
      if AllFinite(r) {
        forall i | 0 <= i < |p| ensures p[i].Finite? && q[i].Finite? {
          assert r[i].Finite?;
        }
      }
    }
    r
  }

  /** np.abs(q). */
  function AbsAll(q: seq<Float>): (r: seq<Float>)
    ensures |r| == |q|
    ensures AllFinite(r) <==> AllFinite(q)
    ensures AllFinite(q) ==> forall i :: 0 <= i < |q| ==> r[i].val >= 0.0
  {
    var r := seq(|q|, i requires 0 <= i < |q| => AbsF(q[i]));
    assert AllFinite(r) ==> AllFinite(q) by {
      if AllFinite(r) {
        forall i | 0 <= i < |q| ensures q[i].Finite? {
          assert r[i].Finite?;
        }
      }
    }
    r
  }

  lemma {:induction false} SumNonNegative(xs: seq<real>)
    requires forall i :: 0 <= i < |xs| ==> xs[i] >= 0.0
    ensures Sum(xs) >= 0.0
  {
    if |xs| > 0 {
      SumNonNegative(xs[..|xs| - 1]);
    }
  }

  /** np.mean of a non-empty vector: non-finite as soon as one element is. */
  function Mean(xs: seq<Float>): (r: Float)
    requires |xs| > 0
    ensures r.Finite? <==> AllFinite(xs)
    ensures r.Finite? && (forall i :: 0 <= i < |xs| ==> xs[i].val >= 0.0) ==> r.val >= 0.0
  {
    if AllFinite(xs) then
      var v := Values(xs);
      SumNonNegativeIf(xs);
      Finite(Sum(v) / (|xs| as real))
    else NonFinite
  }

  lemma SumNonNegativeIf(xs: seq<Float>)
    requires AllFinite(xs)
    ensures (forall i :: 0 <= i < |xs| ==> xs[i].val >= 0.0) ==> Sum(Values(xs)) >= 0.0
  {
    if forall i :: 0 <= i < |xs| ==> xs[i].val >= 0.0 {
      SumNonNegative(Values(xs));
    }
  }

  /**
   * The comparison of two magnitude series (src/rhythm_score.py:51-67): the
   * common prefix is compared; a non-finite mean error gives 0, otherwise the
   * error relative to the reference's mean magnitude goes through exp(-x).
   */
  function ScoreMagnitudes(m: MathLib, p: seq<Float>, q: seq<Float>): (r: real)
    ensures 0.0 <= r <= 1.0
    ensures |p| == 0 || |q| == 0 ==> r == 0.5
    ensures |p| > 0 && |q| > 0 ==>
      var n := CommonLength(p, q);
      (r == 0.0 <== !(AllFinite(p[..n]) && AllFinite(q[..n])))
  {
    var n := CommonLength(p, q);
    if n == 0 then 0.5
    else
      var pn, qn := p[..n], q[..n];
      var err := Mean(AbsDiff(pn, qn));
      if err.NonFinite? then 0.0
      else
        var denom := Mean(AbsAll(qn)).val + 0.000001;
        Clip(m.exp(-(err.val / denom)), 0.0, 1.0)
  }

  /** compute_rhythm_score(player_signal, ref_signal). */
  function ComputeRhythmScore(m: MathLib, player: Value, reference: Value): (r: Result<real, PyError>)
    ensures r.Ok? ==> 0.0 <= r.value <= 1.0
    ensures r.Err? <==> ComputeVelocity(player).Err? || ComputeVelocity(reference).Err?
    ensures r.Ok? && (|ComputeVelocity(player).value.rows| == 0 || |ComputeVelocity(reference).value.rows| == 0) ==> r.value == 0.5
  {
    var pv :- ComputeVelocity(player);
    var rv :- ComputeVelocity(reference);
    if |pv.rows| == 0 || |rv.rows| == 0 then Ok(0.5)
    else Ok(ScoreMagnitudes(m, Magnitudes(m, pv), Magnitudes(m, rv)))
  }

  // ---------------------------------------------------------------- lemmas

  /** The sum of column j over the rows of a finite matrix. */
  function ColumnTotal(rows: seq<seq<Float>>, j: nat): real
    requires forall i :: 0 <= i < |rows| ==> j < |rows[i]| && rows[i][j].Finite?
  {
    if |rows| == 0 then 0.0 else ColumnTotal(rows[..|rows| - 1], j) + rows[|rows| - 1][j].val
  }

  /** Every entry of the matrix is finite. */
  predicate FiniteMatrix(x: Matrix) {
    forall i :: 0 <= i < |x.rows| ==> AllFinite(x.rows[i])
  }

  /** The velocities of a finite signal telescope: summed over time they give last row minus first row. */
  lemma VelocityTelescopes(x: Matrix, j: nat)
    requires WellFormed(x) && FiniteMatrix(x) && |x.rows| >= 2 && j < x.width
    ensures FiniteMatrix(Velocity(x))
    ensures ColumnTotal(Velocity(x).rows, j) == x.rows[|x.rows| - 1][j].val - x.rows[0][j].val
  {
    var v := Velocity(x).rows;
    forall i | 0 <= i < |v| ensures AllFinite(v[i]) {
      assert forall k :: 0 <= k < x.width ==> v[i][k] == Sub(x.rows[i + 1][k], x.rows[i][k]);
    }
    TelescopePrefix(x, j, |v|);
    assert v[..|v|] == v;
  }

  lemma {:induction false} TelescopePrefix(x: Matrix, j: nat, k: nat)
    requires WellFormed(x) && FiniteMatrix(x) && |x.rows| >= 2 && j < x.width
    requires FiniteMatrix(Velocity(x))
    requires k <= |x.rows| - 1
    ensures ColumnTotal(Velocity(x).rows[..k], j) == x.rows[k][j].val - x.rows[0][j].val
  {
    var v := Velocity(x).rows;
    if k > 0 {
      TelescopePrefix(x, j, k - 1);
      assert v[..k][..k - 1] == v[..k - 1];
      assert v[k - 1][j] == Sub(x.rows[k][j], x.rows[k - 1][j]);
    }
  }

  /** A signal that does not move has zero velocity everywhere. */
  lemma VelocityOfConstant(x: Matrix)
    requires WellFormed(x) && FiniteMatrix(x)
    requires forall i :: 0 <= i < |x.rows| ==> x.rows[i] == x.rows[0]
    ensures forall i, j :: 0 <= i < |Velocity(x).rows| && 0 <= j < x.width ==> Velocity(x).rows[i][j] == Finite(0.0)
  {
    var v := Velocity(x);
    forall i, j | 0 <= i < |v.rows| && 0 <= j < x.width ensures v.rows[i][j] == Finite(0.0) {
      assert v.rows[i] == RowDiff(x.rows[i + 1], x.rows[i]);
      assert x.rows[i + 1] == x.rows[i];
    }
  }

  /** Magnitudes beyond the common length are never looked at. */
  lemma ScoreIgnoresExcess(m: MathLib, p: seq<Float>, q: seq<Float>, extra: seq<Float>)
    requires |q| >= |p|
    ensures ScoreMagnitudes(m, p, q + extra) == ScoreMagnitudes(m, p, q)
  {
    assert (q + extra)[..|p|] == q[..|p|];
  }

  /** With finite magnitudes the clip is inert and the score is strictly positive. */
  lemma ScoreFinite(m: MathLib, p: seq<Float>, q: seq<Float>)
    requires ExpLaws(m)
    requires |p| > 0 && |q| > 0
    requires var n := CommonLength(p, q); AllFinite(p[..n]) && AllFinite(q[..n])
    ensures var n := CommonLength(p, q);
      var err := Mean(AbsDiff(p[..n], q[..n])).val;
      var denom := Mean(AbsAll(q[..n])).val + 0.000001;
      && err >= 0.0 && denom > 0.0
      && ScoreMagnitudes(m, p, q) == m.exp(-(err / denom))
      && ScoreMagnitudes(m, p, q) > 0.0
  {
    var n := CommonLength(p, q);
    var pn, qn := p[..n], q[..n];
    var err := Mean(AbsDiff(pn, qn)).val;
    var denom := Mean(AbsAll(qn)).val + 0.000001;
    assert err >= 0.0 by {
      var d := AbsDiff(pn, qn);
      forall i | 0 <= i < |d| ensures d[i].val >= 0.0 {
        assert d[i] == AbsF(Sub(pn[i], qn[i]));
      }
    }
    assert denom > 0.0;
    QuotientNonNegative(err, denom);
  }

  lemma QuotientNonNegative(a: real, b: real)
    requires a >= 0.0 && b > 0.0
    ensures a / b >= 0.0
  {
  }

  /** Two identical magnitude series that are finite score exactly 1. */
  lemma ScoreSelf(m: MathLib, p: seq<Float>)
    requires ExpLaws(m)
    requires |p| > 0 && AllFinite(p)
    ensures ScoreMagnitudes(m, p, p) == 1.0
  {
    var d := AbsDiff(p, p);
    forall i | 0 <= i < |d| ensures d[i] == Finite(0.0) {
      assert d[i] == AbsF(Sub(p[i], p[i]));
    }
    SumZero(Values(d));
    assert p[..|p|] == p;
    var denom := Mean(AbsAll(p)).val + 0.000001;
    assert Mean(d).val == 0.0;
    assert denom > 0.0;
    ZeroQuotient(denom);
  }

  lemma ZeroQuotient(b: real)
    requires b > 0.0
    ensures -(0.0 / b) == 0.0
  {
  }

  lemma {:induction false} SumZero(xs: seq<real>)
    requires forall i :: 0 <= i < |xs| ==> xs[i] == 0.0
    ensures Sum(xs) == 0.0
  {
    if |xs| > 0 {
      SumZero(xs[..|xs| - 1]);
    }
  }

  /** A signal compared with itself: 1 when it moves over at least two finite frames. */
  lemma RhythmSelf(m: MathLib, signal: Value)
    requires ExpLaws(m) && SqrtLaws(m)
    requires ComputeVelocity(signal).Ok?
    requires |ComputeVelocity(signal).value.rows| > 0 && FiniteMatrix(ComputeVelocity(signal).value)
    ensures ComputeRhythmScore(m, signal, signal) == Ok(1.0)
  {
    var v := ComputeVelocity(signal).value;
    var mags := Magnitudes(m, v);
    assert AllFinite(mags);
    ScoreSelf(m, mags);
  }

  /** An empty list signal has no velocity, so against it the score is the neutral 0.5 unless the other side raises. */
  lemma EmptySignalNeutral(m: MathLib, player: Value)
    ensures ComputeVelocity(List([])).Ok? && |ComputeVelocity(List([])).value.rows| == 0
    ensures ComputeRhythmScore(m, player, List([])) == if ComputeVelocity(player).Ok? then Ok(0.5) else Err(ComputeVelocity(player).error)
  {
    assert AsArray(List([])) == Stack(AsArrays([]));
  }
}

=== FILE: seqs.dfy ===
/** Sequence helpers shared by the modules: Python slicing, "the last n", min(len(p), len(q)) and concatenation of a list of lists. */
module Seqs {

  /** min(len(p), len(q)): the length of the common prefix both series are truncated to. */
  function CommonLength<T>(p: seq<T>, q: seq<T>): (n: nat)
    ensures n <= |p| && n <= |q| && (n == |p| || n == |q|)
  {
    if |p| <= |q| then |p| else |q|
  }

  /** The last n elements of xs, or all of xs when it is shorter. */
  function LastN<T>(xs: seq<T>, n: nat): (r: seq<T>)
    ensures |r| == if |xs| <= n then |xs| else n
    ensures forall i :: 0 <= i < |r| ==> r[i] == xs[|xs| - |r| + i]
  {
    if |xs| <= n then xs else xs[|xs| - n..]
  }

  /** Python's xs[start:], where a negative start counts from the end. */
  function SliceFrom<T>(xs: seq<T>, start: int): (r: seq<T>)
    ensures 0 <= start ==> r == xs[if start <= |xs| then start else |xs|..]
    ensures start < 0 ==> r == LastN(xs, -start)
  {
    var k := if start < 0 then (if -start >= |xs| then 0 else |xs| + start)
             else if start <= |xs| then start else |xs|;
    xs[k..]
  }

  /** Appending one element to a window and evicting from the front at most once keeps "the last n". */
  lemma LastNAppend<T>(xs: seq<T>, x: T, n: nat)
    requires n >= 1
    ensures LastN(xs + [x], n) == LastN(xs, n - 1) + [x]
  {
  }

  /** Keeping the last k of the last n, for k <= n, keeps the last k. */
  lemma LastNOfLastN<T>(xs: seq<T>, n: nat, k: nat)
    requires k <= n
    ensures LastN(LastN(xs, n), k) == LastN(xs, k)
  {
  }

  /** Trimming a window before appending changes nothing once the result is trimmed to the same length. */
  lemma LastNTrimThenAppend<T>(xs: seq<T>, x: T, n: nat)
    requires n >= 1
    ensures LastN(LastN(xs, n) + [x], n) == LastN(xs + [x], n)
  {
    LastNAppend(LastN(xs, n), x, n);
    LastNAppend(xs, x, n);
    LastNOfLastN(xs, n, n - 1);
  }

  /** The concatenation of the lists in xss, in order. */
  function Flatten<T>(xss: seq<seq<T>>): seq<T>
  {
    if |xss| == 0 then [] else xss[0] + Flatten(xss[1..])
  }

  lemma FlattenUniform<T>(xss: seq<seq<T>>, k: nat)
    requires forall i :: 0 <= i < |xss| ==> |xss[i]| == k
    ensures |Flatten(xss)| == |xss| * k
  {
    if |xss| > 0 {
      FlattenUniform(xss[1..], k);
    }
  }

  /** Appending one more list to xss appends its elements to the concatenation. */
  lemma {:induction false} FlattenSnoc<T>(xss: seq<seq<T>>, ys: seq<T>)
    ensures Flatten(xss + [ys]) == Flatten(xss) + ys
  {
    if |xss| > 0 {
      assert (xss + [ys])[1..] == xss[1..] + [ys];
      FlattenSnoc(xss[1..], ys);
    }
  }
}

=== FILE: session.dfy ===
/**
 * src/main.py: the scoring entry points. The module-level SlidingDTW and the
 * adapter's histories are one explicit `Session` value that every call takes
 * and returns. Decoding the JSON text is outside the model: a message arrives
 * either as the decoded value or as `Malformed`. The reply is one of the three
 * JSON shapes main.py produces; its error text is not modelled.
 */
module Scoring {
  import opened Wrappers
  import opened Floats
  import opened PyValues
  import Config
  import Utils
  import SlidingDtw
  import MocopiAdapter
  import PoseScore
  import RhythmScore
  import Seqs

  datatype Session = Session(dtw: SlidingDtw.Dtw, adapter: MocopiAdapter.AdapterState)

  /** The feature vectors extract_dtw_feature builds: both hands' last positions. */
  const FeatureDim: nat := 6

  /**
   * What main.py's globals always satisfy: the DTW built with WINDOW_SIZE and
   * band 8, equal-length buffers of 6-vectors, and adapter histories of at
   * most WINDOW_SIZE positions.
   */
  predicate SessionInv(s: Session) {
    && s.dtw.w == Config.WindowSize && s.dtw.band == Config.DtwBand
    && SlidingDtw.Valid(s.dtw) && SlidingDtw.HasDim(s.dtw, FeatureDim) && SlidingDtw.Uniform(s.dtw)
    && MocopiAdapter.HistoriesBounded(s.adapter.player, Config.WindowSize)
    && MocopiAdapter.HistoriesBounded(s.adapter.ref, Config.WindowSize)
  }

  /** The state at import time. */
  function InitSession(): (r: Session)
    ensures SessionInv(r)
    ensures r.dtw.player == [] && r.dtw.ref == [] && r.adapter == MocopiAdapter.EmptyState()
  {
    Session(SlidingDtw.Init(Config.WindowSize, Config.DtwBand), MocopiAdapter.EmptyState())
  }

  /** reset_state(): empties the DTW buffers and every adapter history, keeping the DTW parameters. */
  function ResetState(s: Session): (r: Session)
    ensures r.dtw.player == [] && r.dtw.ref == [] && r.adapter == MocopiAdapter.EmptyState()
    ensures r.dtw.w == s.dtw.w && r.dtw.band == s.dtw.band
    ensures SessionInv(s) ==> SessionInv(r)
  {
    Session(SlidingDtw.Reset(s.dtw), MocopiAdapter.ResetAdapter(s.adapter))
  }

  // ---------------------------------------------------------------- features

  /** The last element of a non-empty list, as a 3-vector, if it converts. */
  function LastPoint(items: seq<Value>): (r: Option<seq<Float>>)
    requires |items| > 0
    ensures r.Some? <==> AsVector(items[|items| - 1], 3).Ok?
    ensures r.Some? ==> r.value == AsVector(items[|items| - 1], 3).value && |r.value| == 3
  {
    match AsVector(items[|items| - 1], 3)
    case Ok(v) => Some(v)
    case Err(_) => None
  }

  /**
   * extract_dtw_feature(data): the left hand's last position followed by the
   * right hand's, when both trajectories are non-empty lists whose last point
   * converts to 3 finite floats; None otherwise. Only the truth value of a
   * trajectories array with other than one element raises.
   */
  function ExtractDtwFeature(data: Entries): (r: Result<Option<seq<Float>>, PyError>)
    ensures r.Err? <==> GetOr(data, "trajectories", Null).NdArr? && |GetOr(data, "trajectories", Null).arr.data| != 1
    ensures r.Ok? && r.value.Some? ==> |r.value.value| == FeatureDim && AllFinite(r.value.value)
    ensures r.Ok? ==> (r.value.Some? <==>
      var traj := GetOr(data, "trajectories", Null);
      && traj.Dict?
      && var lh := GetOr(traj.entries, "LeftHand", Null);
      && var rh := GetOr(traj.entries, "RightHand", Null);
      && lh.List? && rh.List? && |lh.items| > 0 && |rh.items| > 0
      && AsVector(lh.items[|lh.items| - 1], 3).Ok? && AsVector(rh.items[|rh.items| - 1], 3).Ok?
      && AllFinite(AsVector(lh.items[|lh.items| - 1], 3).value) && AllFinite(AsVector(rh.items[|rh.items| - 1], 3).value))
    ensures r.Ok? && r.value.Some? ==>
      var traj := GetOr(data, "trajectories", Null);
      && traj.Dict?
      && var lh := GetOr(traj.entries, "LeftHand", Null);
      && var rh := GetOr(traj.entries, "RightHand", Null);
      && lh.List? && rh.List? && |lh.items| > 0 && |rh.items| > 0
      && AsVector(lh.items[|lh.items| - 1], 3).Ok? && AsVector(rh.items[|rh.items| - 1], 3).Ok?
      && r.value.value == AsVector(lh.items[|lh.items| - 1], 3).value + AsVector(rh.items[|rh.items| - 1], 3).value
  {
    var traj :- OrElse(GetOr(data, "trajectories", Null), Dict([]));
    if !traj.Dict? then Ok(None)
    else
      var lh := GetOr(traj.entries, "LeftHand", Null);
      var rh := GetOr(traj.entries, "RightHand", Null);
      if !lh.List? || !rh.List? then Ok(None)
      else if |lh.items| == 0 || |rh.items| == 0 then Ok(None)
      else
        match (LastPoint(lh.items), LastPoint(rh.items))
        case (Some(l), Some(r)) => if AllFinite(l) && AllFinite(r) then Ok(Some(l + r)) else Ok(None)
        case _ => Ok(None)
  }

  /** A feature extract_dtw_feature returns is always accepted by add_frame, with dimension 6. */
  lemma FeatureAccepted(pf: seq<Float>, rf: seq<Float>)
    requires |pf| == FeatureDim && AllFinite(pf) && |rf| == FeatureDim && AllFinite(rf)
    ensures SlidingDtw.Accepts(pf, rf) && Seqs.CommonLength(pf, rf) == FeatureDim
  {
    assert pf[..FeatureDim] == pf && rf[..FeatureDim] == rf;
  }

  // ---------------------------------------------------------------- replies

  /** A message: the value json.loads decoded, or text it refused. */
  datatype Message = Malformed | Parsed(value: Value)

  /**
   * The three replies: {ok: true, reset: true}; the scores; and the error
   * reply {ok: false, final: 0, pose: 0, trajectory: 0, rhythm: 0, grade: "Miss"}.
   */
  datatype Outcome =
    | ResetAck
    | Scored(final: real, pose: real, trajectory: real, rhythm: real, grade: Utils.Grade,
             trajectoryValid: bool, dtwCost: Option<real>)
    | Failed

  datatype Reply = Reply(session: Session, outcome: Outcome)

  /** A scoring-format reset request: `reset` is True or `command` is "reset". */
  predicate IsResetRequest(raw: Value) {
    raw.Dict? && (Get(raw.entries, "reset") == Some(Bool(true)) || Get(raw.entries, "command") == Some(Str("reset")))
  }

  /** A mocopi-side reset request: `command` is "reset". */
  predicate IsResetCommand(raw: Value) {
    raw.Dict? && Get(raw.entries, "command") == Some(Str("reset"))
  }

  /** The reference as scored: converted unless it already has both rotations and trajectories. */
  function ReferenceData(reference: Value): (r: Result<Value, PyError>)
    ensures r.Ok? ==> r.value.Dict?
    ensures reference.Dict? && Get(reference.entries, "rotations").Some? && Get(reference.entries, "trajectories").Some?
      ==> r == Ok(reference)
    ensures !(reference.Dict? && Get(reference.entries, "rotations").Some? && Get(reference.entries, "trajectories").Some?)
      ==> r == Utils.JsonToMotionData(reference)
    ensures !reference.Dict? ==> r.Err?
  {
    if reference.Dict? && Get(reference.entries, "rotations").Some? && Get(reference.entries, "trajectories").Some?
    then Ok(reference)
    else Utils.JsonToMotionData(reference)
  }

  /** The rotations of a motion dict, {} when absent. */
  function Rotations(data: Entries): Value {
    GetOr(data, "rotations", Dict([]))
  }

  /** The rhythm signal of a motion dict, an empty array when absent. */
  function RhythmSignal(data: Entries): Value {
    GetOr(data, "rhythm_signal", NdArr(Utils.EmptyArray()))
  }

  /** The weighted sum of the three sub-scores, clipped to [0, 1]. */
  function Fuse(pose: real, trajectory: real, rhythm: real): (r: real)
    ensures 0.0 <= r <= 1.0
  {
    Clip(Config.PoseWeight * pose + Config.TrajectoryWeight * trajectory + Config.RhythmWeight * rhythm, 0.0, 1.0)
  }

  /** np.clip(np.exp(-cost), 0, 1) */
  function TrajectoryScore(m: MathLib, cost: real): (r: real)
    ensures 0.0 <= r <= 1.0
  {
    Clip(m.exp(-cost), 0.0, 1.0)
  }

  /** The reply once pose, trajectory and rhythm are known. */
  function Finish(pose: real, trajectory: real, rhythm: real, valid: bool, cost: Option<real>): (r: Outcome)
    ensures r.Scored? && r.pose == pose && r.trajectory == trajectory && r.rhythm == rhythm
    ensures r.final == Fuse(pose, trajectory, rhythm) && r.grade == Utils.ComputeGrade(r.final)
    ensures r.trajectoryValid == valid && r.dtwCost == cost
  {
    var final := Fuse(pose, trajectory, rhythm);
    Scored(final, pose, trajectory, rhythm, Utils.ComputeGrade(final), valid, cost)
  }

  /**
   * The scoring part of process_unity_message, after the reset check. An
   * exception before add_frame leaves the session as it was; one after it
   * (from compute or the rhythm score) keeps the added frame.
   */
  function Score(m: MathLib, s: Session, raw: Value, reference: Value): (r: Reply)
    requires SessionInv(s)
    ensures SessionInv(r.session) && r.session.adapter == s.adapter
    ensures r.outcome.Scored? || r.outcome.Failed?
    ensures r.outcome.Scored? ==>
      r.outcome.final == Fuse(r.outcome.pose, r.outcome.trajectory, r.outcome.rhythm) && r.outcome.grade == Utils.ComputeGrade(r.outcome.final)
  {
    match Utils.JsonToMotionData(raw)
    case Err(_) => Reply(s, Failed)
    case Ok(player) =>
      match ReferenceData(reference)
      case Err(_) => Reply(s, Failed)
      case Ok(refData) => ScoreData(m, s, player.entries, refData.entries)
  }

  /** Scoring two converted motion dicts: pose, then both features, then rhythm, then the DTW. */
  function ScoreData(m: MathLib, s: Session, p: Entries, q: Entries): (r: Reply)
    requires SessionInv(s)
    ensures SessionInv(r.session) && r.session.adapter == s.adapter
    ensures r.outcome.Scored? || r.outcome.Failed?
    ensures r.outcome.Scored? ==>
      r.outcome.final == Fuse(r.outcome.pose, r.outcome.trajectory, r.outcome.rhythm) && r.outcome.grade == Utils.ComputeGrade(r.outcome.final)
  {
    match PoseScore.ComputePoseScore(m, Rotations(p), Rotations(q))
    case Err(_) => Reply(s, Failed)
    case Ok(pose) =>
      match (ExtractDtwFeature(p), ExtractDtwFeature(q))
      case (Err(_), _) => Reply(s, Failed)
      case (_, Err(_)) => Reply(s, Failed)
      case (Ok(pf), Ok(rf)) => Combine(m, s, pose, pf, rf, RhythmScore.ComputeRhythmScore(m, RhythmSignal(p), RhythmSignal(q)))
  }

  /**
   * The reply once pose, features and rhythm are known: without both
   * features the trajectory is 0.5 and the DTW is left alone; with them the
   * pair goes into the window first, so a later exception keeps it.
   */
  function Combine(m: MathLib, s: Session, pose: real, pf: Option<seq<Float>>, rf: Option<seq<Float>>,
                   rhythm: Result<real, PyError>): (r: Reply)
    requires SessionInv(s)
    requires pf.Some? ==> |pf.value| == FeatureDim && AllFinite(pf.value)
    requires rf.Some? ==> |rf.value| == FeatureDim && AllFinite(rf.value)
    ensures SessionInv(r.session) && r.session.adapter == s.adapter
    ensures r.outcome.Scored? || r.outcome.Failed?
    ensures r.outcome.Scored? ==>
      r.outcome.final == Fuse(r.outcome.pose, r.outcome.trajectory, r.outcome.rhythm) && r.outcome.grade == Utils.ComputeGrade(r.outcome.final)
    ensures pf.None? || rf.None? ==> r.session == s
    ensures pf.Some? && rf.Some? ==> r.session == s.(dtw := SlidingDtw.AddFrame(s.dtw, pf.value, rf.value))
  {
    if pf.None? || rf.None? then
      match rhythm
      case Err(_) => Reply(s, Failed)
      case Ok(rh) => Reply(s, Finish(pose, 0.5, rh, false, None))
    else
      var dtw := Advance(s.dtw, pf.value, rf.value);
      var s' := s.(dtw := dtw);
      match SlidingDtw.Cost(m, dtw)
      case Err(_) => Reply(s', Failed)
      case Ok(cost) =>
        match rhythm
        case Err(_) => Reply(s', Failed)
        case Ok(rh) => Reply(s', Finish(pose, TrajectoryScore(m, cost), rh, true, Some(cost)))
  }

  /** add_frame on the session's DTW with two extracted features; the buffers stay 6-dimensional. */
  function Advance(d: SlidingDtw.Dtw, pf: seq<Float>, rf: seq<Float>): (r: SlidingDtw.Dtw)
    requires SlidingDtw.Valid(d) && SlidingDtw.HasDim(d, FeatureDim)
    requires |pf| == FeatureDim && AllFinite(pf) && |rf| == FeatureDim && AllFinite(rf)
    ensures r == SlidingDtw.AddFrame(d, pf, rf)
    ensures SlidingDtw.Valid(r) && SlidingDtw.HasDim(r, FeatureDim) && SlidingDtw.Uniform(r)
    ensures r.w == d.w && r.band == d.band
  {
    FeatureAccepted(pf, rf);
    SlidingDtw.AddFrameKeepsDim(d, pf, rf, FeatureDim);
    SlidingDtw.HasDimUniform(SlidingDtw.AddFrame(d, pf, rf), FeatureDim);
    SlidingDtw.AddFrame(d, pf, rf)
  }

  /** process_unity_message(json_string, ref_data). It never raises: every exception becomes Failed. */
  function ProcessUnity(m: MathLib, s: Session, msg: Message, reference: Value): (r: Reply)
    requires SessionInv(s)
    ensures SessionInv(r.session)
    ensures msg.Malformed? ==> r == Reply(s, Failed)
    ensures msg.Parsed? && IsResetRequest(msg.value) ==> r == Reply(ResetState(s), ResetAck)
    ensures r.outcome.ResetAck? <==> msg.Parsed? && IsResetRequest(msg.value)
    ensures !r.outcome.ResetAck? ==> r.session.adapter == s.adapter
    ensures msg.Parsed? && !IsResetRequest(msg.value) ==> r == Score(m, s, msg.value, reference)
  {
    match msg
    case Malformed => Reply(s, Failed)
    case Parsed(raw) =>
      if IsResetRequest(raw) then Reply(ResetState(s), ResetAck)
      else Score(m, s, raw, reference)
  }

  /**
   * process_mocopi_message(player_json, ref_json): a reset command on either
   * side resets everything; otherwise the player frame and then the reference
   * frame go through the adapter (histories of WINDOW_SIZE positions) and the
   * results are scored. The JSON round trip of the player's adapted dict is
   * the identity on the values the adapter builds.
   */
  function ProcessMocopi(m: MathLib, s: Session, playerMsg: Message, refMsg: Message): (r: Reply)
    requires SessionInv(s)
    ensures SessionInv(r.session)
    ensures playerMsg.Malformed? || refMsg.Malformed? ==> r == Reply(s, Failed)
    ensures playerMsg.Parsed? && refMsg.Parsed? && (IsResetCommand(playerMsg.value) || IsResetCommand(refMsg.value))
      ==> r == Reply(ResetState(s), ResetAck)
  {
    match (playerMsg, refMsg)
    case (Malformed, _) => Reply(s, Failed)
    case (_, Malformed) => Reply(s, Failed)
    case (Parsed(p), Parsed(q)) =>
      if IsResetCommand(p) || IsResetCommand(q) then Reply(ResetState(s), ResetAck)
      else
        var a1 := MocopiAdapter.AdaptFrame(s.adapter, p, "player", Config.WindowSize);
        AdaptKeepsInv(s, p, "player");
        var s1 := s.(adapter := a1.state);
        match a1.out
        case Err(_) => Reply(s1, Failed)
        case Ok(playerScoring) =>
          var a2 := MocopiAdapter.AdaptFrame(a1.state, q, "ref", Config.WindowSize);
          AdaptKeepsInv(s1, q, "ref");
          var s2 := s1.(adapter := a2.state);
          match a2.out
          case Err(_) => Reply(s2, Failed)
          case Ok(refScoring) => ProcessUnity(m, s2, Parsed(playerScoring), refScoring)
  }

  /**
   * Without a reset command, process_mocopi_message adapts the player frame and
   * then the reference frame, each with histories of WINDOW_SIZE positions. A
   * player adapt error fails with the player's partial update kept; a
   * reference adapt error fails with both updates kept; otherwise the two
   * adapted dicts are scored by process_unity_message on the updated state.
   */
  lemma ProcessMocopiAdapts(m: MathLib, s: Session, p: Value, q: Value)
    requires SessionInv(s)
    requires !IsResetCommand(p) && !IsResetCommand(q)
    ensures var a1 := MocopiAdapter.AdaptFrame(s.adapter, p, "player", Config.WindowSize);
      var r := ProcessMocopi(m, s, Parsed(p), Parsed(q));
      a1.out.Err? ==> r == Reply(s.(adapter := a1.state), Failed)
    ensures var a1 := MocopiAdapter.AdaptFrame(s.adapter, p, "player", Config.WindowSize);
      var a2 := MocopiAdapter.AdaptFrame(a1.state, q, "ref", Config.WindowSize);
      var r := ProcessMocopi(m, s, Parsed(p), Parsed(q));
      a1.out.Ok? && a2.out.Err? ==> r == Reply(s.(adapter := a2.state), Failed)
    ensures var a1 := MocopiAdapter.AdaptFrame(s.adapter, p, "player", Config.WindowSize);
      var a2 := MocopiAdapter.AdaptFrame(a1.state, q, "ref", Config.WindowSize);
      var s2 := s.(adapter := a2.state);
      a1.out.Ok? && a2.out.Ok? ==>
        SessionInv(s2) && ProcessMocopi(m, s, Parsed(p), Parsed(q)) == ProcessUnity(m, s2, Parsed(a1.out.value), a2.out.value)
  {
    var a1 := MocopiAdapter.AdaptFrame(s.adapter, p, "player", Config.WindowSize);
    AdaptKeepsInv(s, p, "player");
    var s1 := s.(adapter := a1.state);
    AdaptKeepsInv(s1, q, "ref");
  }

  lemma AdaptKeepsInv(s: Session, frame: Value, stream: string)
    requires SessionInv(s)
    ensures SessionInv(s.(adapter := MocopiAdapter.AdaptFrame(s.adapter, frame, stream, Config.WindowSize).state))
  {
    MocopiAdapter.AdaptKeepsBounded(s.adapter, frame, stream, Config.WindowSize);
  }

  // ---------------------------------------------------------------- lemmas

  /** compute() never raises on the session's DTW: band 8 never overruns a row, and the cost is not negative. */
  lemma SessionCostDefined(m: MathLib, s: Session)
    requires SessionInv(s)
    ensures SlidingDtw.Cost(m, s.dtw).Ok?
    ensures SqrtLaws(m) ==> SlidingDtw.Cost(m, s.dtw).value >= 0.0
  {
    if SqrtLaws(m) {
      SlidingDtw.CostNonNegative(m, s.dtw);
    }
  }

  /**
   * A scoring call fails exactly when some stage raises: converting either
   * side, the pose score, either feature, or the rhythm score. The DTW
   * itself never raises.
   */
  lemma ScoreFailsExactly(m: MathLib, s: Session, raw: Value, reference: Value)
    requires SessionInv(s)
    ensures Score(m, s, raw, reference).outcome.Failed? <==>
      || Utils.JsonToMotionData(raw).Err? || ReferenceData(reference).Err?
      || var p, q := Utils.JsonToMotionData(raw).value.entries, ReferenceData(reference).value.entries;
         || PoseScore.ComputePoseScore(m, Rotations(p), Rotations(q)).Err?
         || ExtractDtwFeature(p).Err? || ExtractDtwFeature(q).Err?
         || RhythmScore.ComputeRhythmScore(m, RhythmSignal(p), RhythmSignal(q)).Err?
    ensures
      var r := Score(m, s, raw, reference);
      Utils.JsonToMotionData(raw).Err? || ReferenceData(reference).Err? ==> r == Reply(s, Failed)
    ensures
      var r := Score(m, s, raw, reference);
      Utils.JsonToMotionData(raw).Ok? && ReferenceData(reference).Ok? ==>
        var p, q := Utils.JsonToMotionData(raw).value.entries, ReferenceData(reference).value.entries;
        var pf, rf := ExtractDtwFeature(p), ExtractDtwFeature(q);
        && (PoseScore.ComputePoseScore(m, Rotations(p), Rotations(q)).Err? || pf.Err? || rf.Err? ==> r == Reply(s, Failed))
        && (PoseScore.ComputePoseScore(m, Rotations(p), Rotations(q)).Ok? && pf.Ok? && rf.Ok? ==>
              r.session == if pf.value.Some? && rf.value.Some?
                           then s.(dtw := SlidingDtw.AddFrame(s.dtw, pf.value.value, rf.value.value))
                           else s)
  {
    if Utils.JsonToMotionData(raw).Ok? && ReferenceData(reference).Ok? {
      var p, q := Utils.JsonToMotionData(raw).value.entries, ReferenceData(reference).value.entries;
      var pose := PoseScore.ComputePoseScore(m, Rotations(p), Rotations(q));
      var pf, rf := ExtractDtwFeature(p), ExtractDtwFeature(q);
      if pose.Ok? && pf.Ok? && rf.Ok? {
        CombineFailsExactly(m, s, pose.value, pf.value, rf.value, RhythmScore.ComputeRhythmScore(m, RhythmSignal(p), RhythmSignal(q)));
      }
    }
  }

  /** Once both features are known, only the rhythm score can make the reply fail. */
  lemma CombineFailsExactly(m: MathLib, s: Session, pose: real, pf: Option<seq<Float>>, rf: Option<seq<Float>>,
                            rhythm: Result<real, PyError>)
    requires SessionInv(s)
    requires pf.Some? ==> |pf.value| == FeatureDim && AllFinite(pf.value)
    requires rf.Some? ==> |rf.value| == FeatureDim && AllFinite(rf.value)
    ensures Combine(m, s, pose, pf, rf, rhythm).outcome.Failed? <==> rhythm.Err?
  {
    if pf.Some? && rf.Some? {
      SessionCostDefined(m, s.(dtw := Advance(s.dtw, pf.value, rf.value)));
    }
  }

  /**
   * What a scored reply is made of: the pose and rhythm scores of the two
   * converted messages; a trajectory score only when both features exist,
   * after the pair went into the window; otherwise 0.5 with the session as it was.
   */
  lemma ScoredReply(m: MathLib, s: Session, raw: Value, reference: Value)
    requires SessionInv(s)
    ensures var r := Score(m, s, raw, reference);
      r.outcome.Scored? ==>
        && Utils.JsonToMotionData(raw).Ok? && ReferenceData(reference).Ok?
        && var p, q := Utils.JsonToMotionData(raw).value.entries, ReferenceData(reference).value.entries;
        && PoseScore.ComputePoseScore(m, Rotations(p), Rotations(q)) == Ok(r.outcome.pose)
        && RhythmScore.ComputeRhythmScore(m, RhythmSignal(p), RhythmSignal(q)) == Ok(r.outcome.rhythm)
        && ExtractDtwFeature(p).Ok? && ExtractDtwFeature(q).Ok?
        && var pf, rf := ExtractDtwFeature(p).value, ExtractDtwFeature(q).value;
        && (r.outcome.trajectoryValid <==> pf.Some? && rf.Some?)
        && (r.outcome.trajectoryValid <==> r.outcome.dtwCost.Some?)
        && (!r.outcome.trajectoryValid ==> r.outcome.trajectory == 0.5 && r.session == s)
        && (r.outcome.trajectoryValid ==>
              && r.session.dtw == SlidingDtw.AddFrame(s.dtw, pf.value, rf.value)
              && SlidingDtw.Cost(m, r.session.dtw) == Ok(r.outcome.dtwCost.value)
              && r.outcome.trajectory == TrajectoryScore(m, r.outcome.dtwCost.value))
  {
    var r := Score(m, s, raw, reference);
    if r.outcome.Scored? {
      var p, q := Utils.JsonToMotionData(raw).value.entries, ReferenceData(reference).value.entries;
      assert r == ScoreData(m, s, p, q);
      var pose := PoseScore.ComputePoseScore(m, Rotations(p), Rotations(q));
      var pf, rf := ExtractDtwFeature(p), ExtractDtwFeature(q);
      var rhythm := RhythmScore.ComputeRhythmScore(m, RhythmSignal(p), RhythmSignal(q));
      assert r == Combine(m, s, pose.value, pf.value, rf.value, rhythm);
      CombineScored(m, s, pose.value, pf.value, rf.value, rhythm);
    }
  }

  /** A scored reply from Combine: the trajectory part, given the pose, features and rhythm. */
  lemma CombineScored(m: MathLib, s: Session, pose: real, pf: Option<seq<Float>>, rf: Option<seq<Float>>,
                      rhythm: Result<real, PyError>)
    requires SessionInv(s)
    requires pf.Some? ==> |pf.value| == FeatureDim && AllFinite(pf.value)
    requires rf.Some? ==> |rf.value| == FeatureDim && AllFinite(rf.value)
    ensures var r := Combine(m, s, pose, pf, rf, rhythm);
      r.outcome.Scored? ==>
        && r.outcome.pose == pose && rhythm == Ok(r.outcome.rhythm)
        && (r.outcome.trajectoryValid <==> pf.Some? && rf.Some?)
        && (r.outcome.trajectoryValid <==> r.outcome.dtwCost.Some?)
        && (!r.outcome.trajectoryValid ==> r.outcome.trajectory == 0.5 && r.session == s)
        && (r.outcome.trajectoryValid ==>
              && r.session.dtw == SlidingDtw.AddFrame(s.dtw, pf.value, rf.value)
              && SlidingDtw.Cost(m, r.session.dtw) == Ok(r.outcome.dtwCost.value)
              && r.outcome.trajectory == TrajectoryScore(m, r.outcome.dtwCost.value))
  {
  }

  /**
   * A player who traces the reference exactly: when the window already holds
   * identical buffers and both messages yield the same feature, the DTW cost
   * is 0 and the trajectory score is 1, and the buffers stay identical.
   */
  lemma MirroredTrajectory(m: MathLib, s: Session, raw: Value, reference: Value)
    requires ExpLaws(m) && SqrtLaws(m)
    requires SessionInv(s) && s.dtw.player == s.dtw.ref
    ensures var r := Score(m, s, raw, reference);
      r.outcome.Scored? && r.outcome.trajectoryValid
        && ExtractDtwFeature(Utils.JsonToMotionData(raw).value.entries) == ExtractDtwFeature(ReferenceData(reference).value.entries)
      ==> r.outcome.trajectory == 1.0 && r.outcome.dtwCost == Some(0.0) && r.session.dtw.player == r.session.dtw.ref
  {
    var r := Score(m, s, raw, reference);
    ScoredReply(m, s, raw, reference);
    if r.outcome.Scored? && r.outcome.trajectoryValid {
      var p, q := Utils.JsonToMotionData(raw).value.entries, ReferenceData(reference).value.entries;
      var pf, rf := ExtractDtwFeature(p).value, ExtractDtwFeature(q).value;
      if pf == rf {
        FeatureAccepted(pf.value, rf.value);
        var d := SlidingDtw.AddFrame(s.dtw, pf.value, rf.value);
        assert d.player == d.ref;
        SlidingDtw.CostIdentical(m, d);
      }
    }
  }

  /** Every number in a scored reply lies in [0, 1], and the grade is that of the fused score. */
  lemma ScoredInRange(m: MathLib, s: Session, raw: Value, reference: Value)
    requires SessionInv(s)
    ensures var o := Score(m, s, raw, reference).outcome;
      o.Scored? ==>
        && 0.0 <= o.pose <= 1.0 && 0.0 <= o.trajectory <= 1.0 && 0.0 <= o.rhythm <= 1.0
        && 0.0 <= o.final <= 1.0
        && o.final == Fuse(o.pose, o.trajectory, o.rhythm)
        && o.grade == Utils.ComputeGrade(o.final)
  {
    ScoredReply(m, s, raw, reference);
  }

  /** A reference that is already in scoring format and has an empty list as its rhythm signal yields rhythm 0.5. */
  lemma EmptyReferenceRhythm(m: MathLib, s: Session, msg: Message, reference: Value)
    requires SessionInv(s)
    requires reference.Dict? && Get(reference.entries, "rotations").Some? && Get(reference.entries, "trajectories").Some?
    requires Get(reference.entries, "rhythm_signal") == Some(List([]))
    ensures ProcessUnity(m, s, msg, reference).outcome.Scored? ==> ProcessUnity(m, s, msg, reference).outcome.rhythm == 0.5
  {
    if msg.Parsed? && !IsResetRequest(msg.value) {
      ScoredReply(m, s, msg.value, reference);
      assert RhythmSignal(reference.entries) == List([]);
      if Utils.JsonToMotionData(msg.value).Ok? {
        var p := Utils.JsonToMotionData(msg.value).value.entries;
        RhythmScore.EmptySignalNeutral(m, RhythmSignal(p));
      }
    }
  }

  /** On the mocopi path the reference carries an empty rhythm signal, so a scored reply's rhythm is always 0.5. */
  lemma MocopiRhythmNeutral(m: MathLib, s: Session, playerMsg: Message, refMsg: Message)
    requires SessionInv(s)
    ensures ProcessMocopi(m, s, playerMsg, refMsg).outcome.Scored? ==> ProcessMocopi(m, s, playerMsg, refMsg).outcome.rhythm == 0.5
  {
    var out := ProcessMocopi(m, s, playerMsg, refMsg);
    if playerMsg.Parsed? && refMsg.Parsed? && !IsResetCommand(playerMsg.value) && !IsResetCommand(refMsg.value) {
      var a1 := MocopiAdapter.AdaptFrame(s.adapter, playerMsg.value, "player", Config.WindowSize);
      AdaptKeepsInv(s, playerMsg.value, "player");
      var s1 := s.(adapter := a1.state);
      if a1.out.Ok? {
        var a2 := MocopiAdapter.AdaptFrame(a1.state, refMsg.value, "ref", Config.WindowSize);
        AdaptKeepsInv(s1, refMsg.value, "ref");
        var s2 := s1.(adapter := a2.state);
        if a2.out.Ok? {
          assert out == ProcessUnity(m, s2, Parsed(a1.out.value), a2.out.value);
          EmptyReferenceRhythm(m, s2, Parsed(a1.out.value), a2.out.value);
        }
      }
    }
  }
}

=== FILE: utils.dfy ===
/**
 * src/utils.py: letter grading, the quaternion distance the pose score uses,
 * and the conversion of a decoded scoring message into motion data.
 */
module Utils {
  import opened Wrappers
  import opened Floats
  import opened PyValues

  // ---------------------------------------------------------------- grading

  datatype Grade = Perfect | Good | OK | Miss

  /** Grades ordered from worst to best. */
  function Rank(g: Grade): nat {
    match g
    case Miss => 0
    case OK => 1
    case Good => 2
    case Perfect => 3
  }

  /** compute_grade: inclusive lower bounds 0.85, 0.70 and 0.50. */
  function ComputeGrade(score: real): (g: Grade)
    ensures g == Perfect <==> score >= 0.85
    ensures g == Good <==> 0.70 <= score < 0.85
    ensures g == OK <==> 0.50 <= score < 0.70
    ensures g == Miss <==> score < 0.50
  {
    if score >= 0.85 then Perfect
    else if score >= 0.70 then Good
    else if score >= 0.50 then OK
    else Miss
  }

  /** A higher score never earns a worse grade. */
  lemma GradeMonotone(a: real, b: real)
    requires a <= b
    ensures Rank(ComputeGrade(a)) <= Rank(ComputeGrade(b))
  {
  }

  // ---------------------------------------------------------------- quaternions

  const Identity: seq<real> := [1.0, 0.0, 0.0, 0.0]

  /** np.dot of two 4-vectors. */
  function Dot4(a: seq<real>, b: seq<real>): real
    requires |a| == 4 && |b| == 4
  {
    a[0] * b[0] + a[1] * b[1] + a[2] * b[2] + a[3] * b[3]
  }

  lemma SumSq4(xs: seq<real>)
    requires |xs| == 4
    ensures SumSq(xs) == xs[0] * xs[0] + xs[1] * xs[1] + xs[2] * xs[2] + xs[3] * xs[3]
  {
    assert SumSq(xs[..1]) == xs[0] * xs[0] by {
      assert xs[..1][..0] == [];
    }
    assert SumSq(xs[..2]) == SumSq(xs[..1]) + xs[1] * xs[1] by {
      assert xs[..2][..1] == xs[..1];
    }
    assert SumSq(xs[..3]) == SumSq(xs[..2]) + xs[2] * xs[2] by {
      assert xs[..3][..2] == xs[..2];
    }
    assert xs[..4] == xs;
  }

  function Square(x: real): real { x * x }

  lemma ScaleSq(u: real, v: real, k: real, c: real)
    requires u * k == v && c == Square(k)
    ensures Square(u) * c == Square(v)
  {
    assert u * u * (k * k) == (u * k) * (u * k);
  }

  lemma SumStep(a0: real, a1: real, a2: real, a3: real, b0: real, b1: real, b2: real, b3: real, c: real)
    requires a0 * c == b0 && a1 * c == b1 && a2 * c == b2 && a3 * c == b3
    ensures (a0 + a1 + a2 + a3) * c == b0 + b1 + b2 + b3
  {
  }

  lemma MulPositive(a: real, b: real)
    requires a > 0.0 && b > 0.0
    ensures a * b > 0.0
  {
    assert a * b > 0.0 * b;
  }

  lemma MulNegative(a: real, b: real)
    requires a < 0.0 && b > 0.0
    ensures a * b < 0.0
  {
    assert a * b < 0.0 * b;
  }

  /** d * s == s with s positive forces d == 1. */
  lemma CancelPositive(d: real, s: real, t: real)
    requires s > 0.0
    requires d * s == t && t == s
    ensures d == 1.0
  {
    assert (d - 1.0) * s == d * s - s;
    if d > 1.0 { MulPositive(d - 1.0, s); } else if d < 1.0 { MulNegative(d - 1.0, s); }
  }

  /** Dividing a non-zero 4-vector by its Euclidean length gives a unit vector. */
  lemma UnitScale(v0: real, v1: real, v2: real, v3: real, k: real, u0: real, u1: real, u2: real, u3: real)
    requires Square(v0) + Square(v1) + Square(v2) + Square(v3) > 0.0
    requires Square(k) == Square(v0) + Square(v1) + Square(v2) + Square(v3)
    requires u0 * k == v0 && u1 * k == v1 && u2 * k == v2 && u3 * k == v3
    ensures Square(u0) + Square(u1) + Square(u2) + Square(u3) == 1.0
  {
    var s := Square(v0) + Square(v1) + Square(v2) + Square(v3);
    ScaleSq(u0, v0, k, s);
    ScaleSq(u1, v1, k, s);
    ScaleSq(u2, v2, k, s);
    ScaleSq(u3, v3, k, s);
    SumStep(Square(u0), Square(u1), Square(u2), Square(u3), Square(v0), Square(v1), Square(v2), Square(v3), s);
    CancelPositive(Square(u0) + Square(u1) + Square(u2) + Square(u3), s, Square(v0) + Square(v1) + Square(v2) + Square(v3));
  }

  /**
   * safe_unit_quat: the identity when the norm is non-finite or below 1e-8,
   * otherwise the vector divided by its norm.
   */
  function SafeUnitQuat(m: MathLib, q: seq<Float>): (r: seq<real>)
    requires |q| == 4
    ensures |r| == 4
    ensures Norm(m, q).NonFinite? ==> r == Identity
    ensures Norm(m, q).Finite? && Norm(m, q).val < 0.00000001 ==> r == Identity
    ensures Norm(m, q).Finite? && Norm(m, q).val >= 0.00000001 ==>
      forall i :: 0 <= i < 4 ==> r[i] * Norm(m, q).val == Values(q)[i]
  {
    var n := Norm(m, q);
    if n.NonFinite? || n.val < 0.00000001 then Identity
    else
      var v := Values(q);
      [v[0] / n.val, v[1] / n.val, v[2] / n.val, v[3] / n.val]
  }

  lemma UnitVector(v: seq<real>, k: real, u: seq<real>)
    requires |v| == 4 && |u| == 4
    requires SumSq(v) > 0.0 && k * k == SumSq(v)
    requires forall i :: 0 <= i < 4 ==> u[i] * k == v[i]
    ensures Dot4(u, u) == 1.0
  {
    SumSq4(v);
    UnitScale(v[0], v[1], v[2], v[3], k, u[0], u[1], u[2], u[3]);
  }

  /** Whatever the input, safe_unit_quat returns a unit quaternion. */
  lemma SafeUnitQuatIsUnit(m: MathLib, q: seq<Float>)
    requires SqrtLaws(m)
    requires |q| == 4
    ensures Dot4(SafeUnitQuat(m, q), SafeUnitQuat(m, q)) == 1.0
  {
    var n := Norm(m, q);
    if n.Finite? && n.val >= 0.00000001 {
      var v := Values(q);
      assert n.val == m.sqrt(SumSq(v));
      assert SumSq(v) != 0.0;
      UnitVector(v, n.val, SafeUnitQuat(m, q));
    }
  }

  /** The xyzw-to-wxyz reordering [q3, q0, q1, q2]. */
  function Shift(q: seq<Float>): (r: seq<Float>)
    requires |q| == 4
    ensures |r| == 4 && r[0] == q[3] && r[1..] == q[..3]
  {
    [q[3], q[0], q[1], q[2]]
  }

  /** Four reorderings bring every component back to its place. */
  lemma ShiftFourTimes(q: seq<Float>)
    requires |q| == 4
    ensures Shift(Shift(Shift(Shift(q)))) == q
  {
  }

  /** _angle: arccos of the clipped absolute dot product. */
  function Angle(m: MathLib, a: seq<real>, b: seq<real>): real
    requires |a| == 4 && |b| == 4
  {
    m.arccos(Clip(Abs(Dot4(a, b)), -1.0, 1.0))
  }

  /** Both orderings' angles, normalised by pi/2. */
  function Direct(m: MathLib, a: seq<Float>, b: seq<Float>): real
    requires |a| == 4 && |b| == 4
  {
    Angle(m, SafeUnitQuat(m, a), SafeUnitQuat(m, b)) / (Pi / 2.0)
  }

  function Shifted(m: MathLib, a: seq<Float>, b: seq<Float>): real
    requires |a| == 4 && |b| == 4
  {
    Angle(m, SafeUnitQuat(m, Shift(a)), SafeUnitQuat(m, Shift(b))) / (Pi / 2.0)
  }

  /**
   * quaternion_distance on two 4-vectors: the smaller of the two orderings'
   * angles, normalised by pi/2 and clipped to [0, 1].
   */
  function QuatDistance(m: MathLib, a: seq<Float>, b: seq<Float>): (r: real)
    requires |a| == 4 && |b| == 4
    ensures 0.0 <= r <= 1.0
    ensures r <= Clip(Direct(m, a, b), 0.0, 1.0) && r <= Clip(Shifted(m, a, b), 0.0, 1.0)
    ensures r == Clip(Direct(m, a, b), 0.0, 1.0) || r == Clip(Shifted(m, a, b), 0.0, 1.0)
  {
    var ang := Min(Angle(m, SafeUnitQuat(m, a), SafeUnitQuat(m, b)),
                   Angle(m, SafeUnitQuat(m, Shift(a)), SafeUnitQuat(m, Shift(b))));
    Clip(ang / (Pi / 2.0), 0.0, 1.0)
  }

  /** quaternion_distance(q1, q2): both arguments must convert to 4 floats. */
  function QuaternionDistance(m: MathLib, q1: Value, q2: Value): (r: Result<Float, PyError>)
    ensures r.Err? <==> AsVector(q1, 4).Err? || AsVector(q2, 4).Err?
    ensures r.Ok? ==> r.value.Finite? && 0.0 <= r.value.val <= 1.0
    ensures r.Ok? ==> r.value == Finite(QuatDistance(m, AsVector(q1, 4).value, AsVector(q2, 4).value))
  {
    var a :- AsVector(q1, 4);
    var b :- AsVector(q2, 4);
    Ok(Finite(QuatDistance(m, a, b)))
  }

  lemma QuatDistanceSymmetric(m: MathLib, a: seq<Float>, b: seq<Float>)
    requires |a| == 4 && |b| == 4
    ensures QuatDistance(m, a, b) == QuatDistance(m, b, a)
  {
    var ua, ub := SafeUnitQuat(m, a), SafeUnitQuat(m, b);
    var sa, sb := SafeUnitQuat(m, Shift(a)), SafeUnitQuat(m, Shift(b));
    assert Dot4(ua, ub) == Dot4(ub, ua);
    assert Dot4(sa, sb) == Dot4(sb, sa);
  }

  /** The distance of a quaternion to itself is 0. */
  lemma QuatDistanceSelf(m: MathLib, a: seq<Float>)
    requires SqrtLaws(m) && ArccosLaws(m)
    requires |a| == 4
    ensures QuatDistance(m, a, a) == 0.0
  {
    SafeUnitQuatIsUnit(m, a);
    SafeUnitQuatIsUnit(m, Shift(a));
  }

  function NegF(x: Float): Float {
    match x
    case NonFinite => NonFinite
    case Finite(v) => Finite(-v)
  }

  function Neg(q: seq<Float>): (r: seq<Float>)
    requires |q| == 4
    ensures |r| == 4 && forall i :: 0 <= i < 4 ==> r[i] == NegF(q[i])
  {
    [NegF(q[0]), NegF(q[1]), NegF(q[2]), NegF(q[3])]
  }

  /** Negating a quaternion does not change its norm. */
  lemma NormNeg(m: MathLib, q: seq<Float>)
    requires |q| == 4
    ensures Norm(m, Neg(q)) == Norm(m, q)
  {
    var nq := Neg(q);
    if AllFinite(q) {
      assert AllFinite(nq);
      var v, w := Values(q), Values(nq);
      assert forall i :: 0 <= i < 4 ==> w[i] == -v[i];
      SumSq4(v);
      SumSq4(w);
      assert w[0] * w[0] == v[0] * v[0];
      assert SumSq(w) == SumSq(v);
    } else {
      assert !AllFinite(nq);
    }
  }

  /** safe_unit_quat(-q) is -safe_unit_quat(q), except that the identity fallback stays the identity. */
  lemma SafeUnitQuatNeg(m: MathLib, q: seq<Float>)
    requires |q| == 4
    ensures var n := Norm(m, q);
      var u := SafeUnitQuat(m, q);
      SafeUnitQuat(m, Neg(q)) == if n.Finite? && n.val >= 0.00000001 then [-u[0], -u[1], -u[2], -u[3]] else Identity
  {
    NormNeg(m, q);
    var n := Norm(m, q);
    if n.Finite? && n.val >= 0.00000001 {
      var v, w := Values(q), Values(Neg(q));
      assert forall i :: 0 <= i < 4 ==> w[i] == -v[i];
      assert forall i :: 0 <= i < 4 ==> w[i] / n.val == -(v[i] / n.val);
    }
  }

  /** q and -q are the same rotation: their distance is 0. */
  lemma QuatDistanceAntipodal(m: MathLib, a: seq<Float>)
    requires SqrtLaws(m) && ArccosLaws(m)
    requires |a| == 4
    ensures QuatDistance(m, a, Neg(a)) == 0.0
  {
    assert Shift(Neg(a)) == Neg(Shift(a));
    AntipodalAngle(m, a);
    AntipodalAngle(m, Shift(a));
  }

  lemma DotNeg(u: seq<real>)
    requires |u| == 4
    ensures Dot4(u, [-u[0], -u[1], -u[2], -u[3]]) == -Dot4(u, u)
  {
  }

  lemma AntipodalDot(m: MathLib, a: seq<Float>)
    requires SqrtLaws(m)
    requires |a| == 4
    ensures Abs(Dot4(SafeUnitQuat(m, a), SafeUnitQuat(m, Neg(a)))) == 1.0
  {
    var u := SafeUnitQuat(m, a);
    var w := SafeUnitQuat(m, Neg(a));
    SafeUnitQuatNeg(m, a);
    var n := Norm(m, a);
    if n.Finite? && n.val >= 0.00000001 {
      assert w == [-u[0], -u[1], -u[2], -u[3]];
      SafeUnitQuatIsUnit(m, a);
      DotNeg(u);
    } else {
      assert u == Identity && w == Identity;
    }
  }

  lemma AntipodalAngle(m: MathLib, a: seq<Float>)
    requires SqrtLaws(m) && ArccosLaws(m)
    requires |a| == 4
    ensures Angle(m, SafeUnitQuat(m, a), SafeUnitQuat(m, Neg(a))) == 0.0
  {
    AntipodalDot(m, a);
    var d := Abs(Dot4(SafeUnitQuat(m, a), SafeUnitQuat(m, Neg(a))));
    assert Clip(d, -1.0, 1.0) == 1.0;
  }

  // ---------------------------------------------------------------- motion data

  /** np.asarray(v, dtype=float32).reshape(n,) as an array value. */
  function Vector(v: Value, n: nat): (r: Result<Value, PyError>)
    ensures r.Ok? ==> r.value.NdArr? && r.value.arr.shape == [n]
    ensures r.Ok? <==> AsVector(v, n).Ok?
    ensures r.Ok? ==> r.value.arr.data == AsVector(v, n).value
  {
    var a :- AsArray(v);
    var b :- Reshape(a, [n]);
    Ok(NdArr(b))
  }

  /** One rotation entry: kept as a 4-array when it converts, dropped otherwise. */
  function ConvertRotation(quat: Value): Option<Value> {
    match Vector(quat, 4)
    case Ok(a) => Some(a)
    case Err(_) => None
  }

  /** The points of one trajectory, each as a 3-array; the first failure fails them all. */
  function Points(items: seq<Value>): (r: Result<seq<Value>, PyError>)
    ensures r.Ok? <==> forall i :: 0 <= i < |items| ==> Vector(items[i], 3).Ok?
    ensures r.Ok? ==> |r.value| == |items| && forall i :: 0 <= i < |items| ==> r.value[i] == Vector(items[i], 3).value
  {
    if |items| == 0 then Ok([])
    else
      var p :- Vector(items[0], 3);
      var rest :- Points(items[1..]);
      Ok([p] + rest)
  }

  /** One trajectory entry: None is skipped, a non-iterable or any bad point drops the joint. */
  function ConvertTrajectory(traj: Value): Option<Value> {
    if traj.Null? then None
    else
      match Iterate(traj)
      case Err(_) => None
      case Ok(items) =>
        match Points(items)
        case Err(_) => None
        case Ok(ps) => Some(List(ps))
  }

  /** A dict comprehension with a try/except inside: entries whose conversion fails are left out. */
  function KeepConverted(es: Entries, convert: Value -> Option<Value>): Entries
  {
    if |es| == 0 then []
    else
      var acc := KeepConverted(es[..|es| - 1], convert);
      var (k, v) := es[|es| - 1];
      match convert(v)
      case Some(c) => Put(acc, k, c)
      case None => acc
  }

  /** Key by key, the converted dict holds exactly the entries whose conversion succeeded. */
  lemma {:induction false} KeepConvertedKeyed(es: Entries, convert: Value -> Option<Value>, key: string)
    requires DistinctKeys(es)
    ensures Get(KeepConverted(es, convert), key) == match Get(es, key) case None => None case Some(v) => convert(v)
  {
    if |es| > 0 {
      var pre := es[..|es| - 1];
      var last := es[|es| - 1];
      assert es == pre + [last];
      KeepConvertedKeyed(pre, convert, key);
      GetSnoc(pre, last, key);
      if last.0 == key {
        forall i | 0 <= i < |pre|
          ensures pre[i].0 != key
        {
          assert es[i] == pre[i];
        }
      }
    }
  }

  /** The empty float32 array. */
  function EmptyArray(): NdArray {
    RawArray([0], [])
  }

  /**
   * json_to_motion_data: the four scoring fields with their defaults. Only a
   * value without dict methods, or the truth value of a multi-element array,
   * makes it raise.
   */
  function JsonToMotionData(v: Value): (r: Result<Value, PyError>)
    ensures !v.Dict? ==> r == Err(AttributeError)
    ensures v.Dict? && !GetOr(v.entries, "rotations", Null).NdArr? && !GetOr(v.entries, "trajectories", Null).NdArr? ==> r.Ok?
    ensures r.Ok? ==>
      && r.value.Dict?
      && Get(r.value.entries, "rotations").Some? && Get(r.value.entries, "rotations").value.Dict?
      && Get(r.value.entries, "trajectories").Some? && Get(r.value.entries, "trajectories").value.Dict?
      && Get(r.value.entries, "rhythm_signal").Some? && Get(r.value.entries, "rhythm_signal").value.NdArr?
      && Get(r.value.entries, "timestamp") == Some(GetOr(v.entries, "timestamp", Num(Finite(0.0))))
  {
    if !v.Dict? then Err(AttributeError)
    else
      var e := v.entries;
      var timestamp := GetOr(e, "timestamp", Num(Finite(0.0)));
      var rotIn :- OrElse(GetOr(e, "rotations", Dict([])), Dict([]));
      var rotations := if rotIn.Dict? then KeepConverted(rotIn.entries, ConvertRotation) else [];
      var trajIn :- OrElse(GetOr(e, "trajectories", Dict([])), Dict([]));
      var trajectories := if trajIn.Dict? then KeepConverted(trajIn.entries, ConvertTrajectory) else [];
      var rhythm := match AsArray(GetOr(e, "rhythm_signal", List([]))) case Ok(a) => a case Err(_) => EmptyArray();
      Ok(MotionDict(timestamp, Dict(rotations), Dict(trajectories), NdArr(rhythm)))
  }

  /** A message with none of the keys gets the defaults: timestamp 0, no rotations, no trajectories, no rhythm. */
  lemma MotionDataDefaults()
    ensures JsonToMotionData(Dict([])) == Ok(MotionDict(Num(Finite(0.0)), Dict([]), Dict([]), NdArr(EmptyArray())))
  {
    var parts := AsArrays([]);
    assert AsArray(List([])) == Stack(parts);
  }

  /** The pieces json_to_motion_data assembles, as seen in its result. */
  lemma MotionDataParts(v: Value)
    requires JsonToMotionData(v).Ok?
    ensures v.Dict?
    ensures var e := v.entries;
      var rotIn := OrElse(GetOr(e, "rotations", Dict([])), Dict([]));
      var trajIn := OrElse(GetOr(e, "trajectories", Dict([])), Dict([]));
      var out := JsonToMotionData(v).value.entries;
      && rotIn.Ok? && trajIn.Ok?
      && Get(out, "rotations") == Some(Dict(if rotIn.value.Dict? then KeepConverted(rotIn.value.entries, ConvertRotation) else []))
      && Get(out, "trajectories") == Some(Dict(if trajIn.value.Dict? then KeepConverted(trajIn.value.entries, ConvertTrajectory) else []))
  {
  }

  /** The motion data's rotation for a joint: present exactly when the message's entry converts to 4 floats. */
  lemma MotionDataRotations(v: Value, joint: string)
    requires v.Dict?
    requires var rot := GetOr(v.entries, "rotations", Null); rot.Dict? && rot.entries != [] && DistinctKeys(rot.entries)
    requires JsonToMotionData(v).Ok?
    ensures var rot := GetOr(v.entries, "rotations", Null).entries;
      Get(Get(JsonToMotionData(v).value.entries, "rotations").value.entries, joint)
        == match Get(rot, joint) case None => None case Some(q) => ConvertRotation(q)
  {
    var rot := GetOr(v.entries, "rotations", Null);
    assert GetOr(v.entries, "rotations", Dict([])) == rot;
    assert OrElse(rot, Dict([])) == Ok(rot);
    MotionDataParts(v);
    KeepConvertedKeyed(rot.entries, ConvertRotation, joint);
  }

  /** The motion data's trajectory for a joint: present exactly when the entry is not None and every point converts to 3 floats. */
  lemma MotionDataTrajectories(v: Value, joint: string)
    requires v.Dict?
    requires var tr := GetOr(v.entries, "trajectories", Null); tr.Dict? && tr.entries != [] && DistinctKeys(tr.entries)
    requires JsonToMotionData(v).Ok?
    ensures var tr := GetOr(v.entries, "trajectories", Null).entries;
      Get(Get(JsonToMotionData(v).value.entries, "trajectories").value.entries, joint)
        == match Get(tr, joint) case None => None case Some(t) => ConvertTrajectory(t)
  {
    var tr := GetOr(v.entries, "trajectories", Null);
    assert GetOr(v.entries, "trajectories", Dict([])) == tr;
    assert OrElse(tr, Dict([])) == Ok(tr);
    MotionDataParts(v);
    KeepConvertedKeyed(tr.entries, ConvertTrajectory, joint);
  }

  /** A rhythm signal numpy cannot convert becomes the empty array; one it can is kept as converted. */
  lemma MotionDataRhythm(v: Value)
    requires JsonToMotionData(v).Ok?
    ensures var sig := GetOr(v.entries, "rhythm_signal", List([]));
      Get(JsonToMotionData(v).value.entries, "rhythm_signal")
        == Some(NdArr(if AsArray(sig).Ok? then AsArray(sig).value else EmptyArray()))
  {
  }
}

=== FILE: wrappers.dfy ===
/** Failure-compatible Option and Result types shared by every module. */
module Wrappers {

  datatype Option<+T> = None | Some(value: T) {
    predicate IsFailure() { None? }

    function PropagateFailure<U>(): Option<U>
      requires None?
    {
      None
    }

    function Extract(): T
      requires Some?
    {
      value
    }

    function GetOr(default: T): T {
      match this
      case Some(v) => v
      case None => default
    }
  }

  datatype Result<+T, +E> = Ok(value: T) | Err(error: E) {
    predicate IsFailure() { Err? }

    function PropagateFailure<U>(): Result<U, E>
      requires Err?
    {
      Err(error)
    }

    function Extract(): T
      requires Ok?
    {
      value
    }
  }
}
